=== FILE: README.md ===
# openclaw-framework memory tooling, modelled in Dafny

This project models the memory tooling of the OpenClaw framework in Dafny and proves properties of the model.

The centre is the **incremental transcript sync** (`services/memory-db/sync.js`). It does four things:
- It discovers the OpenClaw instance directories under a root.
- It reads each session's line-delimited JSON transcript from the byte offset stored for that session.
- It turns user and assistant records into message rows and detects cron-triggered sessions.
- It writes messages, cron reports and the session row into three keyed tables.

Around it sit four smaller pieces:
- the markdown parsing and rewrites of the workspace tool server (`tools/server.js`);
- the escaping, cookie, authentication and query-building helpers of the Mission Control web interface (`services/memory-db/server.js`);
- the argument handling of the query command line (`services/memory-db/query.js`);
- the badge recolouring script (`skills/bot-avatar-stamp/scripts/generate_bot_badges.py`).

The files are:
- `wrappers.dfy`: `Option`.
- `text.dfy`: the JavaScript string operations the sources rely on.
  - ECMAScript white space and `trim`; `\w`.
  - `split`/`join`, first-occurrence `replace`, `indexOf`.
  - `parseInt` and the UTF-8 byte length.
- `transcript.dfy`: transcript records, `extractContent`, `detectCronSession`, `extractSummary`.
- `scan.dfy`: the line loop of `syncFile` as a left fold, and the offset arithmetic.
- `discovery.dfy`: `findInstanceDirs` and the view-name guard.
- `sync.dfy`: the tables as maps inside a `Store` class. It also holds `syncFile` and its specification `SyncSpec`, and the per-file loop of `main`.
- `sync_props.dfy`: properties of a whole sync pass, including end-to-end scenarios.
- `notes.dfy`: `parseStructuredMd` and the listings of tasks, todos and reminders.
- `rewrites.dfy`: the reminder toggle, todo completion and setting update.
- `activity.dfy`: the activity feed.
- `mission.dfy`: `escapeHtml`, `parseCookies`, `isAuthed`, search placeholders and paging.
- `querycli.dfy`: `truncate`, the `--instance` flag and the command dispatch.
- `badges.dfy`: `recolor`.

The model follows the code as written, including where it departs from what the code's own comments say ("only process complete lines" at `services/memory-db/sync.js:259`, "end of last complete line" at `services/memory-db/sync.js:302`):
- The stored offset only advances over non-blank lines that parse. A blank or garbled line in the middle therefore leaves the offset behind the true line boundary (`DeltaScan.SkippedLineLags`).
- An unterminated final fragment that happens to parse is counted with a newline it does not have. The offset then lands one byte past the end of the file, and every later pass over the unchanged file fails on the negative buffer length. Once the file reaches that offset it is skipped as unchanged, and only a file that grows past it is read again (`SyncProperties.OvershootThenStuck`).
- A cron report is inserted even when the session has no assistant message, with a null summary (`SyncProperties.NullSummaryReport`).
- There is no transaction. Resuming after a crash relies only on the idempotent inserts (`SyncProperties.InsertIdempotent`).
- A pass whose new bytes are all blank still upserts the session. It resets `message_count` to 0 and `model`/`source` to null (`SyncProperties.BlankDeltaResetsSession`).
- The query CLI reads the command before removing `--instance`. `--instance x search term` therefore prints the usage text (`QueryCli.FlagFirstIsNotACommand`).

## Model

| member | source | states |
|---|---|---|
| Text.ParseIntNatToString | services/memory-db/server.js:208 | `parseInt` of the decimal numeral of `n` is `n` |
| Text.ParseIntDecimal | services/memory-db/server.js:208 | `parseInt` of a string of decimal digits is the value of those digits |
| Text.ReplaceFirst | services/memory-db/sync.js:47-49 | `replace(str, rep)` replaces only the first occurrence, and leaves the text unchanged when there is none |
| Text.RemovePrefix | tools/server.js:335 | removing a string that starts the text leaves exactly the rest |
| Text.RemoveExtension | services/memory-db/sync.js:372 | removing an extension whose dot is the name's only dot gives back the base name |
| Text.Trim | services/memory-db/query.js:33 | `trim()` is the input with white-space runs removed from both ends: a contiguous slice whose left-out start and end are all white space, and which itself neither starts nor ends with white space |
| Text.TrimUnpadded | services/memory-db/query.js:33 | a string with no white space at either end is its own trim |
| Text.TrimEmptyIffBlank | services/memory-db/sync.js:268 | `!line.trim()` holds exactly when every character is white space |
| Text.Split | tools/server.js:72 | `split(sep)` gives at least one part, and no part contains the separator |
| Text.JoinSplit | services/memory-db/sync.js:260 | joining the parts of a split with the separator gives back the text |
| Text.SplitJoin | services/memory-db/server.js:36 | splitting a join of separator-free parts gives back the parts |
| Text.ParseInt | services/memory-db/server.js:208 | `parseInt` of an empty or all-blank string is NaN |
| Text.ParseIntDecimalPrefix | services/memory-db/query.js:161 | after any white space, an optional sign and a run of decimal digits (not `0` followed by `x`/`X`), `parseInt` is the value of that run, negated after `-`, whatever non-digit text follows |
| Text.ParseIntHexPrefix | services/memory-db/query.js:161 | after any white space, an optional sign and `0x`/`0X`, `parseInt` is the value of the following run of hexadecimal digits, negated after `-`, whatever text follows it |
| Text.ParseIntShape | services/memory-db/query.js:161 | after leading white space, a first character that is neither digit nor sign gives NaN; a digit not followed by `x`/`X` gives a non-negative number; a number written with `-` is at most 0, and one written without it is at least 0 |
| Text.ToLower | services/memory-db/sync.js:54 | `toLowerCase()` keeps the length and lower-cases each character on its own |
| Text.ReplaceAllChar | services/memory-db/query.js:33 | `replace(/c/g, rep)` leaves text without `c` unchanged, and leaves no `c` behind when `rep` has none |
| Text.ReplaceAllCharSingle | services/memory-db/query.js:33 | on a single character, `c` becomes `rep` and any other character stays as it is; with the next row this determines the replacement of any text |
| Text.ReplaceAllCharAppend | services/memory-db/server.js:58 | a global single-character replace distributes over concatenation |
| Text.Utf8LenAppend | services/memory-db/sync.js:274 | `Buffer.byteLength` of a concatenation is the sum of the lengths |
| Transcript.ExtractContent | services/memory-db/sync.js:86-111 | the loop that collects block texts computes `ContentText`: string content as is; otherwise the non-empty texts of non-thinking, non-tool blocks joined by newlines; otherwise null |
| Transcript.ContentText | services/memory-db/sync.js:86-111 | string content is returned as is; block content gives null exactly when no block contributes text, and otherwise the newline join of the contributed texts, never empty; any other shape gives null |
| Transcript.SegmentsContent | services/memory-db/sync.js:103-107 | block content gives null exactly when no block contributes text, and never gives an empty string |
| Transcript.DroppedBlockIgnored | services/memory-db/sync.js:98-104 | a thinking, tool-call or tool-result block, or one with empty text, does not change the extracted content |
| Transcript.ThinkingThenText | services/memory-db/sync.js:86-111 | a thinking block followed by a text block extracts exactly the text |
| Transcript.KeptTextsAppend | services/memory-db/sync.js:97-105 | the collected texts of two block lists are the concatenation of each list's texts |
| Transcript.JoinNonEmpty | services/memory-db/sync.js:107 | a join of non-empty texts is empty exactly when there are no texts |
| Transcript.Truthy | services/memory-db/sync.js:291 | `x \|\| null`: keeps a non-empty string, otherwise null |
| Transcript.OrDefault | services/memory-db/sync.js:294 | `x \|\| 'unknown'`: keeps a non-empty string, otherwise the default |
| Transcript.CronMarkerSound | services/memory-db/sync.js:126 | a marker match means the text starts `[cron:`, then an id of word characters and `-`, white space, a name without `]`, then `]`; the groups are that id and name |
| Transcript.MatchCronMarker | services/memory-db/sync.js:126 | a match only for text starting `[cron:`; id and name are non-empty and fit inside the text (the full shape is `CronMarkerSound` and `CronMarkerComplete`) |
| Transcript.CronMarkerComplete | services/memory-db/sync.js:126 | every text of that shape matches, with that id and, when the name does not start with white space, that name |
| Transcript.DailyReportGroups | services/memory-db/sync.js:126 | the text `[cron:abc-123 Daily Report] Run now` matches with id `abc-123` and name `Daily Report` |
| Transcript.FirstUser | services/memory-db/sync.js:117-120 | finds the first user message with content, and no earlier one qualifies |
| Transcript.DetectCronSession | services/memory-db/sync.js:116-135 | cron info exactly from the first user message with content: when its content carries a marker, the result is the marker's id and its name lower-cased with white-space runs turned into `-`; otherwise null. The job name has no white space and the id is non-empty |
| Transcript.CollapseSpaces | services/memory-db/sync.js:130 | `replace(/\s+/g, '-')` leaves no white space and keeps text without white space unchanged |
| Transcript.CollapseKeepsPlainPrefix | services/memory-db/sync.js:130 | a prefix without white space passes through the collapse unchanged |
| Transcript.CollapseSingleSpace | services/memory-db/sync.js:130 | a single white-space character before a non-space becomes `-` |
| Transcript.CollapseOneGap | services/memory-db/sync.js:130 | two words without white space, separated by one white-space character, collapse to the words joined by `-` |
| Transcript.CollapseRun | services/memory-db/sync.js:130 | a whole white-space run between a space-free prefix and a non-space becomes a single `-` |
| Transcript.DailyReportName | services/memory-db/sync.js:130 | the lower-cased name `daily report` becomes `daily-report` |
| Transcript.DailyReportExample | services/memory-db/sync.js:116-135 | the message `[cron:abc-123 Daily Report] Run now` is detected as job `daily-report` with id `abc-123` |
| Transcript.LastAssistant | services/memory-db/sync.js:141-142 | finds the last assistant message, with no assistant message after it |
| Transcript.ExtractSummary | services/memory-db/sync.js:140-145 | null exactly when there is no assistant message; otherwise the content of the last assistant message |
| DeltaScan.MessageOf | services/memory-db/sync.js:283-298 | a row exactly for a message record with role user or assistant and non-empty extracted content; the row keeps the record id, the parent id or null, the role and the content, the source or `unknown`, and the timestamp or `now` |
| DeltaScan.Scan | services/memory-db/sync.js:261-301 | the line loop as a fold: the offset never falls below the stored one, and there are at most as many messages as lines |
| DeltaScan.StepLine | services/memory-db/sync.js:266-301 | a blank or unparseable line changes nothing; a counted line adds its byte length plus one to the offset, appends its message when it yields one and otherwise keeps the messages, and keeps the session data unless it is a session record |
| DeltaScan.ScanOffset | services/memory-db/sync.js:268-275 | new offset = stored offset + the byte length plus one of every non-blank line that parses |
| DeltaScan.CountedWithin | services/memory-db/sync.js:268-275 | the counted bytes are at most the bytes of all lines; strictly fewer when a line is skipped; equal when none is |
| DeltaScan.SplitLineBytes | services/memory-db/sync.js:260 | the lines of a split, each with its newline, add up to the delta's byte length plus one |
| DeltaScan.TailStart | services/memory-db/sync.js:259-260 | all lines but the last end exactly where the last piece begins |
| DeltaScan.OffsetAtMostOnePast | services/memory-db/sync.js:261-304 | the new offset is between the stored offset and one byte past the end of the delta |
| DeltaScan.UncountedTailNotPassed | services/memory-db/sync.js:259-271 | when the trailing piece is not counted, the offset stops at or before its start |
| DeltaScan.PartialLineStopsAtItsStart | services/memory-db/sync.js:259-275 | with every complete line counted and the partial tail not, the offset is exactly the start of the tail |
| DeltaScan.CleanDeltaReachesEnd | services/memory-db/sync.js:259-275 | a newline-terminated delta whose lines all count moves the offset exactly to its end |
| DeltaScan.ParsedTailOvershoots | services/memory-db/sync.js:274-275 | when even the unterminated tail parses, the offset ends one byte past the delta |
| DeltaScan.SkippedLineLags | services/memory-db/sync.js:268-271 | a skipped line's bytes and newline are missing from the offset |
| DeltaScan.UncountedMissing | services/memory-db/sync.js:268-275 | the counted bytes leave out at least the bytes and newline of any uncounted line |
| DeltaScan.ScanAppends | services/memory-db/sync.js:289 | messages keep file order: scanning more lines only appends |
| DeltaScan.StepKeepsMessages | services/memory-db/sync.js:289 | one line never removes or reorders the messages already collected |
| DeltaScan.StepMessages | services/memory-db/sync.js:283-298 | a counted line appends its message when it yields one, and otherwise leaves the list as it was |
| DeltaScan.LastSessionRecordWins | services/memory-db/sync.js:277-282 | a session record replaces the session data with its start time, model and source (default `unknown`) |
| Discovery.MatchesInstancePattern | services/memory-db/sync.js:30 | a match starts `.openclaw`; unless it is exactly that, a dash follows and the rest passes the `^[\w]+$` guard |
| Discovery.PatternAccepts | services/memory-db/sync.js:30 | the pattern accepts `.openclaw`, and `.openclaw-` followed by any name the guard accepts |
| Discovery.InstanceName | services/memory-db/sync.js:47-54 | the instance name is never empty |
| Discovery.FindInstanceDirs | services/memory-db/sync.js:41-69 | the loop over the entries computes `Discovered`, in listing order |
| Discovery.Discovered | services/memory-db/sync.js:41-69 | at most one instance per entry of the listing, in listing order (membership is `DiscoveredExactly`) |
| Discovery.DiscoveredExactly | services/memory-db/sync.js:45-64 | an instance is reported iff some entry is a directory matching `^\.openclaw(-\w+)?$` that has `agents/main/sessions` |
| Discovery.DiscoveredSource | services/memory-db/sync.js:45-64 | every reported instance comes from an entry of the listing that is a qualifying directory with sessions |
| Discovery.InstanceNameOfConvention | services/memory-db/sync.js:47-54 | `.openclaw` is instance `default`; `.openclaw-X` is lower-case `X` |
| Discovery.NoDotNoOpenclaw | services/memory-db/sync.js:49 | a suffix without a dot holds no `.openclaw` for the second replace to remove |
| Discovery.CaseVariantsShareInstance | services/memory-db/sync.js:54 | directories whose suffixes differ only in letter case share one instance name |
| Discovery.DiscoveredNamesPassGuard | services/memory-db/sync.js:214 | every discovered instance name passes the `^[\w]+$` guard of `ensureViews` |
| Discovery.ValidViewName | services/memory-db/sync.js:214 | a name passing `^[\w]+$` is non-empty and holds no quote, semicolon, white space or dot that could change the view statements |
| Discovery.ViewNamesInjective | services/memory-db/sync.js:220-227 | distinct instances get distinct views of each kind |
| Discovery.ViewNamesCanCollide | services/memory-db/sync.js:220-227 | the message view of instance `cron_x` has the name of the cron view of `x` |
| SyncEngine.PutIfAbsent | services/memory-db/sync.js:178-206 | `ON CONFLICT DO NOTHING`: adds the key, keeps every existing row, and stores the new row only for a new key |
| SyncEngine.MessagesAfterInsert | services/memory-db/sync.js:307-309 | inserting the pass's messages adds exactly their keys and keeps every existing row |
| SyncEngine.SessionsAfterUpsert | services/memory-db/sync.js:161-173 | the upsert sets the offset, this pass's count and the sync time; it keeps `started_at` of an existing row; model and source come from this pass's session record, or null without one; other rows are unchanged |
| SyncEngine.ReportsAfter | services/memory-db/sync.js:311-327 | without messages, a detected marker and a session record the table is unchanged; with them the report keyed by the job name is present, and when new it holds the last assistant summary, the session start, `now`, and the start or else `now` |
| SyncEngine.StoredOffset | services/memory-db/sync.js:243-244 | `session?.last_synced_byte \|\| 0`: the stored offset of the session row, or 0 without one |
| SyncEngine.SyncSpec | services/memory-db/sync.js:238-340 | skipped exactly when the size equals the stored offset; nothing changes unless the pass syncs; a synced session row holds the returned offset and count, and the offset never decreases |
| SyncEngine.JsonlFiles | services/memory-db/sync.js:368 | keeps exactly the listed files whose names end in `.jsonl` |
| SyncEngine.JsonlFilesAppend | services/memory-db/sync.js:368 | the filter keeps listing order: filtering a concatenation concatenates the filtered parts |
| SyncEngine.SessionIdOf | services/memory-db/sync.js:372 | `file.replace('.jsonl', '')`: a name without `.jsonl` is its own id; otherwise the first `.jsonl` is cut out and the rest kept |
| SyncEngine.FileStep | services/memory-db/sync.js:372-386 | a failed file changes no total and no table; otherwise the file count rises by one and the tables are those the pass leaves; the message count rises by the processed count only for a synced pass |
| SyncEngine.SyncFiles | services/memory-db/sync.js:371-387 | the loop over an instance's files counts at most one per file and never lowers the message total |
| SyncEngine.SyncInstances | services/memory-db/sync.js:365-388 | the loop over the instances never lowers either total |
| SyncEngine.ViewsAfter | services/memory-db/sync.js:211-233 | existing views are kept; every instance that passes the `^[\w]+$` guard gets both its message and its cron view; every new view is one of those two views of a guarded instance, under its own name |
| SyncEngine.ScanLines | services/memory-db/sync.js:266-301 | the loop over the lines computes the fold `Scan` |
| SyncEngine.Store.GetSession | services/memory-db/sync.js:149-156 | returns the session row for the key, or null when there is none |
| SyncEngine.Store.UpsertSession | services/memory-db/sync.js:161-173 | the session table becomes `SessionsAfterUpsert`; nothing else changes |
| SyncEngine.Store.InsertMessage | services/memory-db/sync.js:178-194 | the message table gains the row only if its key is new; nothing else changes |
| SyncEngine.Store.InsertCronReport | services/memory-db/sync.js:199-206 | the report table gains the row only if its key is new; nothing else changes |
| SyncEngine.Store.InsertMessages | services/memory-db/sync.js:306-309 | the loop over the pass's messages leaves the message table as `MessagesAfterInsert`; nothing else changes |
| SyncEngine.Store.RecordCronReport | services/memory-db/sync.js:311-327 | the cron step leaves the report table as `ReportsAfter`; nothing else changes |
| SyncEngine.Store.EnsureViews | services/memory-db/sync.js:211-233 | the views become `ViewsAfter`; the tables are untouched |
| SyncEngine.Store.SyncFile | services/memory-db/sync.js:238-340 | outcome and new tables are those of `SyncSpec`; the views are untouched |
| SyncEngine.Store.SyncInstanceFiles | services/memory-db/sync.js:371-387 | the per-file loop: a failed file is logged and skipped; the others add to the file and message totals |
| SyncEngine.Store.SyncAndCount | services/memory-db/sync.js:372-386 | one iteration of the per-file loop: the totals and tables move exactly as one step of the run specification |
| SyncEngine.Store.RunSync | services/memory-db/sync.js:345-398 | `main`: the views of the discovered instances are ensured, then every instance's files are synced in order |
| SyncProperties.InsertIdempotent | services/memory-db/sync.js:178-194 | inserting the same messages twice equals inserting them once |
| SyncProperties.InsertPresentNoop | services/memory-db/sync.js:182 | inserting messages whose keys are all present changes nothing |
| SyncProperties.InsertFirstWins | services/memory-db/sync.js:182 | for a new key, the first message of the pass with that id is the one stored |
| SyncProperties.SameKeyTwice | services/memory-db/sync.js:182 | two messages with one id leave one row: the existing one, or else the first |
| SyncProperties.SyncGrows | services/memory-db/sync.js:238-340 | a pass never removes or changes a message or report, and never moves a session's offset or start time backwards |
| SyncProperties.GrowsTransitive | services/memory-db/sync.js:371-387 | growth composes across passes |
| SyncProperties.SyncFilesGrows | services/memory-db/sync.js:371-387 | a whole instance's files only grow the tables and the totals |
| SyncProperties.RunGrows | services/memory-db/sync.js:365-388 | a whole run only grows the tables and the totals |
| SyncProperties.SyncedShape | services/memory-db/sync.js:253-340 | when the file is longer than the stored offset, the pass scans the delta and applies the inserts, the report step and the upsert |
| SyncProperties.RerunSkipped | services/memory-db/sync.js:247-249 | when a pass stored the file size, the next pass over the unchanged file is skipped and changes nothing |
| SyncProperties.CleanDeltaRerunSkipped | services/memory-db/sync.js:247-275 | a newline-terminated delta of parseable lines brings the offset to the file size, so the re-run is skipped |
| SyncProperties.OvershootThenStuck | services/memory-db/sync.js:253-275 | a delta whose unterminated tail parses stores size + 1, and the next pass fails on a negative buffer length |
| SyncProperties.CompletedLineIngested | services/memory-db/sync.js:260-309 | appending one complete message line syncs exactly that message and moves the offset to the file size |
| SyncProperties.ScanBlank | services/memory-db/sync.js:268 | an all-blank delta leaves the offset, the messages and the session data untouched |
| SyncProperties.BlankDeltaResetsSession | services/memory-db/sync.js:330-334 | an all-blank delta still upserts the session with count 0 and null model and source |
| SyncProperties.ReportConditions | services/memory-db/sync.js:312-314 | a report is added only when the pass found messages, a cron marker and a session record |
| SyncProperties.NullSummaryReport | services/memory-db/sync.js:315-325 | without an assistant message the report is still inserted, with a null summary |
| SyncProperties.EndToEnd | services/memory-db/sync.js:238-340 | a new cron session of a session line and user/assistant/user lines stores three messages, count 3, and one report named by the marker whose summary is the assistant's reply |
| SyncProperties.ScanFive | services/memory-db/sync.js:266-301 | the five-line transcript of that scenario scans to the three messages in order, with session data |
| Notes.ParseStructuredMd | tools/server.js:71-86 | the loop over the lines computes the fold `Fields` |
| Notes.ReadLine | tools/server.js:75-83 | one line of the loop changes the record exactly as `ApplyLine`: a heading sets the title, a matched field line sets its key |
| Notes.Fields | tools/server.js:71-86 | the record's keys never contain white space; a heading anywhere gives a title; lines that are neither headings nor field lines give the empty record |
| Notes.EmptyContentNoFields | tools/server.js:72 | null or empty content gives an empty record |
| Notes.OtherLinesIgnored | tools/server.js:75-83 | a line that is neither a heading nor a `**…:**` line changes nothing |
| Notes.LaterHeadingOverwrites | tools/server.js:76-77 | the last heading sets the title |
| Notes.HeadingTitlePlain | tools/server.js:77 | a heading without the `TODO: `, `Reminder: ` or `Task: ` labels has its text as title |
| Notes.HeadingTitle | tools/server.js:77 | removing the markers never lengthens the line, and a line with none of the four markers is its own title |
| Notes.HeadingTitleLabelled | tools/server.js:77 | `# TODO: t`, `# Reminder: t` and `# Task: t` each have title `t` when `t` holds none of the labels |
| Notes.FieldMatchShape | tools/server.js:79 | `line.match` fails exactly when no position starts `**`, at least one character and `:**` on one line; a match has a non-empty key and a one-line value that does not start with white space |
| Notes.KeyEndAt | tools/server.js:79 | the lazy key group ends at the first `:**` after at least one character, within one line |
| Notes.FieldLineReadsBack | tools/server.js:79-81 | a line `**name:**` + white space + value yields exactly that name and value |
| Notes.FieldKey | tools/server.js:81 | each character of the key is the name's character lower-cased, or `_` where the name has white space; so the key has no white space |
| Notes.FieldOr | tools/server.js:180-181 | `data.x \|\| fallback`: a non-empty value, or else the fallback |
| Notes.TaskOf | tools/server.js:175-184 | a task's id is the file name with its first `.md` removed; its title and schedule are the front-matter fields when present and non-empty, else the id and `Not set` |
| Notes.TodoOf | tools/server.js:208-219 | a todo's id and filename are the file name; title, status, priority and created are the front-matter fields when present and non-empty, else the name without `.md`, `NEW`, `MEDIUM` and `Unknown` |
| Notes.ReminderOf | tools/server.js:269-279 | a reminder's id and filename are the file name; title, status and type are the front-matter fields when present and non-empty, else the name without `.md`, `ACTIVE` and `ONE_TIME` |
| Notes.ListDefaults | tools/server.js:175-279 | with no fields the defaults are: title from the name, schedule `Not set`, status `NEW`, priority `MEDIUM`, created `Unknown`, reminder status `ACTIVE`, type `ONE_TIME` |
| Notes.ListFieldsShown | tools/server.js:213-215 | present fields override the defaults |
| Rewrites.ToggleReminder | tools/server.js:302-307 | first `**Status:** ACTIVE` becomes PAUSED; else first PAUSED becomes ACTIVE; else unchanged; length is preserved |
| Rewrites.ToggleRoundTrip | tools/server.js:302-307 | toggling flips the single status line either way, so two toggles restore the text |
| Rewrites.StatusOnlyAt | tools/server.js:303-305 | in a text whose only `*` are those of its status line, the status search finds that line and only that word |
| Rewrites.FirstStatusMatch | tools/server.js:245 | finds the leftmost `**Status:**` + white space + word, and no earlier position matches |
| Rewrites.CompleteTodo | tools/server.js:245 | the first status match becomes `**Status:** DONE` and the rest of the text is unchanged; without a match the text is unchanged |
| Rewrites.CompleteTodoIdempotent | tools/server.js:245 | completing a completed todo changes nothing |
| Rewrites.SettingValue | tools/server.js:391 | the value is `true` iff enabled |
| Rewrites.UpdateSetting | tools/server.js:384-403 | when a case-insensitive `**key:**` occurs, the setting line is written at the first occurrence and the text before it is kept; otherwise the result is exactly the trimmed text, a blank line, the setting line and a newline |
| Rewrites.UpdateSettingInPlace | tools/server.js:395-399 | at a match, the update replaces exactly the span from the key to the end of its line: the text before it and everything from that line's end on are kept |
| Rewrites.FirstFolded | tools/server.js:395-396 | finds the leftmost case-insensitive match of `**key:**`, and no earlier position matches |
| Rewrites.WrittenAt | tools/server.js:388-399 | the update writes the setting line at a position ending a line, where it is the first match |
| Rewrites.UpdateSettingIdempotent | tools/server.js:388-399 | setting a key to the same value twice equals setting it once |
| Rewrites.UpdatedSettingPresent | tools/server.js:395-399 | after the update the key is found |
| Activity.ListMdFiles | tools/server.js:57-69 | only names ending in `.md` are listed, and every such name is |
| Activity.Briefs | tools/server.js:330 | keeps exactly the files named `daily-brief-…` |
| Activity.NameLeqTotal | tools/server.js:331 | any two names compare one way or the other |
| Activity.NameLeqTransitive | tools/server.js:331 | the name order is transitive |
| Activity.NameLeqAntisymmetric | tools/server.js:331 | names that compare both ways are equal |
| Activity.SortDesc | tools/server.js:331 | the sort puts names in descending order and is a permutation of its input |
| Activity.ActivityFiles | tools/server.js:329-332 | the feed shows min(30, number of briefs) files, newest name first, and only daily briefs of the listing |
| Activity.ActivityKeepsNewest | tools/server.js:331-332 | a brief left out is no newer than any brief shown |
| Activity.BriefDateOfName | tools/server.js:335 | `daily-brief-<d>.md` is listed under date `d` |
| Activity.BriefDate | tools/server.js:335 | the date is never longer than the name, and a name with neither `daily-brief-` nor `.md` is its own date |
| Activity.ToEntries | tools/server.js:334-337 | each entry carries the file's date and content, in order |
| Activity.ActivityFeed | tools/server.js:327-338 | one entry per shown file, in feed order, dated from its name and carrying its content |
| MissionControl.EscapeHtml | services/memory-db/server.js:56-59 | falsy input gives `''`; text with none of `&<>"` comes back unchanged |
| MissionControl.ChainIsPerChar | services/memory-db/server.js:58 | the four global replacements, `&` first, escape each character independently |
| MissionControl.EscapedHasNoMarkup | services/memory-db/server.js:58 | the output has no `<`, `>` or `"` |
| MissionControl.EscapeRoundTrip | services/memory-db/server.js:58 | reading the entities back gives the original text |
| MissionControl.ParseCookies | services/memory-db/server.js:33-40 | the loop over the `;` parts computes the fold `CookiesOf` |
| MissionControl.CookiesOf | services/memory-db/server.js:35-38 | the empty key is never stored |
| MissionControl.SetCookie | services/memory-db/server.js:37 | `if (k) cookies[k] = v`: a non-empty key gets the value, every other key keeps its value, and the empty key never appears |
| MissionControl.CookiePair | services/memory-db/server.js:36 | the key never contains `=` |
| MissionControl.CookiePairShape | services/memory-db/server.js:36 | the key is the trimmed part up to its first `=`, or all of it when there is none; the value is what follows, up to the next `=` |
| MissionControl.NoHeaderNoCookies | services/memory-db/server.js:35 | an absent header gives no cookies |
| MissionControl.CookieSource | services/memory-db/server.js:36-37 | every stored key comes from the last part that names it, and holds that part's value |
| MissionControl.CookieKept | services/memory-db/server.js:36-37 | every part with a non-empty key leaves it stored |
| MissionControl.LastCookieWins | services/memory-db/server.js:37 | a key holds the value of the last part naming it |
| MissionControl.OtherCookieKept | services/memory-db/server.js:37 | a later part naming another key leaves a stored key's value unchanged |
| MissionControl.IsAuthed | services/memory-db/server.js:42-46 | without a password every request is admitted; with one, a request is admitted exactly when the last cookie part naming `mc_token` carries a token in the session set |
| MissionControl.TokenFromParts | services/memory-db/server.js:44-45 | looking the token up in the parsed cookies is the same as finding it in the last part that names `mc_token` |
| MissionControl.CookieValueIsSecondPiece | services/memory-db/server.js:36 | the value is the text between the first and second `=` |
| MissionControl.AuthedNeedsToken | services/memory-db/server.js:42-46 | with a password set, an admitted request carries an `mc_token` cookie whose value is in the session set; so no request is admitted while no token has been issued |
| MissionControl.IssuedTokenAdmits | services/memory-db/server.js:42-46 | a request carrying `mc_token=<issued token>` is admitted |
| MissionControl.PageOf | services/memory-db/server.js:208 | no or empty page parameter means page 1; otherwise the page is `parseInt` of the parameter, NaN included |
| MissionControl.OffsetOf | services/memory-db/server.js:210 | the offset is a multiple of 30, non-negative iff page ≥ 1; NaN stays NaN |
| MissionControl.PagingWindows | services/memory-db/server.js:208-210 | no page parameter means page 1 at offset 0; consecutive pages are adjacent windows |
| MissionControl.HasPrevious | services/memory-db/server.js:243 | "Previous" iff the page is a number above 1 |
| MissionControl.HasNext | services/memory-db/server.js:244 | "Next" iff the page came back with 30 rows |
| MissionControl.PresentFilters | services/memory-db/server.js:217-220 | a filter is used iff its value is non-empty |
| MissionControl.BuildSearch | services/memory-db/server.js:213-220 | parameters start `q, 30, offset`; each non-empty filter, in order, adds a clause whose `$k` names its own parameter, from `$4` on |
| MissionControl.AddFilter | services/memory-db/server.js:217-220 | one `if (x) { where.push(...$n); params.push(x) }` step: an empty filter changes nothing; a non-empty one appends its value as a parameter and a clause whose `$n` is that parameter's 1-based position, and the bookkeeping is kept |
| MissionControl.TrackedQuery | services/memory-db/server.js:213-220 | from that bookkeeping: the parameters are the three fixed ones then one per clause, and each clause names its own parameter |
| MissionControl.ApiLimit | services/memory-db/server.js:461 | no or empty limit gives 20; otherwise a number is capped at 100 and a non-number gives NaN |
| MissionControl.ApiLimitDefaults | services/memory-db/server.js:461 | no limit parameter means 20; a request of 100 or more gives 100 |
| MissionControl.ApiSearch | services/memory-db/server.js:459-466 | an empty query runs no query; otherwise parameters `q, limit`, plus the instance as `$3` iff one is given |
| QueryCli.OneLine | services/memory-db/query.js:33 | the one-line form is the trimmed text with every newline turned into a space: it has no newline and is no longer than the input |
| QueryCli.FlatTrim | services/memory-db/query.js:33 | replacing newlines and then trimming equals trimming and then replacing |
| QueryCli.Truncate | services/memory-db/query.js:31-35 | falsy input gives `''`; a one-line form of at most len characters is returned whole; a longer one is cut to its first len characters followed by `...`; the result has no newline |
| QueryCli.CutLine | services/memory-db/query.js:34 | cutting a newline-free line keeps it newline-free, at most len + 3 long, with exactly the first len characters before `...` |
| QueryCli.TruncateKeepsShortLines | services/memory-db/query.js:34 | short single-line text without padding is returned unchanged |
| QueryCli.IndexOfArg | services/memory-db/query.js:152 | `indexOf` finds the first occurrence, or none |
| QueryCli.ExtractInstanceFlag | services/memory-db/query.js:151-156 | without the flag the arguments are unchanged; with it the flag value is the next argument and exactly the flag and that argument are removed |
| QueryCli.ExtractRoundTrip | services/memory-db/query.js:155 | re-inserting the flag and its value where they were gives back the arguments |
| QueryCli.CountOr10 | services/memory-db/query.js:161-164 | `parseInt(x) \|\| 10`: a non-zero number is kept; a missing or non-numeric argument, or 0, gives 10; the count is never 0 |
| QueryCli.Dispatch | services/memory-db/query.js:148-168 | each command is chosen iff its name is the first original argument (`stats` also when there is none), and any other name gives the usage text; counts come from the second argument; the search term is the remaining arguments after the command joined by spaces, with the flag; range and sessions take their arguments from the remaining list |
| QueryCli.ReadCommand | services/memory-db/query.js:147-168 | the command is the dispatch of the original arguments, with the list left after removing `--instance` and its value, and that value as flag; no arguments means `stats`; a leading `--instance` leads to the usage text |
| QueryCli.Defaults | services/memory-db/query.js:148-161 | no command is `stats`; a missing or non-numeric count is 10, as is 0 |
| QueryCli.FlagFirstIsNotACommand | services/memory-db/query.js:148-155 | the command is read before the flag is removed |
| Badges.TargetColour | skills/bot-avatar-stamp/scripts/generate_bot_badges.py:24-31 | in every branch a 3-tuple gives `(rgb, 255)`; a 4-tuple gives a pixel only when it is one of the three named colours |
| Badges.RecolorPixel | skills/bot-avatar-stamp/scripts/generate_bot_badges.py:40-43 | a pixel becomes the target or stays clear |
| Badges.PixelOutcomes | skills/bot-avatar-stamp/scripts/generate_bot_badges.py:34-44 | any channel below 250 gives the target colour at alpha 255; otherwise `(0,0,0,0)` |
| Badges.AlphaIgnored | skills/bot-avatar-stamp/scripts/generate_bot_badges.py:40-42 | the template's alpha does not affect the output |
| Badges.Recolor | skills/bot-avatar-stamp/scripts/generate_bot_badges.py:17-46 | fails exactly when the target is not a pixel and the template has a coloured pixel; otherwise a fresh image of the template's size whose every pixel is the recoloured template pixel |

## Left out

- File system, database and network I/O are inputs, not effects.
  - A directory listing is a sequence of entries.
  - A session file is its size (None when `statSync` fails) and a function from an offset to the decoded text from there.
  - Postgres tables are maps keyed by their conflict columns.
- The SQL text, full-text search, `ts_rank` and `ORDER BY` are not modelled; only the parameter lists and the placeholder numbers are.
- HTTP routing, response headers, HTML templates, the login page and the gateway proxy are not modelled.
- `JSON.parse` is an abstract decoder from a line to a record or nothing.
- UTF-8 decoding of the byte buffer is not modelled: the delta is given as text. Its byte length is computed from its characters.
- Timestamps (`new Date`, `NOW()`) are given as a fixed `now` string. `formatDate` is not modelled: it depends on the locale and the time zone.
- `readdirSync` throwing for an instance aborts the whole run in the source. The model's listing always succeeds.
- A message record without an id is stored under whatever key the decoder gives it. A missing id is not modelled separately.
- `last_synced_byte` is taken to come back from the database as a number. Whether the driver returns the column as a string is not visible here.
- There is no transaction in the source, and none in the model. An interrupted pass is not modelled.
- `CREATE OR REPLACE VIEW` failing on a name collision (see `Discovery.ViewNamesCanCollide`) is not modelled. The view map simply keeps the later definition.
- `toLowerCase` and the `i` regex flag are modelled on ASCII letters only.
- `localeCompare` is modelled as code-point order, not ICU collation.
- String lengths are counted in characters, not UTF-16 code units. `truncate` can therefore differ on text outside the Basic Multilingual Plane.
- `path.join` normalisation is not modelled: paths are plain concatenations with `/`.
- Rewrites.UpdateSetting: keys containing regular-expression metacharacters are not modelled. The key is required to be word characters and `-`, for which the pattern means the key literally.
- Transcript.ContentText: a null element in the content array makes `block.type` throw, so the file fails on every run; the model's blocks are always records, so that failure is not modelled. Other non-object elements are skipped, as a block with no type and no text is.
- MissionControl.CookiesOf: keys such as `__proto__` that JavaScript objects treat specially are not modelled.
- Notes.Fields: the same holds for field keys: `data['__proto__'] = v` is ignored by a JavaScript object, while the model's map stores the key.
- MissionControl.IsAuthed: the session token set is a parameter. Issuing and clearing tokens at login and logout is not modelled.
- QueryCli.ExtractInstanceFlag: a flag given last yields None for both `undefined` and a missing flag.
- QueryCli.Dispatch: the database queries each command runs are not modelled, only which command is chosen and its arguments.
- Badges.Recolor: colour channels are bytes. The failing case returns nothing rather than the partly written image, which the script discards with the exception. PIL's RGBA conversion and the load and save calls are not modelled.
- `skills/avatar-generate/scripts/generate.py` (image generation over a network API) is not part of this model.
- `skills/bot-avatar-stamp/scripts/stamp.py` (floating-point geometry and compositing) is not part of this model.

=== FILE: activity.dfy ===
/**
  The activity feed of the workspace tool server: the daily briefs of the
  memory directory, newest name first, at most thirty of them, each with
  the date taken from its file name.
*/
module Activity {
  import opened Wrappers
  import opened Text

  /** A listed markdown file: its name and what reading it gave (None when the read failed). */
  datatype MdFile = MdFile(name: string, content: Option<string>)

  /** One entry of the feed. */
  datatype Entry = Entry(date: string, content: Option<string>)

  const MdExtension := ".md"
  const BriefPrefix := "daily-brief-"
  const MaxEntries := 30

  /** The directory listing kept to names ending in `.md`, each paired with what reading it gave. */
  function ListMdFiles(names: seq<string>, read: string -> Option<string>): (r: seq<MdFile>)
    ensures forall f :: f in r ==> EndsWith(f.name, MdExtension) && f.name in names
    ensures forall n :: n in names && EndsWith(n, MdExtension) ==> MdFile(n, read(n)) in r
  {
    if names == [] then []
    else
      var rest := ListMdFiles(names[1..], read);
      if EndsWith(names[0], MdExtension) then [MdFile(names[0], read(names[0]))] + rest else rest
  }

  /** `a.localeCompare(b) <= 0`, taken as code-point order on the names. */
  predicate NameLeq(a: string, b: string)
    decreases |a|
  {
    a == [] || (b != [] && (a[0] < b[0] || (a[0] == b[0] && NameLeq(a[1..], b[1..]))))
  }

  lemma {:induction false} NameLeqTotal(a: string, b: string)
    ensures NameLeq(a, b) || NameLeq(b, a)
    decreases |a|
  {
    if a != [] && b != [] && a[0] == b[0] {
      NameLeqTotal(a[1..], b[1..]);
    }
  }

  lemma {:induction false} NameLeqTransitive(a: string, b: string, c: string)
    requires NameLeq(a, b) && NameLeq(b, c)
    ensures NameLeq(a, c)
    decreases |a|
  {
    if a != [] && a[0] == b[0] && b[0] == c[0] {
      NameLeqTransitive(a[1..], b[1..], c[1..]);
    }
  }

  lemma {:induction false} NameLeqAntisymmetric(a: string, b: string)
    requires NameLeq(a, b) && NameLeq(b, a)
    ensures a == b
    decreases |a|
  {
    if a != [] {
      NameLeqAntisymmetric(a[1..], b[1..]);
      assert a == [a[0]] + a[1..] && b == [b[0]] + b[1..];
    }
  }

  /** Newest first: each name is at least every name after it. */
  predicate SortedDesc(fs: seq<MdFile>) {
    forall i, j :: 0 <= i < j < |fs| ==> NameLeq(fs[j].name, fs[i].name)
  }

  /** Keeps the files whose names start with `daily-brief-`, in listing order. */
  function Briefs(fs: seq<MdFile>): (r: seq<MdFile>)
    ensures |r| <= |fs|
    ensures forall f :: f in r <==> f in fs && StartsWith(f.name, BriefPrefix)
  {
    if fs == [] then []
    else
      var rest := Briefs(fs[1..]);
      if StartsWith(fs[0].name, BriefPrefix) then [fs[0]] + rest else rest
  }

  /** Places `f` before the first file whose name is at most its own. */
  function InsertDesc(f: MdFile, fs: seq<MdFile>): (r: seq<MdFile>)
  {
    if fs == [] || NameLeq(fs[0].name, f.name) then [f] + fs
    else [fs[0]] + InsertDesc(f, fs[1..])
  }

  lemma {:induction false} InsertDescSorted(f: MdFile, fs: seq<MdFile>)
    requires SortedDesc(fs)
    ensures SortedDesc(InsertDesc(f, fs))
    ensures multiset(InsertDesc(f, fs)) == multiset(fs) + multiset{f}
  {
    if fs == [] || NameLeq(fs[0].name, f.name) {
      forall j | 0 <= j < |fs| ensures NameLeq(fs[j].name, f.name) {
        if j > 0 {
          NameLeqTransitive(fs[j].name, fs[0].name, f.name);
        }
      }
      ConsSorted(f, fs);
    } else {
      var rest := InsertDesc(f, fs[1..]);
      InsertDescSorted(f, fs[1..]);
      NameLeqTotal(fs[0].name, f.name);
      forall j | 0 <= j < |rest| ensures NameLeq(rest[j].name, fs[0].name) {
        assert rest[j] in multiset(rest);
        if rest[j] != f {
          assert rest[j] in multiset(fs[1..]);
          var k :| 0 <= k < |fs[1..]| && fs[1..][k] == rest[j];
          assert fs[k + 1] == rest[j];
        }
      }
      ConsSorted(fs[0], rest);
      assert fs == [fs[0]] + fs[1..];
    }
  }

  /** A file at least as new as every file of a sorted list can go in front of it. */
  lemma ConsSorted(x: MdFile, fs: seq<MdFile>)
    requires SortedDesc(fs)
    requires forall j :: 0 <= j < |fs| ==> NameLeq(fs[j].name, x.name)
    ensures SortedDesc([x] + fs)
  {
    var r := [x] + fs;
    forall i, j | 0 <= i < j < |r| ensures NameLeq(r[j].name, r[i].name) {
      assert r[j] == fs[j - 1];
      if i > 0 {
        assert r[i] == fs[i - 1];
      }
    }
  }

  /**
    `files.sort((a, b) => b.name.localeCompare(a.name))`: insertion order that keeps equal names stable.
    The result is newest name first and neither drops nor adds a file.
  */
  function SortDesc(fs: seq<MdFile>): (r: seq<MdFile>)
    ensures SortedDesc(r)
    ensures multiset(r) == multiset(fs)
  {
    if fs == [] then []
    else
      var rest := SortDesc(fs[1..]);
      InsertDescSorted(fs[0], rest);
      assert fs == [fs[0]] + fs[1..];
      InsertDesc(fs[0], rest)
  }

  /** The files the feed shows: only daily briefs of the listing, newest name first, and never more than thirty. */
  function ActivityFiles(fs: seq<MdFile>): (r: seq<MdFile>)
    ensures |r| == (if |Briefs(fs)| <= MaxEntries then |Briefs(fs)| else MaxEntries)
    ensures SortedDesc(r)
    ensures forall f :: f in r ==> f in fs && StartsWith(f.name, BriefPrefix)
  {
    var sorted := SortDesc(Briefs(fs));
    assert |sorted| == |multiset(sorted)| == |Briefs(fs)|;
    var r := if |sorted| <= MaxEntries then sorted else sorted[..MaxEntries];
    assert forall f :: f in r ==> f in multiset(Briefs(fs));
    r
  }

  /** `date`: the first `daily-brief-` and then the first `.md` removed from the name. */
  function BriefDate(name: string): (r: string)
    ensures |r| <= |name|
    ensures !Contains(name, BriefPrefix) && !Contains(name, MdExtension) ==> r == name
  {
    ReplaceFirst(ReplaceFirst(name, BriefPrefix, ""), MdExtension, "")
  }

  function ToEntries(fs: seq<MdFile>): (r: seq<Entry>)
    ensures |r| == |fs|
    ensures forall i :: 0 <= i < |fs| ==> r[i] == Entry(BriefDate(fs[i].name), fs[i].content)
  {
    if fs == [] then [] else [Entry(BriefDate(fs[0].name), fs[0].content)] + ToEntries(fs[1..])
  }

  /** The `GET /api/activity` response body. */
  function ActivityFeed(fs: seq<MdFile>): (r: seq<Entry>)
    ensures |r| == |ActivityFiles(fs)|
    ensures forall i :: 0 <= i < |r| ==>
      var f := ActivityFiles(fs)[i]; r[i].date == BriefDate(f.name) && r[i].content == f.content
  {
    ToEntries(ActivityFiles(fs))
  }

  /** A brief left out of the feed is no newer than any brief shown. */
  lemma ActivityKeepsNewest(fs: seq<MdFile>, f: MdFile)
    requires f in fs && StartsWith(f.name, BriefPrefix)
    requires f !in ActivityFiles(fs)
    ensures forall g :: g in ActivityFiles(fs) ==> NameLeq(f.name, g.name)
  {
    var sorted := SortDesc(Briefs(fs));
    assert f in multiset(sorted);
    var k :| 0 <= k < |sorted| && sorted[k] == f;
    forall g | g in ActivityFiles(fs) ensures NameLeq(f.name, g.name) {
      var i :| 0 <= i < MaxEntries && sorted[..MaxEntries][i] == g;
      assert sorted[i] == g;
    }
  }

  /** A brief named `daily-brief-<d>.md` with no dot in `d` is listed under date `d`. */
  lemma BriefDateOfName(d: string)
    requires forall i :: 0 <= i < |d| ==> d[i] != '.'
    ensures BriefDate(BriefPrefix + d + MdExtension) == d
  {
    assert BriefPrefix + d + MdExtension == BriefPrefix + (d + MdExtension);
    RemovePrefix(BriefPrefix, d + MdExtension);
    RemoveExtension(d, MdExtension);
  }
}

=== FILE: badges.dfy ===
/**
  The badge recolouring script: every pixel of the template that is not
  near-white becomes the solid target colour; everything else stays fully
  transparent.
*/
module Badges {
  import opened Wrappers

  newtype byte = x: int | 0 <= x < 256

  /** An RGBA pixel. */
  datatype Pixel = Pixel(r: byte, g: byte, b: byte, a: byte)

  /** The colour argument: a 3-tuple or a 4-tuple. */
  datatype Colour = Rgb(r: byte, g: byte, b: byte) | Rgba(r: byte, g: byte, b: byte, a: byte)

  /** The fill of the new image. */
  const Clear := Pixel(0, 0, 0, 0)

  /** A channel at or above this counts as white. */
  const WhiteThreshold: byte := 250

  /**
    The target colour. The named colours map to themselves at full alpha;
    any other 3-tuple is extended with alpha 255; any other 4-tuple would
    become a 5-tuple, which is no pixel (None).
  */
  function TargetColour(c: Colour): (t: Option<Pixel>)
    ensures c.Rgb? ==> t == Some(Pixel(c.r, c.g, c.b, 255))
    ensures c.Rgba? ==> (t.Some? <==> c.a == 255 && c in {Rgba(229, 57, 53, 255), Rgba(0, 0, 0, 255), Rgba(255, 255, 255, 255)})
    ensures t.Some? ==> t.value == Pixel(c.r, c.g, c.b, 255)
  {
    if c == Rgba(229, 57, 53, 255) || c == Rgb(229, 57, 53) then Some(Pixel(229, 57, 53, 255))
    else if c == Rgb(0, 0, 0) || c == Rgba(0, 0, 0, 255) then Some(Pixel(0, 0, 0, 255))
    else if c == Rgb(255, 255, 255) || c == Rgba(255, 255, 255, 255) then Some(Pixel(255, 255, 255, 255))
    else if c.Rgb? then Some(Pixel(c.r, c.g, c.b, 255))
    else None
  }

  /** Some channel is darker than the threshold. */
  predicate Coloured(p: Pixel) {
    p.r < WhiteThreshold || p.g < WhiteThreshold || p.b < WhiteThreshold
  }

  /** What one template pixel becomes. */
  function RecolorPixel(p: Pixel, target: Pixel): (q: Pixel)
    ensures q == target || q == Clear
  {
    if Coloured(p) then target else Clear
  }

  /** The template's alpha never reaches the output. */
  lemma AlphaIgnored(p: Pixel, alpha: byte, target: Pixel)
    ensures RecolorPixel(p.(a := alpha), target) == RecolorPixel(p, target)
  {
  }

  /** Near-white pixels end transparent whatever their alpha; all others take the target colour. */
  lemma PixelOutcomes(p: Pixel, c: Colour)
    requires TargetColour(c).Some?
    ensures var q := RecolorPixel(p, TargetColour(c).value);
      && (Coloured(p) ==> q == Pixel(c.r, c.g, c.b, 255) && q.a == 255)
      && (!Coloured(p) ==> q == Clear)
  {
  }

  /** Some pixel of the image is coloured. */
  predicate HasColoured(img: array2<Pixel>)
    reads img
  {
    exists x, y :: 0 <= x < img.Length0 && 0 <= y < img.Length1 && Coloured(img[x, y])
  }

  /**
    `recolor(template, rgb)`: a fresh image of the template's size; each
    pixel is the target colour where the template is coloured and clear
    elsewhere. When the target would be a 5-tuple the script fails at the
    first coloured pixel it writes (None); a template with no coloured
    pixel still gives the all-clear image.
  */
  method Recolor(template: array2<Pixel>, c: Colour) returns (out: Option<array2<Pixel>>)
    ensures out.None? <==> TargetColour(c).None? && HasColoured(template)
    ensures out.Some? ==>
      && fresh(out.value)
      && out.value.Length0 == template.Length0 && out.value.Length1 == template.Length1
      && forall x, y :: 0 <= x < template.Length0 && 0 <= y < template.Length1 ==>
           out.value[x, y] == RecolorPixel(template[x, y], TargetColour(c).GetOr(Clear))
  {
    var target := TargetColour(c);
    var t := target.GetOr(Clear);
    var w, h := template.Length0, template.Length1;
    var dst := new Pixel[w, h]((x, y) => Clear);
    for y := 0 to h
      invariant forall x, y' :: 0 <= x < w && 0 <= y' < y ==> dst[x, y'] == RecolorPixel(template[x, y'], t)
      invariant forall x, y' :: 0 <= x < w && y <= y' < h ==> dst[x, y'] == Clear
      invariant target.None? ==> forall x, y' :: 0 <= x < w && 0 <= y' < y ==> !Coloured(template[x, y'])
    {
      for x := 0 to w
        invariant forall x', y' :: 0 <= x' < w && 0 <= y' < y ==> dst[x', y'] == RecolorPixel(template[x', y'], t)
        invariant forall x' :: 0 <= x' < x ==> dst[x', y] == RecolorPixel(template[x', y], t)
        invariant forall x', y' :: 0 <= x' < w && y <= y' < h && (y' > y || x' >= x) ==> dst[x', y'] == Clear
        invariant target.None? ==> forall x', y' :: 0 <= x' < w && 0 <= y' < y ==> !Coloured(template[x', y'])
        invariant target.None? ==> forall x' :: 0 <= x' < x ==> !Coloured(template[x', y])
      {
        var p := template[x, y];
        if Coloured(p) {
          if target.None? {
            assert Coloured(template[x, y]);
            return None;
          }
          dst[x, y] := t;
        }
      }
    }
    return Some(dst);
  }
}

=== FILE: discovery.dfy ===
/**
  Instance discovery (`findInstanceDirs` in services/memory-db/sync.js):
  which entries of the root directory are OpenClaw instances, the
  instance name each one gets, and the guard that the view builder
  applies to those names.
*/
module Discovery {
  import opened Wrappers
  import opened Text

  /** One entry of the root directory, with what the file system says about it. */
  datatype DirEntry = DirEntry(name: string, isDirectory: bool, hasSessions: bool)

  /** A discovered instance: its directory, its instance name and its sessions directory. */
  datatype Instance = Instance(dir: string, instance: string, sessionsPath: string)

  /** `^\.openclaw(-[\w]+)?$`: the bare name, or the name, a dash and one or more word characters. */
  function MatchesInstancePattern(name: string): (r: bool)
    ensures r ==> StartsWith(name, ".openclaw")
    ensures r && name != ".openclaw" ==> |name| > 10 && name[9] == '-' && ValidViewName(name[10..])
  {
    var r := name == ".openclaw" || (|name| > 10 && name[..10] == ".openclaw-" && AllWordChars(name[10..]));
    assert r && name != ".openclaw" ==> name[..9] == name[..10][..9] && name[9] == name[..10][9];
    r
  }

  /** The pattern accepts the bare name, and the name, a dash and any word the view guard accepts. */
  lemma PatternAccepts(w: string)
    requires ValidViewName(w)
    ensures MatchesInstancePattern(".openclaw")
    ensures MatchesInstancePattern(".openclaw-" + w)
  {
  }

  /**
    The instance name of a directory: the first `.openclaw-` removed,
    then the first `.openclaw` removed, `default` when nothing is left,
    then lower-cased.
  */
  function InstanceName(dir: string): (r: string)
    ensures |r| > 0
  {
    var stripped := ReplaceFirst(ReplaceFirst(dir, ".openclaw-", ""), ".openclaw", "");
    ToLower(if stripped == "" then "default" else stripped)
  }

  /** `path.join(root, dir, 'agents', 'main', 'sessions')` for a root without a trailing separator. */
  function SessionsPath(root: string, dir: string): string {
    root + "/" + dir + "/agents/main/sessions"
  }

  /** An entry becomes an instance when it is a directory, matches the pattern and has a sessions directory. */
  predicate Qualifies(e: DirEntry) {
    e.isDirectory && MatchesInstancePattern(e.name) && e.hasSessions
  }

  function InstanceOf(root: string, e: DirEntry): Instance {
    Instance(e.name, InstanceName(e.name), SessionsPath(root, e.name))
  }

  /** The instances found among `entries`, in directory order. */
  function Discovered(root: string, entries: seq<DirEntry>): (r: seq<Instance>)
    ensures |r| <= |entries|
  {
    if entries == [] then []
    else
      var init := Discovered(root, entries[..|entries| - 1]);
      var e := entries[|entries| - 1];
      if Qualifies(e) then init + [InstanceOf(root, e)] else init
  }

  /** The scan over the directory listing. */
  method FindInstanceDirs(root: string, entries: seq<DirEntry>) returns (instances: seq<Instance>)
    ensures instances == Discovered(root, entries)
  {
    instances := [];
    for i := 0 to |entries|
      invariant instances == Discovered(root, entries[..i])
    {
      var entry := entries[i];
      assert entries[..i + 1][..i] == entries[..i];
      if entry.isDirectory && MatchesInstancePattern(entry.name) {
        var name := ReplaceFirst(ReplaceFirst(entry.name, ".openclaw-", ""), ".openclaw", "");
        if name == "" {
          name := "default";
        }
        name := ToLower(name);
        var sessionsPath := SessionsPath(root, entry.name);
        if entry.hasSessions {
          instances := instances + [Instance(entry.name, name, sessionsPath)];
        }
      }
    }
    assert entries[..|entries|] == entries;
  }

  /** The listing with one more entry: the instances found so far, then that entry's if it qualifies. */
  lemma DiscoveredStep(root: string, entries: seq<DirEntry>)
    requires entries != []
    ensures var e := entries[|entries| - 1];
      Discovered(root, entries)
        == Discovered(root, entries[..|entries| - 1]) + (if Qualifies(e) then [InstanceOf(root, e)] else [])
  {
  }

  /** A result is an instance exactly when some qualifying entry produced it. */
  lemma DiscoveredExactly(root: string, entries: seq<DirEntry>)
    ensures forall inst :: inst in Discovered(root, entries) <==>
      exists e :: e in entries && Qualifies(e) && inst == InstanceOf(root, e)
  {
    forall inst | inst in Discovered(root, entries)
      ensures exists e :: e in entries && Qualifies(e) && inst == InstanceOf(root, e)
    {
      var e := DiscoveredSource(root, entries, inst);
    }
    forall e | e in entries && Qualifies(e) ensures InstanceOf(root, e) in Discovered(root, entries) {
      QualifiedDiscovered(root, entries, e);
    }
  }

  /** Every instance found comes from a qualifying entry. */
  lemma {:induction false} DiscoveredSource(root: string, entries: seq<DirEntry>, inst: Instance) returns (e: DirEntry)
    requires inst in Discovered(root, entries)
    ensures e in entries && Qualifies(e) && inst == InstanceOf(root, e)
  {
    var init := entries[..|entries| - 1];
    var last := entries[|entries| - 1];
    if inst in Discovered(root, init) {
      e := DiscoveredSource(root, init, inst);
      assert e in entries by {
        var k :| 0 <= k < |init| && init[k] == e;
        assert entries[k] == e;
      }
    } else {
      DiscoveredStep(root, entries);
      var added: seq<Instance> := if Qualifies(last) then [InstanceOf(root, last)] else [];
      assert inst in added;
      e := last;
    }
  }

  /** Every qualifying entry yields its instance. */
  lemma {:induction false} QualifiedDiscovered(root: string, entries: seq<DirEntry>, e: DirEntry)
    requires e in entries && Qualifies(e)
    ensures InstanceOf(root, e) in Discovered(root, entries)
  {
    var init := entries[..|entries| - 1];
    var last := entries[|entries| - 1];
    DiscoveredStep(root, entries);
    if e != last {
      assert e in init by {
        var k :| 0 <= k < |entries| && entries[k] == e;
        assert k < |init| && init[k] == e;
      }
      QualifiedDiscovered(root, init, e);
    }
  }

  lemma NoDotNoOpenclaw(x: string)
    requires forall i :: 0 <= i < |x| ==> x[i] != '.'
    ensures !Contains(x, ".openclaw")
  {
    forall k | 0 <= k <= |x| ensures !OccursAt(x, ".openclaw", k) {
      if k + 9 <= |x| {
        assert x[k..k + 9][0] == x[k];
      }
    }
  }

  /** Names that follow the convention: the bare directory is `default`, any other is its suffix in lower case. */
  lemma InstanceNameOfConvention(dir: string)
    requires MatchesInstancePattern(dir)
    ensures dir == ".openclaw" ==> InstanceName(dir) == ToLower("default")
    ensures dir != ".openclaw" ==> InstanceName(dir) == ToLower(dir[10..])
  {
    if dir == ".openclaw" {
      assert !Contains(dir, ".openclaw-");
      assert OccursAt(dir, ".openclaw", 0);
    } else {
      assert OccursAt(dir, ".openclaw-", 0);
      var suffix := dir[10..];
      assert ReplaceFirst(dir, ".openclaw-", "") == suffix;
      forall i | 0 <= i < |suffix| ensures suffix[i] != '.' {
        assert IsWordChar(suffix[i]);
      }
      NoDotNoOpenclaw(suffix);
    }
  }

  /** Two directories whose suffixes differ only in letter case share one instance name. */
  lemma CaseVariantsShareInstance(a: string, b: string)
    requires MatchesInstancePattern(a) && MatchesInstancePattern(b)
    requires a != ".openclaw" && b != ".openclaw"
    requires |a| == |b| && forall i :: 10 <= i < |a| ==> LowerChar(a[i]) == LowerChar(b[i])
    ensures InstanceName(a) == InstanceName(b)
  {
    InstanceNameOfConvention(a);
    InstanceNameOfConvention(b);
    SameLower(a[10..], b[10..]);
  }

  lemma SameLower(x: string, y: string)
    requires |x| == |y| && forall i :: 0 <= i < |x| ==> LowerChar(x[i]) == LowerChar(y[i])
    ensures ToLower(x) == ToLower(y)
  {
  }

  // ---------------------------------------------------------------------
  // View names
  // ---------------------------------------------------------------------

  /** `^[\w]+$`: the guard `ensureViews` applies before building SQL from an instance name. */
  /**
    `^[\w]+$`: the guard `ensureViews` applies before building SQL from an
    instance name. A name that passes can neither close the quoted literal
    nor end the statement.
  */
  function ValidViewName(s: string): (r: bool)
    ensures r ==> s != []
    ensures r ==> forall i :: 0 <= i < |s| ==> s[i] != '\'' && s[i] != ';' && s[i] != '"' && !IsSpace(s[i]) && s[i] != '.'
  {
    s != [] && AllWordChars(s)
  }

  /** Every instance that discovery yields passes the view-name guard. */
  lemma {:induction false} DiscoveredNamesPassGuard(root: string, entries: seq<DirEntry>)
    ensures forall i :: 0 <= i < |Discovered(root, entries)| ==> ValidViewName(Discovered(root, entries)[i].instance)
  {
    if entries != [] {
      var init := entries[..|entries| - 1];
      var e := entries[|entries| - 1];
      DiscoveredNamesPassGuard(root, init);
      DiscoveredStep(root, entries);
      if Qualifies(e) {
        QualifiedNamePassesGuard(root, e);
        var d := Discovered(root, init);
        var r := d + [InstanceOf(root, e)];
        forall i | 0 <= i < |r| ensures ValidViewName(r[i].instance) {
          if i < |d| {
            assert r[i] == d[i];
          }
        }
      }
    }
  }

  /** The instance name of a qualifying entry passes the guard. */
  lemma QualifiedNamePassesGuard(root: string, e: DirEntry)
    requires Qualifies(e)
    ensures ValidViewName(InstanceOf(root, e).instance)
  {
    InstanceNameOfConvention(e.name);
    if e.name == ".openclaw" {
      DefaultIsWord("default");
    } else {
      LowerKeepsWordChars(e.name[10..]);
    }
  }

  lemma DefaultIsWord(d: string)
    requires d == "default"
    ensures ValidViewName(ToLower(d))
  {
    LowerKeepsWordChars(d);
  }

  /** The view over an instance's messages. */
  function MessagesViewName(instance: string): string { "v_" + instance }

  /** The view over an instance's cron reports. */
  function CronViewName(instance: string): string { "v_cron_" + instance }

  /** Distinct instances get distinct views of each kind. */
  lemma ViewNamesInjective(a: string, b: string)
    ensures MessagesViewName(a) == MessagesViewName(b) ==> a == b
    ensures CronViewName(a) == CronViewName(b) ==> a == b
  {
    if MessagesViewName(a) == MessagesViewName(b) {
      assert a == MessagesViewName(a)[2..];
    }
    if CronViewName(a) == CronViewName(b) {
      assert a == CronViewName(a)[7..];
    }
  }

  /** But the two kinds share one namespace: the messages view of `cron_x` is the cron view of `x`. */
  lemma ViewNamesCanCollide(x: string)
    ensures MessagesViewName("cron_" + x) == CronViewName(x)
  {
    assert "v_" + ("cron_" + x) == "v_cron_" + x;
  }
}

=== FILE: mission.dfy ===
/**
  The pure helpers of the Mission Control web interface over the memory
  database: HTML escaping, cookie parsing, the password check, the
  placeholder numbering of the search query and the paging arithmetic.
*/
module MissionControl {
  import opened Wrappers
  import opened Text

  // ---------------------------------------------------------------------
  // escapeHtml
  // ---------------------------------------------------------------------

  /** The text has none of the four characters the escaper rewrites. */
  predicate NoSpecial(s: string) {
    '&' !in s && '<' !in s && '>' !in s && '"' !in s
  }

  /** The four global replacements, `&` first. */
  function ReplaceChain(s: string): string {
    ReplaceAllChar(ReplaceAllChar(ReplaceAllChar(ReplaceAllChar(s, '&', "&amp;"), '<', "&lt;"), '>', "&gt;"), '"', "&quot;")
  }

  /** `escapeHtml(s)`: falsy input gives the empty string. */
  function EscapeHtml(s: Option<string>): (r: string)
    ensures s.None? || s.value == "" ==> r == ""
    ensures s.Some? && NoSpecial(s.value) ==> r == s.value
  {
    if s.None? || s.value == "" then "" else ReplaceChain(s.value)
  }

  /** What one character becomes: an independent, per-character account of the escaper. */
  function EscapeChar(c: char): (r: string)
    ensures c != '&' && c != '<' && c != '>' && c != '"' ==> r == [c]
    ensures r != [] && (r[0] == c || r[0] == '&')
    ensures forall i :: 0 <= i < |r| ==> r[i] != '<' && r[i] != '>' && r[i] != '"'
  {
    if c == '&' then "&amp;"
    else if c == '<' then "&lt;"
    else if c == '>' then "&gt;"
    else if c == '"' then "&quot;"
    else [c]
  }

  function EscapeEach(s: string): (r: string)
    ensures forall i :: 0 <= i < |r| ==> r[i] != '<' && r[i] != '>' && r[i] != '"'
  {
    if s == [] then [] else
      var h := EscapeChar(s[0]);
      var t := EscapeEach(s[1..]);
      assert forall i :: |h| <= i < |h + t| ==> (h + t)[i] == t[i - |h|];
      h + t
  }

  lemma ChainOneChar(c: char)
    ensures ReplaceChain([c]) == EscapeChar(c)
  {
  }

  /** The chain of global replacements escapes each character on its own. */
  lemma {:induction false} ChainIsPerChar(s: string)
    ensures ReplaceChain(s) == EscapeEach(s)
  {
    if s != [] {
      assert s == [s[0]] + s[1..];
      var a := [s[0]];
      var b := s[1..];
      ReplaceAllCharAppend(a, b, '&', "&amp;");
      var a1 := ReplaceAllChar(a, '&', "&amp;");
      var b1 := ReplaceAllChar(b, '&', "&amp;");
      ReplaceAllCharAppend(a1, b1, '<', "&lt;");
      var a2 := ReplaceAllChar(a1, '<', "&lt;");
      var b2 := ReplaceAllChar(b1, '<', "&lt;");
      ReplaceAllCharAppend(a2, b2, '>', "&gt;");
      var a3 := ReplaceAllChar(a2, '>', "&gt;");
      var b3 := ReplaceAllChar(b2, '>', "&gt;");
      ReplaceAllCharAppend(a3, b3, '"', "&quot;");
      ChainOneChar(s[0]);
      ChainIsPerChar(b);
    }
  }

  /** The escaped text holds no `<`, `>` or `"`. */
  lemma EscapedHasNoMarkup(s: Option<string>)
    ensures var r := EscapeHtml(s);
      forall i :: 0 <= i < |r| ==> r[i] != '<' && r[i] != '>' && r[i] != '"'
  {
    if s.Some? && s.value != "" {
      ChainIsPerChar(s.value);
    }
  }

  /** The entity starting `t`, if any: the character it stands for and its length. */
  function EntityAt(t: string): (r: Option<(char, nat)>)
    ensures r.Some? ==> 0 < r.value.1 <= |t|
  {
    if |t| >= 5 && t[0] == '&' && t[1] == 'a' && t[2] == 'm' && t[3] == 'p' && t[4] == ';' then Some(('&', 5))
    else if |t| >= 4 && t[0] == '&' && t[1] == 'l' && t[2] == 't' && t[3] == ';' then Some(('<', 4))
    else if |t| >= 4 && t[0] == '&' && t[1] == 'g' && t[2] == 't' && t[3] == ';' then Some(('>', 4))
    else if |t| >= 6 && t[0] == '&' && t[1] == 'q' && t[2] == 'u' && t[3] == 'o' && t[4] == 't' && t[5] == ';' then Some(('"', 6))
    else None
  }

  /** Reading the four entities back: the inverse the escaper is designed for. */
  function UnescapeHtml(t: string): (r: string)
    decreases |t|
  {
    if t == [] then []
    else match EntityAt(t)
      case Some((c, n)) => [c] + UnescapeHtml(t[n..])
      case None => [t[0]] + UnescapeHtml(t[1..])
  }

  lemma UnescapeOne(c: char, rest: string)
    ensures UnescapeHtml(EscapeChar(c) + rest) == [c] + UnescapeHtml(rest)
  {
    var e := EscapeChar(c);
    var t := e + rest;
    assert t[..|e|] == e && t[|e|..] == rest;
    if c == '&' {
      assert EntityAt(t) == Some(('&', 5));
    } else if c == '<' {
      assert EntityAt(t) == Some(('<', 4));
    } else if c == '>' {
      assert EntityAt(t) == Some(('>', 4));
    } else if c == '"' {
      assert EntityAt(t) == Some(('"', 6));
    } else {
      assert t[0] == c;
      assert EntityAt(t) == None;
    }
  }

  /** Unescaping gives back the original text: escaping loses nothing. */
  lemma {:induction false} EscapeRoundTrip(s: string)
    ensures UnescapeHtml(EscapeHtml(Some(s))) == s
  {
    if s != [] {
      ChainIsPerChar(s);
      EachRoundTrip(s);
    }
  }

  lemma {:induction false} EachRoundTrip(s: string)
    ensures UnescapeHtml(EscapeEach(s)) == s
  {
    if s != [] {
      UnescapeOne(s[0], EscapeEach(s[1..]));
      EachRoundTrip(s[1..]);
      assert [s[0]] + s[1..] == s;
    }
  }

  // ---------------------------------------------------------------------
  // parseCookies and isAuthed
  // ---------------------------------------------------------------------

  /** A cookie value as JavaScript sees it: a missing `=` leaves it `undefined` (None). */
  type Cookies = map<string, Option<string>>

  /** `const [k, v] = c.trim().split('=')`: the first and the second piece. */
  function CookiePair(part: string): (kv: (string, Option<string>))
    ensures '=' !in kv.0
  {
    var pieces := Split(Trim(part), '=');
    (pieces[0], if |pieces| >= 2 then Some(pieces[1]) else None)
  }

  /**
    The key is the trimmed part up to its first `=` (all of it when there
    is none); the value runs from there to the next `=` or the end.
  */
  lemma CookiePairShape(part: string)
    ensures var kv := CookiePair(part);
      && '=' !in kv.0
      && (kv.1.None? ==> kv.0 == Trim(part))
      && (kv.1.Some? ==> '=' !in kv.1.value && StartsWith(Trim(part), kv.0 + "=" + kv.1.value))
  {
    var pieces := Split(Trim(part), '=');
    JoinSplit(Trim(part), '=');
    JoinHeads(pieces, "=");
  }

  /** A join begins with its first part, then the separator and the second part when there is one. */
  lemma JoinHeads(ps: seq<string>, sep: string)
    requires |ps| >= 1
    ensures |ps| == 1 ==> Join(ps, sep) == ps[0]
    ensures |ps| >= 2 ==> StartsWith(Join(ps, sep), ps[0] + sep + ps[1])
  {
    if |ps| >= 2 {
      var tail := Join(ps[1..], sep);
      assert StartsWith(tail, ps[1]) by {
        if |ps| > 2 {
          assert tail == ps[1] + sep + Join(ps[2..], sep);
        }
      }
      assert Join(ps, sep) == ps[0] + sep + tail;
      assert (ps[0] + sep + tail)[..|ps[0] + sep + ps[1]|] == ps[0] + sep + tail[..|ps[1]|];
    }
  }

  /** The cookie object after the `forEach` over `parts`: empty keys skipped, later keys overwrite. */
  function CookiesOf(parts: seq<string>): (m: Cookies)
    ensures "" !in m
  {
    if parts == [] then map[]
    else
      SetCookie(CookiesOf(parts[..|parts| - 1]), CookiePair(parts[|parts| - 1]))
  }

  /** One step of the `forEach`: a non-empty key is set, an empty one skipped. */
  function SetCookie(m: Cookies, kv: (string, Option<string>)): (m': Cookies)
    requires "" !in m
    ensures "" !in m'
    ensures kv.0 != "" ==> kv.0 in m' && m'[kv.0] == kv.1
    ensures forall k :: k != kv.0 ==> (k in m' <==> k in m) && (k in m ==> m'[k] == m[k])
  {
    if kv.0 != "" then m[kv.0 := kv.1] else m
  }

  /** `parseCookies(req)`: the header split on `;`, each part read into the cookie object in order. */
  method ParseCookies(header: Option<string>) returns (cookies: Cookies)
    ensures cookies == CookiesOf(Split(header.GetOr(""), ';'))
  {
    var parts := Split(header.GetOr(""), ';');
    cookies := map[];
    for i := 0 to |parts|
      invariant cookies == CookiesOf(parts[..i])
    {
      var kv := CookiePair(parts[i]);
      CookiesPrefixStep(parts, i);
      if kv.0 != "" {
        cookies := cookies[kv.0 := kv.1];
      }
    }
    assert parts[..|parts|] == parts;
  }

  /** Without a header there are no cookies. */
  lemma NoHeaderNoCookies()
    ensures CookiesOf(Split("", ';')) == map[]
  {
    assert Split("", ';') == [""];
    assert CookiesOf([""]) == CookiesOf([]);
  }

  /** The fold over a non-empty list of parts is its last step. */
  lemma CookiesStep(parts: seq<string>)
    requires parts != []
    ensures CookiesOf(parts) == SetCookie(CookiesOf(parts[..|parts| - 1]), CookiePair(parts[|parts| - 1]))
  {
  }

  /** Reading part `i` after the parts before it gives the cookies of the first `i + 1` parts. */
  lemma CookiesPrefixStep(parts: seq<string>, i: nat)
    requires i < |parts|
    ensures CookiesOf(parts[..i + 1]) == SetCookie(CookiesOf(parts[..i]), CookiePair(parts[i]))
  {
    assert parts[..i + 1][..i] == parts[..i] && parts[..i + 1][i] == parts[i];
    CookiesStep(parts[..i + 1]);
  }

  /** Part `i` is the last of `parts` whose key is `k`. */
  predicate LastNamed(parts: seq<string>, k: string, i: nat) {
    i < |parts| && CookiePair(parts[i]).0 == k && forall j :: i < j < |parts| ==> CookiePair(parts[j]).0 != k
  }

  /** Every key present comes from the last part that names it, and holds that part's value. */
  lemma {:induction false} CookieSource(parts: seq<string>, k: string) returns (i: nat)
    requires k in CookiesOf(parts)
    ensures LastNamed(parts, k, i) && CookiePair(parts[i]).1 == CookiesOf(parts)[k]
  {
    assert parts != [];
    var init := parts[..|parts| - 1];
    var kv := CookiePair(parts[|parts| - 1]);
    CookiesStep(parts);
    if kv.0 == k {
      i := |parts| - 1;
    } else {
      i := CookieSource(init, k);
      assert parts[i] == init[i];
      forall j | i < j < |parts| ensures CookiePair(parts[j]).0 != k {
        if j < |init| {
          assert parts[j] == init[j];
        } else {
          assert j == |parts| - 1;
        }
      }
    }
  }

  /** Every part with a non-empty key leaves that key present. */
  lemma {:induction false} CookieKept(parts: seq<string>, i: nat)
    requires i < |parts| && CookiePair(parts[i]).0 != ""
    ensures CookiePair(parts[i]).0 in CookiesOf(parts)
  {
    if i < |parts| - 1 {
      var init := parts[..|parts| - 1];
      assert init[i] == parts[i];
      CookieKept(init, i);
    }
  }

  /** The value kept for a key is the one from the last part that names it. */
  lemma {:induction false} LastCookieWins(parts: seq<string>, i: nat)
    requires i < |parts| && CookiePair(parts[i]).0 != ""
    requires forall j :: i < j < |parts| ==> CookiePair(parts[j]).0 != CookiePair(parts[i]).0
    ensures CookiePair(parts[i]).0 in CookiesOf(parts)
    ensures CookiesOf(parts)[CookiePair(parts[i]).0] == CookiePair(parts[i]).1
  {
    var init := parts[..|parts| - 1];
    if i < |parts| - 1 {
      assert init[i] == parts[i];
      assert forall j :: i < j < |init| ==> init[j] == parts[j];
      LastCookieWins(init, i);
      OtherCookieKept(parts, CookiePair(parts[i]).0);
    }
  }

  /** A later part naming another key leaves this key's value alone. */
  lemma OtherCookieKept(parts: seq<string>, k: string)
    requires parts != [] && CookiePair(parts[|parts| - 1]).0 != k
    requires k in CookiesOf(parts[..|parts| - 1])
    ensures k in CookiesOf(parts) && CookiesOf(parts)[k] == CookiesOf(parts[..|parts| - 1])[k]
  {
    var kv := CookiePair(parts[|parts| - 1]);
    assert CookiesOf(parts) == SetCookie(CookiesOf(parts[..|parts| - 1]), kv);
  }

  /** `a=b=c` gives `a` the value `b`: the text after a second `=` is lost. */
  lemma CookieValueIsSecondPiece(part: string, pieces: seq<string>)
    requires |pieces| >= 2 && forall i :: 0 <= i < |pieces| ==> '=' !in pieces[i]
    requires Trim(part) == Join(pieces, "=")
    ensures CookiePair(part) == (pieces[0], Some(pieces[1]))
  {
    SplitJoin(pieces, '=');
  }

  const TokenCookie := "mc_token"

  /**
    `isAuthed(req)`: no password lets everyone in; otherwise the
    `mc_token` cookie must hold a non-empty token the server issued.
  */
  function IsAuthed(password: string, header: Option<string>, sessions: set<string>): (r: bool)
    ensures password == "" ==> r
    ensures password != "" ==>
      (r <==> TokenInParts(Split(header.GetOr(""), ';'), sessions))
  {
    if password == "" then true
    else
      var parts := Split(header.GetOr(""), ';');
      var cookies := CookiesOf(parts);
      var admitted := TokenCookie in cookies && Issued(cookies[TokenCookie], sessions);
      TokenFromParts(parts, sessions);
      admitted
  }

  /** A cookie value that is a non-empty token the server issued. */
  predicate Issued(v: Option<string>, sessions: set<string>) {
    v.Some? && v.value != "" && v.value in sessions
  }

  /** The last part of the header that names `mc_token` carries an issued token. */
  predicate TokenInParts(parts: seq<string>, sessions: set<string>) {
    exists i: nat :: i < |parts| && LastNamed(parts, TokenCookie, i) && Issued(CookiePair(parts[i]).1, sessions)
  }

  /** The `mc_token` cookie holds an issued token exactly when the last part naming it does. */
  lemma TokenFromParts(parts: seq<string>, sessions: set<string>)
    ensures var cookies := CookiesOf(parts);
      (TokenCookie in cookies && Issued(cookies[TokenCookie], sessions)) <==> TokenInParts(parts, sessions)
  {
    var cookies := CookiesOf(parts);
    if TokenCookie in cookies {
      var i := CookieSource(parts, TokenCookie);
    }
    forall i: nat | LastNamed(parts, TokenCookie, i) ensures TokenCookie in cookies && cookies[TokenCookie] == CookiePair(parts[i]).1 {
      LastCookieWins(parts, i);
    }
  }

  /** With a password set, a request is let in only with an issued token. */
  lemma AuthedNeedsToken(password: string, header: Option<string>, sessions: set<string>)
    requires password != ""
    ensures IsAuthed(password, header, sessions) ==>
      var cookies := CookiesOf(Split(header.GetOr(""), ';'));
      TokenCookie in cookies && cookies[TokenCookie].Some? && cookies[TokenCookie].value in sessions
    ensures sessions == {} ==> !IsAuthed(password, header, sessions)
  {
  }

  /** A request whose only cookie is an issued token is let in. */
  lemma IssuedTokenAdmits(password: string, token: string, sessions: set<string>)
    requires token in sessions && token != ""
    requires '=' !in token && ';' !in token && !IsSpace(token[|token| - 1])
    ensures IsAuthed(password, Some(TokenCookie + "=" + token), sessions)
  {
    var part := TokenCookie + "=" + token;
    assert Split(part, ';') == [part] by {
      SplitJoin([part], ';');
    }
    assert CookiePair(part) == (TokenCookie, Some(token)) by {
      assert part[0] == 'm' && part[|part| - 1] == token[|token| - 1];
      TrimUnpadded(part);
      assert part == Join([TokenCookie, token], "=");
      CookieValueIsSecondPiece(part, [TokenCookie, token]);
    }
    LastCookieWins([part], 0);
  }

  // ---------------------------------------------------------------------
  // Search query and paging
  // ---------------------------------------------------------------------

  /** The results page shows thirty rows. */
  const PageSize := 30

  /** A query parameter: text, a number, or JavaScript's NaN. */
  datatype Param = Text(s: string) | Num(n: int) | NotANumber

  /** The optional filters, in the order the search handler tests them. */
  datatype Filter = InstanceIs | RoleIs | CreatedFrom | CreatedBefore

  /** A where-clause the handler adds, with the number of the placeholder it refers to. */
  datatype Clause = Clause(filter: Filter, placeholder: nat)

  /** `parseInt(x || '1')` for the page number, NaN as `NotANumber`. */
  function PageOf(param: Option<string>): (r: Param)
    ensures r.Num? || r.NotANumber?
    ensures param.None? || param.value == "" ==> r == Num(1)
    ensures param.Some? && param.value != "" ==>
      match ParseInt(param.value)
      case Some(k) => r == Num(k)
      case None => r == NotANumber
  {
    assert ParseInt("1") == Some(1) by {
      assert NatToString(1) == "1";
      ParseIntNatToString(1);
    }
    match ParseInt(if param.Some? && param.value != "" then param.value else "1")
    case Some(n) => Num(n)
    case None => NotANumber
  }

  /** `(page - 1) * limit`; NaN stays NaN. */
  function OffsetOf(page: Param): (r: Param)
    requires page.Num? || page.NotANumber?
    ensures page.Num? ==> r.Num? && r.n % PageSize == 0 && (r.n >= 0 <==> page.n >= 1)
    ensures page.NotANumber? ==> r.NotANumber?
  {
    if page.Num? then Num((page.n - 1) * PageSize) else NotANumber
  }

  /** Without a page parameter the first page starts at row 0, and each page starts where the last ended. */
  lemma PagingWindows(n: int)
    ensures PageOf(None) == Num(1)
    ensures OffsetOf(PageOf(None)) == Num(0)
    ensures OffsetOf(Num(n + 1)).n == OffsetOf(Num(n)).n + PageSize
  {
    assert NatToString(1) == "1";
    ParseIntNatToString(1);
  }

  /** "Previous" is offered past the first page; a NaN page never compares greater. */
  function HasPrevious(page: Param): (r: bool)
    ensures r <==> page.Num? && page.n > 1
  {
    match page
    case Num(n) => n > 1
    case _ => false
  }

  /** "Next" is offered when the page came back full. */
  function HasNext(rowCount: nat): (r: bool)
    ensures r <==> rowCount == PageSize
  {
    rowCount == PageSize
  }

  /** The filter each request value feeds, and the value. */
  function FilterValue(f: Filter, instance: string, role: string, from: string, to: string): string {
    match f
    case InstanceIs => instance
    case RoleIs => role
    case CreatedFrom => from
    case CreatedBefore => to
  }

  /** The filters whose request value is non-empty, in the order they are tested. */
  function PresentFilters(instance: string, role: string, from: string, to: string): (r: seq<Filter>)
    ensures forall f :: f in r <==> FilterValue(f, instance, role, from, to) != ""
  {
    (if instance != "" then [InstanceIs] else [])
      + (if role != "" then [RoleIs] else [])
      + (if from != "" then [CreatedFrom] else [])
      + (if to != "" then [CreatedBefore] else [])
  }

  /** The parameter pushed for each filter, in order. */
  function ValuesOf(fs: seq<Filter>, instance: string, role: string, from: string, to: string): (ps: seq<Param>)
    ensures |ps| == |fs|
    ensures forall i :: 0 <= i < |fs| ==> ps[i] == Text(FilterValue(fs[i], instance, role, from, to))
  {
    if fs == [] then [] else ValuesOf(fs[..|fs| - 1], instance, role, from, to) + [Text(FilterValue(fs[|fs| - 1], instance, role, from, to))]
  }

  /** The clause for each filter, numbered from `next` on. */
  function ClausesOf(fs: seq<Filter>, next: nat): (cs: seq<Clause>)
    ensures |cs| == |fs|
    ensures forall i :: 0 <= i < |fs| ==> cs[i] == Clause(fs[i], next + i)
  {
    if fs == [] then [] else ClausesOf(fs[..|fs| - 1], next) + [Clause(fs[|fs| - 1], next + |fs| - 1)]
  }

  /** Pushing one more filter adds its parameter and its clause at the end. */
  lemma PushFilter(fs: seq<Filter>, f: Filter, instance: string, role: string, from: string, to: string)
    ensures ValuesOf(fs + [f], instance, role, from, to) == ValuesOf(fs, instance, role, from, to) + [Text(FilterValue(f, instance, role, from, to))]
    ensures ClausesOf(fs + [f], 4) == ClausesOf(fs, 4) + [Clause(f, 4 + |fs|)]
  {
    assert (fs + [f])[..|fs|] == fs;
  }

  /** The state of the query builder after the filters in `present` were looked at. */
  ghost predicate Tracks(clauses: seq<Clause>, params: seq<Param>, paramIdx: int, fixed: seq<Param>, present: seq<Filter>,
                         instance: string, role: string, from: string, to: string)
  {
    && |fixed| == 3
    && params == fixed + ValuesOf(present, instance, role, from, to)
    && clauses == ClausesOf(present, 4)
    && paramIdx == |params| + 1
  }

  /**
    One filter of the search handler: when its request value is non-empty,
    a clause naming placeholder `paramIdx` is added, the value is pushed
    as that parameter and the counter moves on.
  */
  method AddFilter(clauses: seq<Clause>, params: seq<Param>, paramIdx: int, f: Filter,
                   ghost fixed: seq<Param>, ghost present: seq<Filter>,
                   instance: string, role: string, from: string, to: string)
    returns (clauses': seq<Clause>, params': seq<Param>, paramIdx': int, ghost present': seq<Filter>)
    requires Tracks(clauses, params, paramIdx, fixed, present, instance, role, from, to)
    ensures present' == present + (if FilterValue(f, instance, role, from, to) != "" then [f] else [])
    ensures Tracks(clauses', params', paramIdx', fixed, present', instance, role, from, to)
    ensures FilterValue(f, instance, role, from, to) == "" ==>
      clauses' == clauses && params' == params && paramIdx' == paramIdx
    ensures FilterValue(f, instance, role, from, to) != "" ==>
      // the new clause's `$n` is the 1-based position of the value just pushed
      && params' == params + [Text(FilterValue(f, instance, role, from, to))]
      && clauses' == clauses + [Clause(f, |params'|)]
      && paramIdx' == paramIdx + 1
  {
    var value := FilterValue(f, instance, role, from, to);
    clauses', params', paramIdx', present' := clauses, params, paramIdx, present;
    if value != "" {
      PushFilter(present, f, instance, role, from, to);
      clauses' := clauses + [Clause(f, paramIdx)];
      params' := params + [Text(value)];
      paramIdx' := paramIdx + 1;
      present' := present + [f];
    }
  }

  /**
    The query the search handler builds for a non-empty `q`: the three
    fixed parameters, then one parameter and one clause per non-empty
    filter, each clause naming the position of its own parameter.
  */
  method BuildSearch(q: string, instance: string, role: string, from: string, to: string, offset: Param)
    returns (clauses: seq<Clause>, params: seq<Param>)
    ensures |params| == 3 + |clauses|
    ensures params[..3] == [Text(q), Num(PageSize), offset]
    ensures |clauses| == |PresentFilters(instance, role, from, to)|
    ensures forall i :: 0 <= i < |clauses| ==> clauses[i].filter == PresentFilters(instance, role, from, to)[i]
    ensures forall i :: 0 <= i < |clauses| ==>
      4 <= clauses[i].placeholder <= |params|
      && params[clauses[i].placeholder - 1] == Text(FilterValue(clauses[i].filter, instance, role, from, to))
  {
    var fixed := [Text(q), Num(PageSize), offset];
    params := fixed;
    clauses := [];
    var paramIdx := 4;
    ghost var present: seq<Filter> := [];
    clauses, params, paramIdx, present := AddFilter(clauses, params, paramIdx, InstanceIs, fixed, present, instance, role, from, to);
    clauses, params, paramIdx, present := AddFilter(clauses, params, paramIdx, RoleIs, fixed, present, instance, role, from, to);
    clauses, params, paramIdx, present := AddFilter(clauses, params, paramIdx, CreatedFrom, fixed, present, instance, role, from, to);
    clauses, params, paramIdx, present := AddFilter(clauses, params, paramIdx, CreatedBefore, fixed, present, instance, role, from, to);
    assert present == PresentFilters(instance, role, from, to);
    TrackedQuery(clauses, params, paramIdx, fixed, present, instance, role, from, to);
  }

  /** What the tracked state means: the fixed parameters first, then clause `i` for filter `i`, its placeholder holding its value. */
  lemma TrackedQuery(clauses: seq<Clause>, params: seq<Param>, paramIdx: int, fixed: seq<Param>, present: seq<Filter>,
                     instance: string, role: string, from: string, to: string)
    requires Tracks(clauses, params, paramIdx, fixed, present, instance, role, from, to)
    ensures |params| == 3 + |clauses| && params[..3] == fixed
    ensures |clauses| == |present|
    ensures forall i :: 0 <= i < |clauses| ==> clauses[i].filter == present[i]
    ensures forall i :: 0 <= i < |clauses| ==>
      4 <= clauses[i].placeholder <= |params|
      && params[clauses[i].placeholder - 1] == Text(FilterValue(clauses[i].filter, instance, role, from, to))
  {
    forall i | 0 <= i < |clauses|
      ensures 4 <= clauses[i].placeholder <= |params|
      ensures params[clauses[i].placeholder - 1] == Text(FilterValue(clauses[i].filter, instance, role, from, to))
    {
      assert clauses[i] == Clause(present[i], 4 + i);
      assert params[3 + i] == ValuesOf(present, instance, role, from, to)[i];
    }
  }

  /** `/api/search` caps the limit: `Math.min(parseInt(x || '20'), 100)`, NaN staying NaN. */
  function ApiLimit(param: Option<string>): (r: Param)
    ensures r.Num? ==> r.n <= 100
    ensures r.Num? || r.NotANumber?
    ensures param.None? || param.value == "" ==> r == Num(20)
    ensures param.Some? && param.value != "" ==>
      match ParseInt(param.value)
      case Some(k) => r == Num(if k < 100 then k else 100)
      case None => r == NotANumber
  {
    assert ParseInt("20") == Some(20) by {
      assert NatToString(20) == "20";
      ParseIntNatToString(20);
    }
    match ParseInt(if param.Some? && param.value != "" then param.value else "20")
    case Some(n) => Num(if n < 100 then n else 100)
    case None => NotANumber
  }

  /** The default limit is twenty, and a larger request is cut to a hundred. */
  lemma ApiLimitDefaults(n: nat)
    ensures ApiLimit(None) == Num(20)
    ensures n >= 100 ==> ApiLimit(Some(NatToString(n))) == Num(100)
  {
    assert NatToString(20) == "20";
    ParseIntNatToString(20);
    ParseIntNatToString(n);
  }

  /** The parameters of the `/api/search` query; an empty `q` queries nothing. */
  function ApiSearch(q: string, instance: string, limitParam: Option<string>): (r: Option<seq<Param>>)
    ensures r.None? <==> q == ""
    ensures r.Some? ==> |r.value| >= 2 && r.value[..2] == [Text(q), ApiLimit(limitParam)]
    ensures r.Some? ==> (|r.value| == 3 <==> instance != "")
    ensures r.Some? && instance != "" ==> r.value[2] == Text(instance)
  {
    if q == "" then None
    else Some([Text(q), ApiLimit(limitParam)] + (if instance != "" then [Text(instance)] else []))
  }
}

=== FILE: notes.dfy ===
/**
  The markdown handling of the workspace dashboard (tools/server.js):
  `parseStructuredMd`, the list views built on it, and the string
  rewrites behind the reminder toggle, todo completion and setting
  update routes.
*/
module Notes {
  import opened Wrappers
  import opened Text

  // ---------------------------------------------------------------------
  // parseStructuredMd
  // ---------------------------------------------------------------------

  /** The title a `# ` heading line gives: the first `# `, `TODO: `, `Reminder: ` and `Task: ` removed, in that order. */
  function HeadingTitle(line: string): (r: string)
    ensures |r| <= |line|
    ensures (!Contains(line, "# ") && !Contains(line, "TODO: ") && !Contains(line, "Reminder: ")
             && !Contains(line, "Task: ")) ==> r == line
  {
    ReplaceFirst(ReplaceFirst(ReplaceFirst(ReplaceFirst(line, "# ", ""), "TODO: ", ""), "Reminder: ", ""), "Task: ", "")
  }

  /**
    Where `\*\*(.+?):\*\*` can match when tried at `p`: `**` at `p`, then
    the first `:**` after at least one character, with no line terminator
    in between (`.` does not cross one). The result is the index of that `:**`.
  */
  function KeyEndAt(line: string, p: nat): (k: Option<nat>)
    requires p <= |line|
    ensures k.Some? ==> p + 3 <= k.value && OccursAt(line, ":**", k.value)
    ensures k.Some? ==> OccursAt(line, "**", p)
    ensures k.Some? ==> forall i :: p + 2 <= i < k.value ==> !IsLineTerminator(line[i])
  {
    if !OccursAt(line, "**", p) || p + 3 > |line| then None
    else
      match IndexFrom(line, ":**", p + 3)
      case None => None
      case Some(k) =>
        if exists i :: p + 2 <= i < k && IsLineTerminator(line[i]) then None else Some(k)
  }

  /** The leftmost match of `\*\*(.+?):\*\*\s*(.*)` at or after `p`: its two groups. */
  function FieldMatchFrom(line: string, p: nat): (r: Option<(string, string)>)
    requires p <= |line|
    decreases |line| - p
  {
    match KeyEndAt(line, p)
    case Some(k) =>
      var w := SpaceRunEnd(line, k + 3);
      Some((line[p + 2..k], line[w..LineEnd(line, w)]))
    case None => if p == |line| then None else FieldMatchFrom(line, p + 1)
  }

  /**
    What the two groups always look like: a non-empty key and a value on
    one line, the value starting after the white space that follows `:**`.
  */
  predicate FieldGroups(key: string, value: string) {
    key != []
    && (forall i :: 0 <= i < |key| ==> !IsLineTerminator(key[i]))
    && (forall i :: 0 <= i < |value| ==> !IsLineTerminator(value[i]))
    && (value != [] ==> !IsSpace(value[0]))
  }

  /** `line.match(...)` with the field pattern: the groups of the leftmost match, if any. */
  function FieldMatch(line: string): Option<(string, string)> {
    FieldMatchFrom(line, 0)
  }

  /** The pattern fails on a line exactly when no start position can match; a match has well-formed groups. */
  lemma FieldMatchShape(line: string)
    ensures FieldMatch(line).None? <==> forall q :: 0 <= q <= |line| ==> KeyEndAt(line, q).None?
    ensures FieldMatch(line).Some? ==> FieldGroups(FieldMatch(line).value.0, FieldMatch(line).value.1)
  {
    FieldMatchFromShape(line, 0);
  }

  lemma {:induction false} FieldMatchFromShape(line: string, p: nat)
    requires p <= |line|
    ensures FieldMatchFrom(line, p).None? <==> forall q :: p <= q <= |line| ==> KeyEndAt(line, q).None?
    ensures FieldMatchFrom(line, p).Some? ==> FieldGroups(FieldMatchFrom(line, p).value.0, FieldMatchFrom(line, p).value.1)
    decreases |line| - p
  {
    if KeyEndAt(line, p).None? && p < |line| {
      FieldMatchFromShape(line, p + 1);
    }
  }

  /** `toLowerCase()` followed by `replace(/\s/g, '_')`. */
  function FieldKey(name: string): (key: string)
    ensures |key| == |name|
    ensures NoSpace(key)
    ensures forall i :: 0 <= i < |name| ==> key[i] == (if IsSpace(name[i]) then '_' else LowerChar(name[i]))
  {
    seq(|name|, i requires 0 <= i < |name| => if IsSpace(name[i]) then '_' else LowerChar(name[i]))
  }

  /** What one line does to the record being built. */
  function ApplyLine(data: map<string, string>, line: string): map<string, string> {
    if StartsWith(line, "# ") then data["title" := HeadingTitle(line)]
    else if StartsWith(line, "**") && Contains(line, ":**") then
      match FieldMatch(line)
      case Some(groups) => data[FieldKey(groups.0) := groups.1]
      case None => data
    else data
  }

  /** A line that sets something in the record: a heading or a field line. */
  predicate Sets(line: string) {
    StartsWith(line, "# ") || (StartsWith(line, "**") && Contains(line, ":**"))
  }

  /**
    The record built from the lines, in order. Its keys are whitespace-free;
    a heading anywhere gives it a title; lines that set nothing give the empty record.
  */
  function Fields(lines: seq<string>): (r: map<string, string>)
    ensures forall k :: k in r ==> NoSpace(k)
    ensures (exists i :: 0 <= i < |lines| && StartsWith(lines[i], "# ")) ==> "title" in r
    ensures (forall i :: 0 <= i < |lines| ==> !Sets(lines[i])) ==> r == map[]
  {
    if lines == [] then map[]
    else
      var init := lines[..|lines| - 1];
      assert forall i :: 0 <= i < |init| ==> init[i] == lines[i];
      assert NoSpace("title");
      ApplyLine(Fields(init), lines[|lines| - 1])
  }

  /** `parseStructuredMd`: the loop over the lines of the content, assigning into `data`. */
  method ParseStructuredMd(content: Option<string>) returns (data: map<string, string>)
    ensures data == Fields(Split(content.GetOr(""), '\n'))
  {
    var lines := Split(content.GetOr(""), '\n');
    data := map[];
    for i := 0 to |lines|
      invariant data == Fields(lines[..i])
    {
      FieldsPrefixStep(lines, i);
      data := ReadLine(data, lines[i]);
    }
    assert lines[..|lines|] == lines;
  }

  /** Reading line `i` after the lines before it gives the record of the first `i + 1` lines. */
  lemma FieldsPrefixStep(lines: seq<string>, i: nat)
    requires i < |lines|
    ensures Fields(lines[..i + 1]) == ApplyLine(Fields(lines[..i]), lines[i])
  {
    assert lines[..i + 1][..i] == lines[..i] && lines[..i + 1][i] == lines[i];
  }

  /** The loop body of `parseStructuredMd`: a heading sets the title, a field line sets its key. */
  method ReadLine(data: map<string, string>, line: string) returns (data': map<string, string>)
    ensures data' == ApplyLine(data, line)
  {
    data' := data;
    if StartsWith(line, "# ") {
      data' := data'["title" := HeadingTitle(line)];
    } else if StartsWith(line, "**") && Contains(line, ":**") {
      var m := FieldMatch(line);
      if m.Some? {
        data' := data'[FieldKey(m.value.0) := m.value.1];
      }
    }
  }

  /** Absent or empty content gives the empty record. */
  lemma EmptyContentNoFields(content: Option<string>)
    requires content.None? || content.value == ""
    ensures Fields(Split(content.GetOr(""), '\n')) == map[]
  {
    assert Split("", '\n') == [""];
    assert [""][..0] == [];
  }

  /** A line that is neither a heading nor a field line leaves the record as it is. */
  lemma OtherLinesIgnored(data: map<string, string>, line: string)
    requires !Sets(line)
    ensures ApplyLine(data, line) == data
  {
  }

  /** The last heading wins: a heading line sets the title whatever came before. */
  lemma LaterHeadingOverwrites(lines: seq<string>, heading: string)
    requires StartsWith(heading, "# ")
    ensures "title" in Fields(lines + [heading]) && Fields(lines + [heading])["title"] == HeadingTitle(heading)
  {
    assert (lines + [heading])[..|lines|] == lines;
  }

  /** The heading marker is removed: `# ` followed by a title with none of the prefixes gives that title. */
  lemma HeadingTitlePlain(title: string)
    requires !Contains(title, "TODO: ") && !Contains(title, "Reminder: ") && !Contains(title, "Task: ")
    ensures HeadingTitle("# " + title) == title
  {
    var line := "# " + title;
    assert OccursAt(line, "# ", 0);
    assert line[..0] + "" + line[2..] == title;
    var a := ReplaceFirst(line, "# ", "");
    assert a == title;
    assert ReplaceFirst(a, "TODO: ", "") == title;
    assert ReplaceFirst(title, "Reminder: ", "") == title;
  }

  /**
    A heading carrying one of the `TODO: `, `Reminder: ` or `Task: ` labels
    right after `# ` has the text after the label as its title.
  */
  lemma HeadingTitleLabelled(tag: string, t: string)
    requires tag == "TODO: " || tag == "Reminder: " || tag == "Task: "
    requires !Contains(t, "TODO: ") && !Contains(t, "Reminder: ") && !Contains(t, "Task: ")
    ensures HeadingTitle("# " + tag + t) == t
  {
    assert "# " + tag + t == "# " + (tag + t);
    RemoveLeading("# ", tag + t);
    LabelRemoved(tag, t);
  }

  /** The three label removals applied to `tag + t` leave `t`. */
  lemma LabelRemoved(tag: string, t: string)
    requires tag == "TODO: " || tag == "Reminder: " || tag == "Task: "
    requires !Contains(t, "TODO: ") && !Contains(t, "Reminder: ") && !Contains(t, "Task: ")
    ensures ReplaceFirst(ReplaceFirst(ReplaceFirst(tag + t, "TODO: ", ""), "Reminder: ", ""), "Task: ", "") == t
  {
    if tag == "TODO: " {
      RemoveLeading(tag, t);
    } else if tag == "Reminder: " {
      NotAcross(tag, t, "TODO: ");
      RemoveLeading(tag, t);
    } else {
      NotAcross(tag, t, "TODO: ");
      NotAcross(tag, t, "Reminder: ");
      RemoveLeading(tag, t);
    }
  }

  /** Replacing a leading `p` by nothing leaves what follows it. */
  lemma RemoveLeading(p: string, t: string)
    ensures ReplaceFirst(p + t, p, "") == t
  {
    assert OccursAt(p + t, p, 0);
    assert (p + t)[..0] + "" + (p + t)[|p|..] == t;
  }

  /**
    `p` cannot occur in `a + b` when it does not occur in `b` and no
    position of `a` starts its first two characters.
  */
  lemma NotAcross(a: string, b: string, p: string)
    requires |p| >= 2 && !Contains(b, p)
    requires forall j :: 0 <= j < |a| ==> a[j] != p[0] || (j + 1 < |a| && a[j + 1] != p[1])
    ensures !Contains(a + b, p)
  {
    var s := a + b;
    forall j | 0 <= j <= |s|
      ensures !OccursAt(s, p, j)
    {
      if j + |p| <= |s| {
        if j >= |a| {
          assert s[j..j + |p|] == b[j - |a|..j - |a| + |p|];
          assert !OccursAt(b, p, j - |a|);
        } else if a[j] != p[0] {
          assert s[j..j + |p|][0] == a[j];
        } else {
          assert s[j..j + |p|][1] == a[j + 1];
        }
      }
    }
  }

  /**
    Field lines read back: `**name:**`, white space, then a value gives
    the name and the value, when the name has no `:` and no line
    terminator and the value has no line terminator and does not start
    with white space.
  */
  lemma FieldLineReadsBack(name: string, ws: string, value: string)
    requires name != [] && forall i :: 0 <= i < |name| ==> name[i] != ':' && !IsLineTerminator(name[i])
    requires AllSpace(ws)
    requires forall i :: 0 <= i < |value| ==> !IsLineTerminator(value[i])
    requires value != [] ==> !IsSpace(value[0])
    ensures FieldMatch("**" + name + ":**" + ws + value) == Some((name, value))
  {
    var line := "**" + name + ":**" + ws + value;
    var k := 2 + |name|;
    var w := k + 3 + |ws|;
    FieldLineSlices(line, name, ws, value);
    assert FieldMatch(line) == Some((line[2..k], line[w..|line|])) by {
      KeyEndOfFieldLine(name, ws, value);
      ValueAfterKey(line, k, ws, value);
      FieldMatchAtStart(line, k, w, |line|);
    }
  }

  lemma FieldLineSlices(line: string, name: string, ws: string, value: string)
    requires line == "**" + name + ":**" + ws + value
    ensures var k := 2 + |name|; var w := k + 3 + |ws|;
      && w <= |line| && line[2..k] == name && line[k + 3..w] == ws && line[w..] == value && line[w..|line|] == value
  {
  }

  /** After the key, the white space is skipped and the value runs to the end of the line. */
  lemma ValueAfterKey(line: string, k: nat, ws: string, value: string)
    requires k + 3 + |ws| <= |line| && line[k + 3..k + 3 + |ws|] == ws && line[k + 3 + |ws|..] == value
    requires AllSpace(ws)
    requires forall i :: 0 <= i < |value| ==> !IsLineTerminator(value[i])
    requires value != [] ==> !IsSpace(value[0])
    ensures SpaceRunEnd(line, k + 3) == k + 3 + |ws|
    ensures LineEnd(line, k + 3 + |ws|) == |line|
  {
    var w := k + 3 + |ws|;
    forall i | k + 3 <= i < w ensures IsSpace(line[i]) {
      assert line[i] == line[k + 3..w][i - k - 3];
    }
    if w < |line| {
      assert line[w] == line[w..][0];
    }
    SpaceRunEndIs(line, k + 3, w);
    forall i | w <= i < |line| ensures !IsLineTerminator(line[i]) {
      assert line[i] == line[w..][i - w];
    }
    LineEndIsEnd(line, w);
  }

  /** A key that ends at `k` when tried at the start gives the match at the start. */
  lemma FieldMatchAtStart(line: string, k: nat, w: nat, e: nat)
    requires KeyEndAt(line, 0) == Some(k) && k + 3 <= w <= e <= |line|
    requires SpaceRunEnd(line, k + 3) == w && LineEnd(line, w) == e
    ensures FieldMatch(line) == Some((line[2..k], line[w..e]))
  {
  }

  /** In a field line, the key ends at the first `:**`, the one written after the name. */
  lemma KeyEndOfFieldLine(name: string, ws: string, value: string)
    requires name != [] && forall i :: 0 <= i < |name| ==> name[i] != ':' && !IsLineTerminator(name[i])
    ensures KeyEndAt("**" + name + ":**" + ws + value, 0) == Some(2 + |name|)
  {
    var line := "**" + name + ":**" + ws + value;
    var k := 2 + |name|;
    assert OccursAt(line, "**", 0) by { assert line[0..2] == "**"; }
    assert OccursAt(line, ":**", k) by { assert line[k..k + 3] == ":**"; }
    forall j | 3 <= j < k ensures !OccursAt(line, ":**", j) {
      assert line[j] == name[j - 2];
      assert line[j..j + 3][0] == line[j];
    }
    assert IndexFrom(line, ":**", 3) == Some(k);
    forall i | 2 <= i < k ensures !IsLineTerminator(line[i]) {
      assert line[i] == name[i - 2];
    }
  }

  lemma {:induction false} LineEndIsEnd(s: string, i: nat)
    requires i <= |s|
    requires forall k :: i <= k < |s| ==> !IsLineTerminator(s[k])
    ensures LineEnd(s, i) == |s|
    decreases |s| - i
  {
    if i < |s| {
      LineEndIsEnd(s, i + 1);
    }
  }

  // ---------------------------------------------------------------------
  // The list views
  // ---------------------------------------------------------------------

  /** `data.key || fallback`: a missing or empty field falls back. */
  function FieldOr(data: map<string, string>, key: string, fallback: string): (r: string)
    ensures key in data && data[key] != "" ==> r == data[key]
    ensures !(key in data && data[key] != "") ==> r == fallback
  {
    if key in data && data[key] != "" then data[key] else fallback
  }

  /** `name.replace('.md', '')`. */
  function StripMd(name: string): string {
    ReplaceFirst(name, ".md", "")
  }

  datatype TaskItem = TaskItem(id: string, fileName: string, title: string, schedule: string)
  datatype TodoItem = TodoItem(id: string, fileName: string, title: string, status: string,
                               priority: string, created: string)
  datatype ReminderItem = ReminderItem(id: string, fileName: string, title: string, status: string, kind: string)

  /** An entry of `/api/tasks`. */
  function TaskOf(name: string, data: map<string, string>): (t: TaskItem)
    ensures t.id == StripMd(name) && t.fileName == name
    ensures t.title == FieldOr(data, "title", t.id)
    ensures t.schedule == FieldOr(data, "schedule", "Not set")
  {
    TaskItem(StripMd(name), name, FieldOr(data, "title", StripMd(name)), FieldOr(data, "schedule", "Not set"))
  }

  /** An entry of `/api/todos`. */
  function TodoOf(name: string, data: map<string, string>): (t: TodoItem)
    ensures t.id == name && t.fileName == name
    ensures t.title == FieldOr(data, "title", StripMd(name))
    ensures t.status == FieldOr(data, "status", "NEW")
    ensures t.priority == FieldOr(data, "priority", "MEDIUM")
    ensures t.created == FieldOr(data, "created", "Unknown")
  {
    TodoItem(name, name, FieldOr(data, "title", StripMd(name)), FieldOr(data, "status", "NEW"),
             FieldOr(data, "priority", "MEDIUM"), FieldOr(data, "created", "Unknown"))
  }

  /** An entry of `/api/reminders`. */
  function ReminderOf(name: string, data: map<string, string>): (r: ReminderItem)
    ensures r.id == name && r.fileName == name
    ensures r.title == FieldOr(data, "title", StripMd(name))
    ensures r.status == FieldOr(data, "status", "ACTIVE")
    ensures r.kind == FieldOr(data, "type", "ONE_TIME")
  {
    ReminderItem(name, name, FieldOr(data, "title", StripMd(name)), FieldOr(data, "status", "ACTIVE"),
                 FieldOr(data, "type", "ONE_TIME"))
  }

  /**
    The defaults: a file `base.md` without the fields is a task titled
    `base` with id `base` and no schedule, a NEW todo of MEDIUM priority
    titled `base`, and an ACTIVE one-time reminder titled `base`.
  */
  lemma ListDefaults(base: string, data: map<string, string>)
    requires forall i :: 0 <= i < |base| ==> base[i] != '.'
    requires forall k :: k in data ==> data[k] == ""
    ensures TaskOf(base + ".md", data) == TaskItem(base, base + ".md", base, "Not set")
    ensures TodoOf(base + ".md", data) == TodoItem(base + ".md", base + ".md", base, "NEW", "MEDIUM", "Unknown")
    ensures ReminderOf(base + ".md", data) == ReminderItem(base + ".md", base + ".md", base, "ACTIVE", "ONE_TIME")
  {
    RemoveExtension(base, ".md");
  }

  /** Fields that are present and non-empty are shown as they are. */
  lemma ListFieldsShown(name: string, data: map<string, string>)
    requires forall k :: k in data ==> data[k] != ""
    requires "title" in data && "status" in data && "priority" in data
    ensures TodoOf(name, data).title == data["title"] && TodoOf(name, data).status == data["status"]
      && TodoOf(name, data).priority == data["priority"]
    ensures ReminderOf(name, data).status == data["status"]
  {
  }
}

=== FILE: querycli.dfy ===
/**
  The command-line front end of the memory database: the one-line
  truncation used when printing rows, the `--instance` flag taken out of
  the argument list, and the choice of command and count.
*/
module QueryCli {
  import opened Wrappers
  import opened Text

  /** Rows are shortened to this many characters unless a caller says otherwise. */
  const DefaultWidth := 200
  const Ellipsis := "..."

  /**
    `str.replace(/\n/g, ' ').trim()`: the same as trimming first and then
    turning the newlines that are left into spaces, since a newline is
    white space to `trim()`.
  */
  function OneLine(s: string): (r: string)
    ensures '\n' !in r
    ensures |r| <= |s|
    ensures r == ReplaceAllChar(Trim(s), '\n', " ")
  {
    var flat := ReplaceAllChar(s, '\n', " ");
    FlatHasNoNewline(s);
    FlatLength(s);
    FlatTrim(s);
    Trim(flat)
  }

  lemma FlatTrim(s: string)
    ensures Trim(ReplaceAllChar(s, '\n', " ")) == ReplaceAllChar(Trim(s), '\n', " ")
  {
    FlatTrimStart(s);
    FlatTrimEnd(TrimStart(s));
  }

  lemma {:induction false} FlatHasNoNewline(s: string)
    ensures '\n' !in ReplaceAllChar(s, '\n', " ")
  {
    if s != [] {
      FlatHasNoNewline(s[1..]);
    }
  }

  lemma {:induction false} FlatLength(s: string)
    ensures |ReplaceAllChar(s, '\n', " ")| == |s|
  {
    if s != [] {
      FlatLength(s[1..]);
    }
  }

  /** Flattening then stripping leading white space is stripping then flattening. */
  lemma {:induction false} FlatTrimStart(s: string)
    ensures TrimStart(ReplaceAllChar(s, '\n', " ")) == ReplaceAllChar(TrimStart(s), '\n', " ")
  {
    if s != [] {
      var flat := ReplaceAllChar(s, '\n', " ");
      assert flat == (if s[0] == '\n' then " " else [s[0]]) + ReplaceAllChar(s[1..], '\n', " ");
      assert flat[0] == (if s[0] == '\n' then ' ' else s[0]);
      if IsSpace(s[0]) {
        assert flat[1..] == ReplaceAllChar(s[1..], '\n', " ");
        FlatTrimStart(s[1..]);
      }
    }
  }

  /** Flattening then stripping trailing white space is stripping then flattening. */
  lemma {:induction false} FlatTrimEnd(t: string)
    ensures TrimEnd(ReplaceAllChar(t, '\n', " ")) == ReplaceAllChar(TrimEnd(t), '\n', " ")
    decreases |t|
  {
    if t != [] {
      var u, c := t[..|t| - 1], t[|t| - 1];
      assert t == u + [c];
      ReplaceAllCharAppend(u, [c], '\n', " ");
      FlatLength(u);
      var flat := ReplaceAllChar(t, '\n', " ");
      var last := ReplaceAllChar([c], '\n', " ");
      assert last == (if c == '\n' then " " else [c]) by {
        assert [c][1..] == [];
      }
      assert flat == ReplaceAllChar(u, '\n', " ") + last;
      assert flat[|flat| - 1] == (if c == '\n' then ' ' else c);
      if IsSpace(c) {
        assert flat[..|flat| - 1] == ReplaceAllChar(u, '\n', " ");
        FlatTrimEnd(u);
      }
    }
  }

  /**
    `truncate(str, len)`: falsy input prints as the empty string; otherwise
    the one-line form, cut to `len` characters with an ellipsis when it is
    longer.
  */
  function Truncate(s: Option<string>, len: nat): (r: string)
    ensures '\n' !in r
    ensures |r| <= len + |Ellipsis|
    ensures s.None? || s.value == "" ==> r == ""
    ensures s.Some? && s.value != "" ==>
      var line := OneLine(s.value);
      if |line| <= len then r == line else |r| == len + |Ellipsis| && r[..len] == line[..len] && r[len..] == Ellipsis
  {
    if s.None? || s.value == "" then ""
    else
      var line := OneLine(s.value);
      CutLine(line, len);
      if |line| > len then line[..len] + Ellipsis else line
  }

  /** Cutting a line with no newline to `len` characters and an ellipsis. */
  lemma CutLine(line: string, len: nat)
    requires '\n' !in line
    ensures var r := if |line| > len then line[..len] + Ellipsis else line;
      '\n' !in r && |r| <= |line| + |Ellipsis| && |r| <= len + |Ellipsis|
      && (|line| > len ==> |r| == len + |Ellipsis| && r[..len] == line[..len] && r[len..] == Ellipsis)
  {
    if |line| > len {
      var r := line[..len] + Ellipsis;
      forall i | 0 <= i < |r| ensures r[i] != '\n' {
        if i < len {
          assert r[i] == line[i];
        }
      }
    }
  }

  /** Short text on one line with no padding is printed as it is. */
  lemma TruncateKeepsShortLines(s: string, len: nat)
    requires s != [] && '\n' !in s && |s| <= len
    requires !IsSpace(s[0]) && !IsSpace(s[|s| - 1])
    ensures Truncate(Some(s), len) == s
  {
    assert ReplaceAllChar(s, '\n', " ") == s;
    TrimUnpadded(s);
  }

  // ---------------------------------------------------------------------
  // Arguments
  // ---------------------------------------------------------------------

  const InstanceFlag := "--instance"

  /** `args.indexOf(x)`, with "not found" as None. */
  function IndexOfArg(args: seq<string>, x: string): (r: Option<nat>)
    ensures r.Some? ==> r.value < |args| && args[r.value] == x
    ensures r.Some? ==> forall j :: 0 <= j < r.value ==> args[j] != x
    ensures r.None? ==> x !in args
  {
    if args == [] then None
    else if args[0] == x then Some(0)
    else match IndexOfArg(args[1..], x)
      case None => None
      case Some(i) => Some(i + 1)
  }

  /**
    The `--instance` handling: the flag's value is the argument after it
    (None when the flag is last), and `splice(i, 2)` removes the flag and
    at most one argument after it.
  */
  method ExtractInstanceFlag(args: seq<string>) returns (flag: Option<string>, rest: seq<string>)
    ensures match IndexOfArg(args, InstanceFlag)
      case None => flag.None? && rest == args
      case Some(i) =>
        && flag == (if i + 1 < |args| then Some(args[i + 1]) else None)
        && rest == args[..i] + args[(if i + 2 <= |args| then i + 2 else |args|)..]
  {
    flag := None;
    rest := args;
    var found := IndexOfArg(args, InstanceFlag);
    if found.Some? {
      var i := found.value;
      if i + 1 < |args| {
        flag := Some(args[i + 1]);
      }
      var stop := if i + 2 <= |args| then i + 2 else |args|;
      rest := args[..i] + args[stop..];
    }
  }

  /** Putting the flag and its value back where they were gives the original argument list. */
  lemma ExtractRoundTrip(args: seq<string>, i: nat, v: string)
    requires IndexOfArg(args, InstanceFlag) == Some(i) && i + 1 < |args| && args[i + 1] == v
    ensures var rest := args[..i] + args[i + 2..];
      rest[..i] + [InstanceFlag, v] + rest[i..] == args
      && InstanceFlag !in rest[..i]
  {
    var rest := args[..i] + args[i + 2..];
    assert rest[..i] == args[..i];
    assert rest[i..] == args[i + 2..];
    assert args == args[..i] + [args[i], args[i + 1]] + args[i + 2..];
  }

  /** What the program does once the arguments are read. */
  datatype Command =
    | Last(count: int)
    | Search(term: string, instance: Option<string>)
    | Range(from: Option<string>, to: Option<string>)
    | Crons(count: int)
    | Sessions(instance: Option<string>)
    | Stats
    | Usage

  /** `args[k]`, which is `undefined` (None) past the end. */
  function Arg(args: seq<string>, k: nat): (r: Option<string>)
    ensures r.Some? <==> k < |args|
  {
    if k < |args| then Some(args[k]) else None
  }

  /** `parseInt(x) || 10`: NaN and zero fall back to ten. */
  function CountOr10(arg: Option<string>): (n: int)
    ensures n != 0
    ensures arg.Some? && ParseInt(arg.value).Some? && ParseInt(arg.value).value != 0 ==> n == ParseInt(arg.value).value
    ensures arg.None? || ParseInt(arg.value).None? ==> n == 10
  {
    match arg
    case None => 10
    case Some(a) =>
      match ParseInt(a)
      case Some(k) => if k == 0 then 10 else k
      case None => 10
  }

  /** The commands the program knows. */
  const Commands: set<string> := {"last", "search", "range", "crons", "sessions", "stats"}

  /** `args[0] || 'stats'`. */
  function CommandName(original: seq<string>): string {
    if |original| > 0 && original[0] != "" then original[0] else "stats"
  }

  /**
    The dispatch: the command is read from the arguments as they were
    before `--instance` was taken out, and its arguments from the list
    after.
  */
  function Dispatch(original: seq<string>, rest: seq<string>, flag: Option<string>): (c: Command)
    ensures c == Usage <==> CommandName(original) !in Commands
    ensures c == Stats <==> CommandName(original) == "stats"
    ensures c.Last? <==> CommandName(original) == "last"
    ensures c.Crons? <==> CommandName(original) == "crons"
    ensures c.Range? <==> CommandName(original) == "range"
    ensures c.Sessions? <==> CommandName(original) == "sessions"
    ensures c.Search? <==> CommandName(original) == "search"
    ensures c.Last? || c.Crons? ==> c.count == CountOr10(Arg(rest, 1))
    ensures c.Search? ==> c.term == Join(if |rest| > 0 then rest[1..] else [], " ") && c.instance == flag
    ensures c.Range? ==> c.from == Arg(rest, 1) && c.to == Arg(rest, 2)
    ensures c.Sessions? ==> c.instance == Arg(rest, 1)
  {
    var cmd := CommandName(original);
    if cmd == "last" then Last(CountOr10(Arg(rest, 1)))
    else if cmd == "search" then Search(Join(if |rest| > 0 then rest[1..] else [], " "), flag)
    else if cmd == "range" then Range(Arg(rest, 1), Arg(rest, 2))
    else if cmd == "crons" then Crons(CountOr10(Arg(rest, 1)))
    else if cmd == "sessions" then Sessions(Arg(rest, 1))
    else if cmd == "stats" then Stats
    else Usage
  }

  /** The whole argument handling: flag extraction, then dispatch. */
  method ReadCommand(args: seq<string>) returns (c: Command)
    ensures args == [] ==> c == Stats
    ensures |args| > 0 && args[0] == InstanceFlag ==> c == Usage
    ensures match IndexOfArg(args, InstanceFlag)
      case None => c == Dispatch(args, args, None)
      case Some(i) =>
        c == Dispatch(args, args[..i] + args[(if i + 2 <= |args| then i + 2 else |args|)..],
                      if i + 1 < |args| then Some(args[i + 1]) else None)
  {
    var flag, rest := ExtractInstanceFlag(args);
    c := Dispatch(args, rest, flag);
  }

  /** No arguments means statistics; a missing, zero or non-numeric count means ten. */
  lemma Defaults(args: seq<string>)
    ensures Dispatch([], [], None) == Stats
    ensures |args| > 0 && args[0] == "last" && (|args| < 2 || ParseInt(args[1]).None?) ==> Dispatch(args, args, None) == Last(10)
    ensures CountOr10(Some("0")) == 10
  {
    assert ParseInt(NatToString(0)) == Some(0) by {
      ParseIntNatToString(0);
    }
    assert NatToString(0) == "0";
    if |args| > 0 && args[0] == "last" {
      assert CommandName(args) == "last";
      assert Dispatch(args, args, None) == Last(CountOr10(Arg(args, 1)));
    }
  }

  /** `--instance x search term` is not a search: the command was read before the flag was removed. */
  lemma FlagFirstIsNotACommand(v: string, rest: seq<string>)
    ensures Dispatch([InstanceFlag, v] + rest, rest, Some(v)) == Usage
  {
  }
}

=== FILE: rewrites.dfy ===
/**
  The status and setting rewrites of the dashboard routes
  (tools/server.js): the reminder toggle, todo completion and the
  single-setting update. Each is a string-to-string function; the file
  read and write around it are left to the caller.
*/
module Rewrites {
  import opened Wrappers
  import opened Text

  // ---------------------------------------------------------------------
  // Reminder toggle
  // ---------------------------------------------------------------------

  const StatusActive := "**Status:** ACTIVE"
  const StatusPaused := "**Status:** PAUSED"

  /** The first ACTIVE status becomes PAUSED; failing that the first PAUSED becomes ACTIVE. */
  function ToggleReminder(content: string): (r: string)
    ensures |r| == |content|
    ensures Contains(content, StatusActive) ==>
      var i := IndexOf(content, StatusActive).value;
      r == content[..i] + StatusPaused + content[i + |StatusActive|..]
    ensures !Contains(content, StatusActive) && Contains(content, StatusPaused) ==>
      var i := IndexOf(content, StatusPaused).value;
      r == content[..i] + StatusActive + content[i + |StatusPaused|..]
    ensures !Contains(content, StatusActive) && !Contains(content, StatusPaused) ==> r == content
  {
    if Contains(content, StatusActive) then ReplaceFirst(content, StatusActive, StatusPaused)
    else if Contains(content, StatusPaused) then ReplaceFirst(content, StatusPaused, StatusActive)
    else content
  }

  /**
    In `pre + marker + post`, with no `*` in `pre` or `post`, a status
    marker can occur only where `marker` is.
  */
  lemma StatusOnlyAt(pre: string, word: string, post: string, other: string)
    requires forall i :: 0 <= i < |pre| ==> pre[i] != '*'
    requires forall i :: 0 <= i < |post| ==> post[i] != '*'
    requires |word| == 6 && |other| == 6
    requires forall i :: 0 <= i < |word| ==> word[i] != '*'
    ensures var s := pre + ("**Status:** " + word) + post;
      IndexOf(s, "**Status:** " + other) == (if word == other then Some(|pre|) else None)
  {
    var m := "**Status:** " + word;
    var p := "**Status:** " + other;
    var s := pre + m + post;
    var n := |pre|;
    assert |m| == 18 && |p| == 18;
    assert s[n..n + 18] == m;
    assert m[0] == '*' && m[1] == '*' && m[2] == 'S' && m[9] == '*' && m[10] == '*' && m[11] == ' ';
    assert forall k :: 2 <= k < 9 ==> m[k] != '*';
    assert forall k :: 12 <= k < 18 ==> m[k] == word[k - 12];
    assert p[0] == '*' && p[1] == '*' && p[2] == 'S';
    forall j | 0 <= j <= |s| && j != n ensures !OccursAt(s, p, j) {
      if j + 18 <= |s| {
        assert s[j..j + 18][0] == s[j] && s[j..j + 18][1] == s[j + 1] && s[j..j + 18][2] == s[j + 2];
        if j < n {
          assert s[j] == pre[j];
        } else if j < n + 18 {
          var o := j - n;
          assert s[j] == m[o];
          if o == 1 {
            assert s[j + 1] == m[2];
          } else if o == 9 {
            assert s[j + 2] == m[11];
          } else if o == 10 {
            assert s[j + 1] == m[11];
          } else if 12 <= o {
            assert m[o] == word[o - 12];
          }
        } else {
          assert s[j] == post[j - n - 18];
        }
      }
    }
    if word == other {
      assert OccursAt(s, p, n);
    } else {
      assert !OccursAt(s, p, n) by {
        assert s[n..n + 18][12..] == word;
        assert p[12..] == other;
      }
    }
  }

  /** Toggling twice restores a note whose only status marker is ACTIVE. */
  lemma ToggleRoundTrip(pre: string, post: string)
    requires forall i :: 0 <= i < |pre| ==> pre[i] != '*'
    requires forall i :: 0 <= i < |post| ==> post[i] != '*'
    ensures ToggleReminder(pre + StatusActive + post) == pre + StatusPaused + post
    ensures ToggleReminder(pre + StatusPaused + post) == pre + StatusActive + post
  {
    assert StatusActive == "**Status:** " + "ACTIVE";
    assert StatusPaused == "**Status:** " + "PAUSED";
    StatusOnlyAt(pre, "ACTIVE", post, "ACTIVE");
    StatusOnlyAt(pre, "PAUSED", post, "ACTIVE");
    StatusOnlyAt(pre, "PAUSED", post, "PAUSED");
    var a := pre + StatusActive + post;
    assert a[..|pre|] == pre && a[|pre| + 18..] == post;
    var b := pre + StatusPaused + post;
    assert b[..|pre|] == pre && b[|pre| + 18..] == post;
  }

  // ---------------------------------------------------------------------
  // Todo completion
  // ---------------------------------------------------------------------

  const StatusLabel := "**Status:**"
  const StatusDone := "**Status:** DONE"

  /** Where `\*\*Status:\*\*\s*\w+` matches when tried at `j`: the end of the match. */
  function StatusMatchAt(c: string, j: nat): (e: Option<nat>)
    ensures e.Some? ==> OccursAt(c, StatusLabel, j) && j + 11 < e.value <= |c|
    ensures e.Some? ==> e.value == |c| || !IsWordChar(c[e.value])
  {
    if j + 11 <= |c| && OccursAt(c, StatusLabel, j) then
      var w := SpaceRunEnd(c, j + 11);
      if w < |c| && IsWordChar(c[w]) then Some(WordRunEnd(c, w)) else None
    else None
  }

  /** The leftmost match at or after `from`: its start and end. */
  function FirstStatusMatch(c: string, from: nat): (r: Option<(nat, nat)>)
    ensures r.Some? ==> from <= r.value.0 && StatusMatchAt(c, r.value.0) == Some(r.value.1)
    ensures r.Some? ==> forall j :: from <= j < r.value.0 ==> StatusMatchAt(c, j).None?
    ensures r.None? ==> forall j :: from <= j ==> StatusMatchAt(c, j).None?
    decreases |c| - from
  {
    if from > |c| then None
    else
      match StatusMatchAt(c, from)
      case Some(e) => Some((from, e))
      case None => FirstStatusMatch(c, from + 1)
  }

  /** `content.replace(/\*\*Status:\*\*\s*\w+/, '**Status:** DONE')`. */
  function CompleteTodo(c: string): (r: string)
    ensures FirstStatusMatch(c, 0).None? ==> r == c
    ensures FirstStatusMatch(c, 0).Some? ==>
      var (j, e) := FirstStatusMatch(c, 0).value;
      r == c[..j] + StatusDone + c[e..]
  {
    match FirstStatusMatch(c, 0)
    case None => c
    case Some((j, e)) => c[..j] + StatusDone + c[e..]
  }

  lemma {:induction false} WordRunEndIs(s: string, i: nat, j: nat)
    requires i <= j <= |s|
    requires forall k :: i <= k < j ==> IsWordChar(s[k])
    requires j < |s| ==> !IsWordChar(s[j])
    ensures WordRunEnd(s, i) == j
    decreases j - i
  {
    if i < j {
      WordRunEndIs(s, i + 1, j);
    }
  }

  /** A position before the first match stays without a match once the text after the label changes. */
  lemma NoMatchBefore(c: string, r: string, j: nat, j': nat)
    requires j' < j && j + 11 <= |c| && j + 11 <= |r| && r[..j + 11] == c[..j + 11]
    requires OccursAt(c, StatusLabel, j)
    requires StatusMatchAt(c, j').None?
    ensures StatusMatchAt(r, j').None?
  {
    if j' + 11 <= |r| && OccursAt(r, StatusLabel, j') {
      assert r[j'..j' + 11] == c[j'..j' + 11] by {
        assert r[j'..j' + 11] == r[..j + 11][j'..j' + 11];
        assert c[j'..j' + 11] == c[..j + 11][j'..j' + 11];
      }
      assert OccursAt(c, StatusLabel, j');
      var w := SpaceRunEnd(c, j' + 11);
      var m := if j' + 11 > j then j' + 11 else j;
      assert j <= m < j + 11;
      assert c[m] == c[j..j + 11][m - j];
      assert !IsSpace(c[m]);
      assert w <= m;
      forall k | j' + 11 <= k < w ensures IsSpace(r[k]) {
        assert r[k] == r[..j + 11][k] && c[k] == c[..j + 11][k];
      }
      assert r[w] == r[..j + 11][w] && c[w] == c[..j + 11][w];
      SpaceRunEndIs(r, j' + 11, w);
    }
  }

  lemma {:induction false} SkipNoMatch(s: string, from: nat, j: nat)
    requires from <= j <= |s|
    requires forall k :: from <= k < j ==> StatusMatchAt(s, k).None?
    ensures FirstStatusMatch(s, from) == FirstStatusMatch(s, j)
    decreases j - from
  {
    if from < j {
      SkipNoMatch(s, from + 1, j);
    }
  }

  /** A `**Status:** DONE` followed by a non-word character is a match that ends right after `DONE`. */
  lemma DoneMatchAt(pre: string, rest: string)
    requires rest == [] || !IsWordChar(rest[0])
    ensures StatusMatchAt(pre + StatusDone + rest, |pre|) == Some(|pre| + 16)
  {
    var r := pre + StatusDone + rest;
    var j := |pre|;
    assert r[j..j + 16] == StatusDone;
    assert OccursAt(r, StatusLabel, j) by {
      assert r[j..j + 11] == StatusDone[..11];
    }
    assert r[j + 11] == ' ' && r[j + 12] == 'D';
    SpaceRunEndIs(r, j + 11, j + 12);
    forall k | j + 12 <= k < j + 16 ensures IsWordChar(r[k]) {
      assert r[k] == StatusDone[k - j];
    }
    assert j + 16 < |r| ==> r[j + 16] == rest[0];
    WordRunEndIs(r, j + 12, j + 16);
  }

  /** Completing a todo twice is the same as completing it once. */
  lemma CompleteTodoIdempotent(c: string)
    ensures CompleteTodo(CompleteTodo(c)) == CompleteTodo(c)
  {
    var first := FirstStatusMatch(c, 0);
    if first.Some? {
      var (j, e) := first.value;
      RewrittenFirstMatch(c, j, e);
      SpliceAgain(c[..j], StatusDone, c[e..]);
    }
  }

  /** Putting back the middle of `pre + mid + post` where it already is changes nothing. */
  lemma SpliceAgain(pre: string, mid: string, post: string)
    ensures var r := pre + mid + post;
      r[..|pre|] + mid + r[|pre| + |mid|..] == r
  {
    var r := pre + mid + post;
    assert r[..|pre|] == pre;
    assert r[|pre| + |mid|..] == post;
  }

  /** After the rewrite, the first match is the `DONE` just written. */
  lemma RewrittenFirstMatch(c: string, j: nat, e: nat)
    requires FirstStatusMatch(c, 0) == Some((j, e))
    ensures FirstStatusMatch(c[..j] + StatusDone + c[e..], 0) == Some((j, j + 16))
  {
    var r := c[..j] + StatusDone + c[e..];
    SameUpToLabel(c, j, e);
    forall j' | 0 <= j' < j ensures StatusMatchAt(r, j').None? {
      NoMatchBefore(c, r, j, j');
    }
    SkipNoMatch(r, 0, j);
    DoneMatchAt(c[..j], c[e..]);
  }

  lemma SameUpToLabel(c: string, j: nat, e: nat)
    requires StatusMatchAt(c, j) == Some(e)
    ensures var r := c[..j] + StatusDone + c[e..];
      j + 11 <= |r| && r[..j + 11] == c[..j + 11]
  {
    var r := c[..j] + StatusDone + c[e..];
    assert c[j..j + 11] == StatusLabel;
    assert StatusDone[..11] == StatusLabel;
    assert r[j..j + 11] == StatusDone[..11];
    assert r[..j + 11] == r[..j] + r[j..j + 11];
    assert c[..j + 11] == c[..j] + c[j..j + 11];
  }

  // ---------------------------------------------------------------------
  // Setting update
  // ---------------------------------------------------------------------

  const DefaultSettings := "# User Settings\n"

  /** Keys made of word characters and `-`: the pattern built from them means the key literally. */
  predicate PlainKey(key: string) {
    key != [] && forall i :: 0 <= i < |key| ==> IsWordChar(key[i]) || key[i] == '-'
  }

  function SettingValue(enabled: bool): (v: string)
    ensures v == "true" <==> enabled
  {
    if enabled then "true" else "false"
  }

  /** The literal text `\*\*KEY:\*\*` stands for. */
  function SettingLabel(key: string): string {
    "**" + key + ":**"
  }

  function SettingLine(key: string, enabled: bool): string {
    SettingLabel(key) + " " + SettingValue(enabled)
  }

  /** The `i`-flagged pattern matches `pat` at `j`: equal up to ASCII letter case. */
  predicate FoldedAt(c: string, pat: string, j: nat) {
    j + |pat| <= |c| && forall i :: 0 <= i < |pat| ==> LowerChar(c[j + i]) == LowerChar(pat[i])
  }

  /** The first index at or after `from` where the pat matches. */
  function FirstFolded(c: string, pat: string, from: nat): (r: Option<nat>)
    ensures r.Some? ==> from <= r.value && r.value + |pat| <= |c| && FoldedAt(c, pat, r.value)
    ensures r.Some? ==> forall j :: from <= j < r.value ==> !FoldedAt(c, pat, j)
    ensures r.None? ==> forall j :: from <= j ==> !FoldedAt(c, pat, j)
    decreases |c| - from
  {
    if from + |pat| > |c| then None
    else if FoldedAt(c, pat, from) then Some(from)
    else FirstFolded(c, pat, from + 1)
  }

  /**
    The `PUT /api/settings/:key` rewrite: the first line holding the key
    (any letter case) is replaced from the key to the end of its line;
    otherwise the line is appended after the trimmed content and a blank
    line. Missing or empty content starts from the default heading.
  */
  function UpdateSetting(content: Option<string>, key: string, enabled: bool): (r: string)
    requires PlainKey(key)
    ensures var c := BaseContent(content);
      match FirstFolded(c, SettingLabel(key), 0)
      case Some(j) => OccursAt(r, SettingLine(key, enabled), j) && r[..j] == c[..j]
      case None =>
        StartsWith(r, Trim(c)) && EndsWith(r, "\n\n" + SettingLine(key, enabled) + "\n")
        && r == Trim(c) + ("\n\n" + SettingLine(key, enabled) + "\n")
  {
    var c := BaseContent(content);
    var pat := SettingLabel(key);
    var line := SettingLine(key, enabled);
    match FirstFolded(c, pat, 0)
    case Some(j) =>
      var e := LineEnd(c, j + |pat|);
      SpliceFacts(c, j, e, line);
      c[..j] + line + c[e..]
    case None =>
      var tail := "\n\n" + line + "\n";
      AppendFacts(Trim(c), tail);
      Trim(c) + tail
  }

  lemma AppendFacts(a: string, b: string)
    ensures StartsWith(a + b, a) && EndsWith(a + b, b)
  {
    assert (a + b)[..|a|] == a;
    assert (a + b)[|a|..] == b;
  }

  /** `r` is `c` with `c[j..e]` replaced by `line`: the text before `j` kept, `line` at `j`, then what followed `e`. */
  predicate Replaced(r: string, c: string, j: nat, e: nat, line: string)
    requires j <= e <= |c|
  {
    OccursAt(r, line, j) && r[..j] == c[..j] && r[j + |line|..] == c[e..]
  }

  lemma SpliceFacts(c: string, j: nat, e: nat, line: string)
    requires j <= e <= |c|
    ensures Replaced(c[..j] + line + c[e..], c, j, e, line)
  {
    var r := c[..j] + line + c[e..];
    assert r[j..j + |line|] == line;
  }

  lemma LabelChars(key: string)
    requires PlainKey(key)
    ensures forall i :: 0 <= i < |SettingLabel(key)| ==>
      !IsLineTerminator(SettingLabel(key)[i]) && LowerChar(SettingLabel(key)[i]) != '\n'
  {
    var pat := SettingLabel(key);
    forall i | 0 <= i < |pat|
      ensures !IsLineTerminator(pat[i]) && LowerChar(pat[i]) != '\n'
    {
      if 2 <= i < 2 + |key| {
        assert pat[i] == key[i - 2];
      }
    }
  }

  lemma LineChars(key: string, enabled: bool)
    requires PlainKey(key)
    ensures forall i :: 0 <= i < |SettingLine(key, enabled)| ==> !IsLineTerminator(SettingLine(key, enabled)[i])
  {
    LabelChars(key);
    var pat := SettingLabel(key);
    var line := SettingLine(key, enabled);
    forall i | 0 <= i < |line| ensures !IsLineTerminator(line[i]) {
      if i < |pat| {
        assert line[i] == pat[i];
      }
    }
  }

  /** After the line is in place at `p`, a rewrite finds it there and puts the same line back. */
  lemma RewriteAtLine(r: string, key: string, enabled: bool, p: nat)
    requires PlainKey(key)
    requires p + |SettingLine(key, enabled)| <= |r|
    requires r[p..p + |SettingLine(key, enabled)|] == SettingLine(key, enabled)
    requires p + |SettingLine(key, enabled)| == |r| || IsLineTerminator(r[p + |SettingLine(key, enabled)|])
    ensures var pat := SettingLabel(key);
      FoldedAt(r, pat, p)
      && r[..p] + SettingLine(key, enabled) + r[LineEnd(r, p + |pat|)..] == r
  {
    var pat := SettingLabel(key);
    var line := SettingLine(key, enabled);
    LineChars(key, enabled);
    assert line[..|pat|] == pat;
    WholeLineAt(r, pat, line, p);
  }

  /** A line written at `p` whose start is `pat` matches there, and its end is the end of the line. */
  lemma WholeLineAt(r: string, pat: string, line: string, p: nat)
    requires |pat| <= |line| && line[..|pat|] == pat
    requires forall i :: 0 <= i < |line| ==> !IsLineTerminator(line[i])
    requires p + |line| <= |r| && r[p..p + |line|] == line
    requires p + |line| == |r| || IsLineTerminator(r[p + |line|])
    ensures FoldedAt(r, pat, p)
    ensures LineEnd(r, p + |pat|) == p + |line|
    ensures r[..p] + line + r[p + |line|..] == r
  {
    forall i | 0 <= i < |pat| ensures r[p + i] == pat[i] {
      assert r[p + i] == r[p..p + |line|][i];
    }
    forall k | p + |pat| <= k < p + |line| ensures !IsLineTerminator(r[k]) {
      assert r[k] == r[p..p + |line|][k - p];
    }
    LineEndAt(r, p + |pat|, p + |line|);
    assert r[..p] + r[p..p + |line|] + r[p + |line|..] == r;
  }

  lemma {:induction false} LineEndAt(s: string, i: nat, j: nat)
    requires i <= j <= |s|
    requires forall k :: i <= k < j ==> !IsLineTerminator(s[k])
    requires j < |s| ==> IsLineTerminator(s[j])
    ensures LineEnd(s, i) == j
    decreases j - i
  {
    if i < j {
      LineEndAt(s, i + 1, j);
    }
  }

  lemma {:induction false} SkipNoFolded(s: string, pat: string, from: nat, j: nat)
    requires from <= j
    requires forall k :: from <= k < j ==> !FoldedAt(s, pat, k)
    ensures FirstFolded(s, pat, from) == FirstFolded(s, pat, j)
    decreases j - from
  {
    if from < j && from + |pat| <= |s| {
      SkipNoFolded(s, pat, from + 1, j);
    } else if from < j {
      assert FirstFolded(s, pat, from) == None;
      NoneFrom(s, pat, from, j);
    }
  }

  lemma NoneFrom(s: string, pat: string, from: nat, j: nat)
    requires from <= j && from + |pat| > |s|
    ensures FirstFolded(s, pat, j) == None
  {
  }

  /** Overwriting a match in place leaves every earlier position without a match. */
  lemma NoEarlierFold(c: string, r: string, pat: string, j: nat)
    requires FoldedAt(c, pat, j) && j + |pat| <= |r|
    requires forall k :: 0 <= k < j ==> r[k] == c[k]
    requires forall i :: 0 <= i < |pat| ==> r[j + i] == pat[i]
    requires forall j' :: 0 <= j' < j ==> !FoldedAt(c, pat, j')
    ensures forall j' :: 0 <= j' < j ==> !FoldedAt(r, pat, j')
  {
    forall j' | 0 <= j' < j ensures !FoldedAt(r, pat, j') {
      forall k | j' <= k < j' + |pat| ensures LowerChar(r[k]) == LowerChar(c[k]) {
        if j <= k {
          assert r[j + (k - j)] == pat[k - j];
        }
      }
      assert !FoldedAt(c, pat, j');
    }
  }

  /** A window lying inside a copy of a slice of `c` matches only where `c` does. */
  lemma NoFoldInCopy(c: string, r: string, a: nat, n: nat, pat: string)
    requires a + n <= |c| && n <= |r|
    requires forall k :: 0 <= k < n ==> r[k] == c[a + k]
    requires forall j :: 0 <= j ==> !FoldedAt(c, pat, j)
    ensures forall j' :: 0 <= j' && j' + |pat| <= n ==> !FoldedAt(r, pat, j')
  {
    forall j': nat | j' + |pat| <= n ensures !FoldedAt(r, pat, j') {
      assert !FoldedAt(c, pat, a + j');
      forall k | j' <= k < j' + |pat| ensures r[k] == c[a + j' + (k - j')] { }
    }
  }

  /** A window covering a newline never matches a key label. */
  lemma NoFoldAcrossNewline(r: string, key: string, j': nat, k: nat)
    requires PlainKey(key)
    requires j' <= k < j' + |SettingLabel(key)| && k < |r| && r[k] == '\n'
    ensures !FoldedAt(r, SettingLabel(key), j')
  {
    LabelChars(key);
    assert LowerChar(SettingLabel(key)[k - j']) != '\n';
  }

  /** Appending after trimmed content: nothing before the appended line matches. */
  lemma AppendedFirstMatch(c: string, t: string, r: string, key: string)
    requires PlainKey(key)
    requires FirstFolded(c, SettingLabel(key), 0).None?
    requires t == Trim(c)
    requires |t| + 2 <= |r| && r[..|t|] == t && r[|t|] == '\n' && r[|t| + 1] == '\n'
    ensures forall j' :: 0 <= j' < |t| + 2 ==> !FoldedAt(r, SettingLabel(key), j')
  {
    var pat := SettingLabel(key);
    var a := |c| - |TrimStart(c)|;
    forall k | 0 <= k < |t| ensures r[k] == c[a + k] {
      assert r[k] == r[..|t|][k];
    }
    NoFoldInCopy(c, r, a, |t|, pat);
    forall j' | 0 <= j' < |t| + 2 ensures !FoldedAt(r, pat, j') {
      if |t| < j' + |pat| {
        NoFoldAcrossNewline(r, key, j', if j' <= |t| then |t| else |t| + 1);
      }
    }
  }

  /** The facts about a written line that the later proofs use. */
  predicate LineWrittenAt(r: string, line: string, pat: string, p: nat) {
    && p + |line| <= |r|
    && r[p..p + |line|] == line
    && (p + |line| == |r| || IsLineTerminator(r[p + |line|]))
    && forall j' :: 0 <= j' < p ==> !FoldedAt(r, pat, j')
  }

  lemma WrittenInPlace(c: string, pat: string, line: string, j: nat)
    requires FirstFolded(c, pat, 0) == Some(j)
    requires |line| >= |pat| && line[..|pat|] == pat
    ensures LineWrittenAt(c[..j] + line + c[LineEnd(c, j + |pat|)..], line, pat, j)
  {
    var e := LineEnd(c, j + |pat|);
    var r := c[..j] + line + c[e..];
    Splice(c, j, e, line);
    forall i | 0 <= i < |pat| ensures r[j + i] == pat[i] {
      assert line[..|pat|][i] == line[i];
    }
    NoEarlierFold(c, r, pat, j);
  }

  /** What `c[..j] + line + c[e..]` holds where. */
  lemma Splice(c: string, j: nat, e: nat, line: string)
    requires j <= e <= |c|
    ensures var r := c[..j] + line + c[e..];
      && |r| == j + |line| + (|c| - e)
      && (forall k :: 0 <= k < j ==> r[k] == c[k])
      && (forall i :: 0 <= i < |line| ==> r[j + i] == line[i])
      && r[j..j + |line|] == line
      && (j + |line| < |r| ==> r[j + |line|] == c[e])
  {
  }

  lemma WrittenAppended(c: string, key: string, line: string)
    requires PlainKey(key)
    requires FirstFolded(c, SettingLabel(key), 0).None?
    ensures LineWrittenAt(Trim(c) + ("\n\n" + line + "\n"), line, SettingLabel(key), |Trim(c)| + 2)
  {
    var t := Trim(c);
    var r := t + ("\n\n" + line + "\n");
    assert r[..|t|] == t;
    AppendedFirstMatch(c, t, r, key);
    assert r[|t| + 2..|t| + 2 + |line|] == line;
    assert r[|t| + 2 + |line|] == '\n';
  }

  lemma LabelStartsLine(key: string, enabled: bool)
    ensures |SettingLine(key, enabled)| >= |SettingLabel(key)|
    ensures SettingLine(key, enabled)[..|SettingLabel(key)|] == SettingLabel(key)
  {
  }

  /** The content the update starts from. */
  function BaseContent(content: Option<string>): (c: string)
    ensures c != ""
    ensures content.Some? && content.value != "" ==> c == content.value
  {
    if content.Some? && content.value != "" then content.value else DefaultSettings
  }

  /** Where the update puts the setting line: at `p`, ending a line, with no match before it. */
  lemma WrittenAt(content: Option<string>, key: string, enabled: bool) returns (p: nat)
    requires PlainKey(key)
    ensures LineWrittenAt(UpdateSetting(content, key, enabled), SettingLine(key, enabled), SettingLabel(key), p)
  {
    var c := BaseContent(content);
    var pat := SettingLabel(key);
    var line := SettingLine(key, enabled);
    LabelStartsLine(key, enabled);
    var r := UpdateSetting(content, key, enabled);
    match FirstFolded(c, pat, 0)
    case Some(j) =>
      assert LineWrittenAt(r, line, pat, j) by {
        assert r == c[..j] + line + c[LineEnd(c, j + |pat|)..];
        WrittenInPlace(c, pat, line, j);
      }
      p := j;
    case None =>
      assert LineWrittenAt(r, line, pat, |Trim(c)| + 2) by {
        assert r == Trim(c) + ("\n\n" + line + "\n");
        WrittenAppended(c, key, line);
      }
      p := |Trim(c)| + 2;
  }

  /** Setting the same key to the same value twice is the same as setting it once. */
  lemma UpdateSettingIdempotent(content: Option<string>, key: string, enabled: bool)
    requires PlainKey(key)
    ensures var once := UpdateSetting(content, key, enabled);
      UpdateSetting(Some(once), key, enabled) == once
  {
    var r := UpdateSetting(content, key, enabled);
    var p := WrittenAt(content, key, enabled);
    var pat := SettingLabel(key);
    SkipNoFolded(r, pat, 0, p);
    RewriteAtLine(r, key, enabled, p);
    assert FirstFolded(r, pat, 0) == Some(p);
    UpdateAtMatch(r, key, enabled, p);
  }

  /**
    When the key occurs, the update replaces exactly the matched text up to
    the end of its line: what came before and what followed that line are kept.
  */
  lemma UpdateSettingInPlace(content: Option<string>, key: string, enabled: bool, p: nat)
    requires PlainKey(key)
    requires FirstFolded(BaseContent(content), SettingLabel(key), 0) == Some(p)
    ensures var c := BaseContent(content);
      Replaced(UpdateSetting(content, key, enabled), c, p, LineEnd(c, p + |SettingLabel(key)|), SettingLine(key, enabled))
  {
    var c := BaseContent(content);
    var e := LineEnd(c, p + |SettingLabel(key)|);
    SpliceFacts(c, p, e, SettingLine(key, enabled));
  }

  /** Updating non-empty content whose first match is at `p` rewrites the line there. */
  lemma UpdateAtMatch(c: string, key: string, enabled: bool, p: nat)
    requires PlainKey(key) && c != ""
    requires FirstFolded(c, SettingLabel(key), 0) == Some(p)
    ensures UpdateSetting(Some(c), key, enabled)
      == c[..p] + SettingLine(key, enabled) + c[LineEnd(c, p + |SettingLabel(key)|)..]
  {
    assert BaseContent(Some(c)) == c;
  }

  /** After an update the key is present: the pattern matches where the line was written. */
  lemma UpdatedSettingPresent(content: Option<string>, key: string, enabled: bool)
    requires PlainKey(key)
    ensures FirstFolded(UpdateSetting(content, key, enabled), SettingLabel(key), 0).Some?
  {
    var r := UpdateSetting(content, key, enabled);
    var p := WrittenAt(content, key, enabled);
    RewriteAtLine(r, key, enabled, p);
  }
}

=== FILE: scan.dfy ===
/**
  The per-line loop of `syncFile` (services/memory-db/sync.js) as a
  specification: a left fold over the lines of the delta, and what it
  does to the byte offset that the next run resumes from.
*/
module DeltaScan {
  import opened Wrappers
  import opened Text
  import opened Transcript

  /** The `sessionData` object built from the last `session` record of the delta. */
  datatype SessionInfo = SessionInfo(startedAt: Option<string>, model: Option<string>, source: string)

  /** The loop's variables: `completeBytes`, `messages` and `sessionData`. */
  datatype ScanState = ScanState(completeBytes: nat, messages: seq<Message>, sessionData: Option<SessionInfo>)

  /** A line that moves the offset: not blank, and `parseLine` gives a truthy value. */
  predicate Counted(line: string, decode: Decoder) {
    Trim(line) != "" && decode(line).Parsed?
  }

  /**
    A record that becomes a message row: a `message` record whose nested
    message has role `user` or `assistant` and non-empty extracted content.
  */
  predicate Yields(rec: Record) {
    && rec.MessageRecord? && rec.message.Some?
    && (rec.message.value.role == "user" || rec.message.value.role == "assistant")
    && ContentText(rec.message.value.content).Some? && ContentText(rec.message.value.content).value != ""
  }

  /**
    The message row a `message` record yields, if any; the row's time is
    the record's timestamp, or the time of the run when it has none.
  */
  function MessageOf(rec: Record, now: string): (r: Option<Message>)
    ensures r.Some? ==> rec.MessageRecord? && (r.value.role == "user" || r.value.role == "assistant")
    ensures r.Some? ==> r.value.content != "" && r.value.id == rec.id && r.value.source != ""
    ensures r.Some? <==> Yields(rec)
    ensures Yields(rec) ==>
      r == Some(Message(rec.id, Truthy(rec.parentId), rec.message.value.role,
                        ContentText(rec.message.value.content).value, OrDefault(rec.source, "unknown"),
                        if Truthy(rec.timestamp).Some? then rec.timestamp.value else now))
  {
    match rec
    case MessageRecord(id, parentId, source, timestamp, payload) =>
      if payload.Some? && (payload.value.role == "user" || payload.value.role == "assistant") then
        match ContentText(payload.value.content)
        case Some(c) =>
          if c != "" then
            var createdAt := if Truthy(timestamp).Some? then timestamp.value else now;
            Some(Message(id, Truthy(parentId), payload.value.role, c, OrDefault(source, "unknown"), createdAt))
          else None
        case None => None
      else None
    case _ => None
  }

  /** One iteration of the loop over the delta's lines. */
  function StepLine(st: ScanState, line: string, decode: Decoder, now: string): (st': ScanState)
    ensures !Counted(line, decode) ==> st' == st
    ensures Counted(line, decode) ==> st'.completeBytes == st.completeBytes + Utf8Len(line) + 1
    ensures Counted(line, decode) && Yields(decode(line).record) ==>
      st'.messages == st.messages + [MessageOf(decode(line).record, now).value]
    ensures !(Counted(line, decode) && Yields(decode(line).record)) ==> st'.messages == st.messages
    ensures decode(line).Parsed? && !decode(line).record.SessionRecord? ==> st'.sessionData == st.sessionData
  {
    if Trim(line) == "" then st
    else
      match decode(line)
      case NoRecord => st
      case Parsed(rec) =>
        var st1 := st.(completeBytes := st.completeBytes + Utf8Len(line) + 1);
        match rec
        case SessionRecord(timestamp, model, source) =>
          st1.(sessionData := Some(SessionInfo(Truthy(timestamp), Truthy(model), OrDefault(source, "unknown"))))
        case MessageRecord(_, _, _, _, _) =>
          (match MessageOf(rec, now)
           case Some(m) => st1.(messages := st1.messages + [m])
           case None => st1)
        case OtherRecord => st1
  }

  /** The loop's state after the given lines, starting from the stored offset. */
  function Scan(stored: nat, lines: seq<string>, decode: Decoder, now: string): (st: ScanState)
    ensures st.completeBytes >= stored
    ensures |st.messages| <= |lines|
  {
    if lines == [] then ScanState(stored, [], None)
    else StepLine(Scan(stored, lines[..|lines| - 1], decode, now), lines[|lines| - 1], decode, now)
  }

  // ---------------------------------------------------------------------
  // Offset accounting
  // ---------------------------------------------------------------------

  /** `Buffer.byteLength(line + '\n')` summed over lines. */
  function LineBytes(lines: seq<string>): nat
  {
    if lines == [] then 0
    else LineBytes(lines[..|lines| - 1]) + Utf8Len(lines[|lines| - 1]) + 1
  }

  /** The same sum over the counted lines only. */
  function CountedBytes(lines: seq<string>, decode: Decoder): nat
  {
    if lines == [] then 0
    else
      var last := lines[|lines| - 1];
      CountedBytes(lines[..|lines| - 1], decode) + (if Counted(last, decode) then Utf8Len(last) + 1 else 0)
  }

  /** The offset the loop reaches is the stored offset plus the bytes of the counted lines. */
  lemma {:induction false} ScanOffset(stored: nat, lines: seq<string>, decode: Decoder, now: string)
    ensures Scan(stored, lines, decode, now).completeBytes == stored + CountedBytes(lines, decode)
  {
    if lines != [] {
      var init := lines[..|lines| - 1];
      ScanOffset(stored, init, decode, now);
      StepOffset(Scan(stored, init, decode, now), lines[|lines| - 1], decode, now);
    }
  }

  /** One line moves the offset by its bytes and newline exactly when it is counted. */
  lemma StepOffset(st: ScanState, line: string, decode: Decoder, now: string)
    ensures StepLine(st, line, decode, now).completeBytes ==
      st.completeBytes + (if Counted(line, decode) then Utf8Len(line) + 1 else 0)
  {
  }

  lemma {:induction false} CountedWithin(lines: seq<string>, decode: Decoder)
    ensures CountedBytes(lines, decode) <= LineBytes(lines)
    ensures (exists i :: 0 <= i < |lines| && !Counted(lines[i], decode)) ==>
      CountedBytes(lines, decode) < LineBytes(lines)
    ensures (forall i :: 0 <= i < |lines| ==> Counted(lines[i], decode)) ==>
      CountedBytes(lines, decode) == LineBytes(lines)
  {
    if lines != [] {
      var init := lines[..|lines| - 1];
      CountedWithin(init, decode);
      if exists i :: 0 <= i < |lines| && !Counted(lines[i], decode) {
        var i :| 0 <= i < |lines| && !Counted(lines[i], decode);
        if i < |lines| - 1 {
          assert init[i] == lines[i];
        }
      }
      if forall i :: 0 <= i < |lines| ==> Counted(lines[i], decode) {
        assert forall i :: 0 <= i < |init| ==> init[i] == lines[i];
      }
    }
  }

  lemma {:induction false} LineBytesOfJoin(lines: seq<string>)
    requires |lines| >= 1
    ensures LineBytes(lines) == Utf8Len(Join(lines, "\n")) + 1
  {
    if |lines| > 1 {
      var init := lines[..|lines| - 1];
      var last := lines[|lines| - 1];
      LineBytesOfJoin(init);
      assert init + [last] == lines;
      JoinSnoc(init, last, "\n");
      Utf8LenAppend(Join(init, "\n") + "\n", last);
      Utf8LenAppend(Join(init, "\n"), "\n");
    } else {
      assert lines[..0] == [];
    }
  }

  /** The lines of a split account for every byte of the text, plus one for a newline that is not there. */
  lemma SplitLineBytes(text: string)
    ensures LineBytes(Split(text, '\n')) == Utf8Len(text) + 1
  {
    JoinSplit(text, '\n');
    LineBytesOfJoin(Split(text, '\n'));
  }

  /** The bytes of every line but the last, with their newlines: where the trailing fragment starts. */
  lemma {:induction false} TailStart(text: string)
    ensures var lines := Split(text, '\n');
      LineBytes(lines[..|lines| - 1]) == Utf8Len(text) - Utf8Len(lines[|lines| - 1])
  {
    var lines := Split(text, '\n');
    SplitLineBytes(text);
    assert LineBytes(lines) == LineBytes(lines[..|lines| - 1]) + Utf8Len(lines[|lines| - 1]) + 1;
  }

  /** The new offset: what `syncFile` stores after scanning `delta` from `stored`. */
  function NewOffset(stored: nat, delta: string, decode: Decoder, now: string): nat
  {
    Scan(stored, Split(delta, '\n'), decode, now).completeBytes
  }

  /** The offset can pass the end of the delta, but by one byte at most. */
  lemma OffsetAtMostOnePast(stored: nat, delta: string, decode: Decoder, now: string)
    ensures stored <= NewOffset(stored, delta, decode, now) <= stored + Utf8Len(delta) + 1
  {
    var lines := Split(delta, '\n');
    ScanOffset(stored, lines, decode, now);
    CountedWithin(lines, decode);
    SplitLineBytes(delta);
  }

  /**
    A trailing fragment that is blank or does not parse is never passed:
    the offset stays at or before the byte where that fragment starts.
  */
  lemma UncountedTailNotPassed(stored: nat, delta: string, decode: Decoder, now: string)
    requires var lines := Split(delta, '\n'); !Counted(lines[|lines| - 1], decode)
    ensures var lines := Split(delta, '\n');
      NewOffset(stored, delta, decode, now) <= stored + Utf8Len(delta) - Utf8Len(lines[|lines| - 1])
  {
    var lines := Split(delta, '\n');
    ScanOffset(stored, lines, decode, now);
    CountedWithin(lines[..|lines| - 1], decode);
    TailStart(delta);
  }

  /**
    Partial-line safety: when every complete line is counted and the
    trailing fragment is not, the offset is exactly the start of that
    fragment.
  */
  lemma PartialLineStopsAtItsStart(stored: nat, delta: string, decode: Decoder, now: string)
    requires var lines := Split(delta, '\n');
      (forall i :: 0 <= i < |lines| - 1 ==> Counted(lines[i], decode)) && !Counted(lines[|lines| - 1], decode)
    ensures var lines := Split(delta, '\n');
      NewOffset(stored, delta, decode, now) == stored + Utf8Len(delta) - Utf8Len(lines[|lines| - 1])
  {
    var lines := Split(delta, '\n');
    var init := lines[..|lines| - 1];
    assert NewOffset(stored, delta, decode, now) == stored + CountedBytes(lines, decode) by {
      ScanOffset(stored, lines, decode, now);
    }
    assert CountedBytes(lines, decode) == LineBytes(init) by {
      assert forall i :: 0 <= i < |init| ==> init[i] == lines[i];
      CountedWithin(init, decode);
    }
    TailStart(delta);
  }

  /**
    When the delta ends with a newline and every line before it is
    counted, the offset lands exactly on the end of the delta.
  */
  lemma CleanDeltaReachesEnd(stored: nat, delta: string, decode: Decoder, now: string)
    requires delta != [] && delta[|delta| - 1] == '\n'
    requires var lines := Split(delta, '\n');
      forall i :: 0 <= i < |lines| - 1 ==> Counted(lines[i], decode)
    ensures NewOffset(stored, delta, decode, now) == stored + Utf8Len(delta)
  {
    var lines := Split(delta, '\n');
    LastPieceAfterNewline(delta);
    EmptyTailUncounted(lines[|lines| - 1], decode);
    PartialLineStopsAtItsStart(stored, delta, decode, now);
  }

  lemma EmptyTailUncounted(last: string, decode: Decoder)
    requires last == ""
    ensures !Counted(last, decode) && Utf8Len(last) == 0
  {
    assert Trim(last) == "";
  }

  lemma {:induction false} LastPieceAfterNewline(text: string)
    requires text != [] && text[|text| - 1] == '\n'
    ensures var lines := Split(text, '\n'); lines[|lines| - 1] == ""
    decreases |text|
  {
    if |text| > 1 {
      LastPieceAfterNewline(text[1..]);
    }
  }

  /**
    When every piece of the split is counted (so the delta does not end
    with a newline and its trailing fragment parsed), the offset is one
    byte past the end of the delta.
  */
  lemma ParsedTailOvershoots(stored: nat, delta: string, decode: Decoder, now: string)
    requires var lines := Split(delta, '\n'); forall i :: 0 <= i < |lines| ==> Counted(lines[i], decode)
    ensures NewOffset(stored, delta, decode, now) == stored + Utf8Len(delta) + 1
  {
    var lines := Split(delta, '\n');
    ScanOffset(stored, lines, decode, now);
    CountedWithin(lines, decode);
    SplitLineBytes(delta);
  }

  /**
    Every blank or unparseable line, wherever it sits in the delta, is
    missing from the offset: the offset falls short of one past the end
    of the delta by at least that line's bytes and its newline.
  */
  lemma SkippedLineLags(stored: nat, delta: string, decode: Decoder, now: string, i: nat)
    requires var lines := Split(delta, '\n'); i < |lines| && !Counted(lines[i], decode)
    ensures var lines := Split(delta, '\n');
      NewOffset(stored, delta, decode, now) + Utf8Len(lines[i]) + 1 <= stored + Utf8Len(delta) + 1
  {
    var lines := Split(delta, '\n');
    ScanOffset(stored, lines, decode, now);
    UncountedMissing(lines, decode, i);
    SplitLineBytes(delta);
  }

  lemma {:induction false} UncountedMissing(lines: seq<string>, decode: Decoder, i: nat)
    requires i < |lines| && !Counted(lines[i], decode)
    ensures CountedBytes(lines, decode) + Utf8Len(lines[i]) + 1 <= LineBytes(lines)
  {
    var init := lines[..|lines| - 1];
    if i < |lines| - 1 {
      assert init[i] == lines[i];
      UncountedMissing(init, decode, i);
    } else {
      CountedWithin(init, decode);
    }
  }

  // ---------------------------------------------------------------------
  // What the scan extracts
  // ---------------------------------------------------------------------

  lemma StepKeepsMessages(st: ScanState, line: string, decode: Decoder, now: string)
    ensures var ms := StepLine(st, line, decode, now).messages;
      |st.messages| <= |ms| && ms[..|st.messages|] == st.messages
  {
    StepMessages(st, line, decode, now);
  }

  /** Scanning more lines only appends messages: earlier lines' messages keep their order. */
  lemma {:induction false} ScanAppends(stored: nat, a: seq<string>, b: seq<string>, decode: Decoder, now: string)
    ensures var sa := Scan(stored, a, decode, now).messages;
      var sab := Scan(stored, a + b, decode, now).messages;
      |sa| <= |sab| && sab[..|sa|] == sa
    decreases |b|
  {
    if b == [] {
      assert a + b == a;
    } else {
      var b' := b[..|b| - 1];
      var ab := a + b;
      assert ab[..|ab| - 1] == a + b';
      ScanAppends(stored, a, b', decode, now);
      ScanKeepsPrefix(stored, ab, decode, now);
      PrefixOfPrefix(Scan(stored, a, decode, now).messages, Scan(stored, a + b', decode, now).messages,
                     Scan(stored, ab, decode, now).messages);
    }
  }

  /** One more line keeps the messages found so far, as a prefix. */
  lemma ScanKeepsPrefix(stored: nat, lines: seq<string>, decode: Decoder, now: string)
    requires lines != []
    ensures var before := Scan(stored, lines[..|lines| - 1], decode, now).messages;
      var after := Scan(stored, lines, decode, now).messages;
      |before| <= |after| && after[..|before|] == before
  {
    StepKeepsMessages(Scan(stored, lines[..|lines| - 1], decode, now), lines[|lines| - 1], decode, now);
  }

  lemma PrefixOfPrefix<T>(x: seq<T>, y: seq<T>, z: seq<T>)
    requires |x| <= |y| && y[..|x|] == x
    requires |y| <= |z| && z[..|y|] == y
    ensures |x| <= |z| && z[..|x|] == x
  {
    assert z[..|x|] == z[..|y|][..|x|];
  }

  /** One line adds a message exactly when it is a counted `message` record that yields a row. */
  lemma StepMessages(st: ScanState, line: string, decode: Decoder, now: string)
    ensures var st' := StepLine(st, line, decode, now);
      if Counted(line, decode) && MessageOf(decode(line).record, now).Some? then
        st'.messages == st.messages + [MessageOf(decode(line).record, now).value]
      else st'.messages == st.messages
  {
  }

  /** A later `session` record replaces the session data of an earlier one. */
  lemma LastSessionRecordWins(st: ScanState, line: string, decode: Decoder, now: string)
    requires Counted(line, decode) && decode(line).record.SessionRecord?
    ensures var r := decode(line).record;
      StepLine(st, line, decode, now).sessionData
        == Some(SessionInfo(Truthy(r.timestamp), Truthy(r.model), OrDefault(r.source, "unknown")))
  {
  }
}

=== FILE: sync.dfy ===
/**
  The sync engine of services/memory-db/sync.js: the three tables it
  writes, the per-file incremental sync against the stored byte offset,
  the view builder and the run over every discovered instance.
  The database is a `Store` object whose tables are maps keyed by their
  unique constraints; the file system enters as values (`SessionFile`,
  a directory listing function) and JSON decoding as a `Decoder`.
*/
module SyncEngine {
  import opened Wrappers
  import opened Text
  import opened Transcript
  import opened DeltaScan
  import opened Discovery

  // ---------------------------------------------------------------------
  // Tables
  // ---------------------------------------------------------------------

  /** A `sessions` row, keyed by (instance, session_id). */
  datatype SessionRow = SessionRow(startedAt: Option<string>, model: Option<string>, source: Option<string>,
                                   messageCount: nat, lastSyncedByte: nat, lastSyncedAt: string)

  /** A `messages` row, keyed by (instance, session_id, message_id). */
  datatype MessageRow = MessageRow(parentId: Option<string>, role: string, content: string,
                                   source: string, createdAt: string)

  /** A `cron_reports` row, keyed by (instance, session_id, cron_name). */
  datatype ReportRow = ReportRow(summary: Option<string>, runStartedAt: Option<string>,
                                 runEndedAt: string, eventAt: string)

  type SessionKey = (string, string)
  type MessageKey = (string, string, string)
  type ReportKey = (string, string, string)

  datatype Tables = Tables(sessions: map<SessionKey, SessionRow>,
                           messages: map<MessageKey, MessageRow>,
                           reports: map<ReportKey, ReportRow>)

  /** What a view selects: one instance's messages or one instance's cron reports. */
  datatype ViewDef = MessagesOf(instance: string) | CronReportsOf(instance: string)

  /** `INSERT … ON CONFLICT DO NOTHING`: the row is added only when its key is new. */
  function PutIfAbsent<K(==), V>(m: map<K, V>, k: K, v: V): (r: map<K, V>)
    ensures r.Keys == m.Keys + {k}
    ensures forall j :: j in m ==> r[j] == m[j]
    ensures k !in m ==> r[k] == v
  {
    if k in m then m else m[k := v]
  }

  function MessageRowOf(m: Message): MessageRow {
    MessageRow(m.parentId, m.role, m.content, m.source, m.createdAt)
  }

  function MessageKeys(instance: string, sessionId: string, msgs: seq<Message>): set<MessageKey> {
    set m | m in msgs :: (instance, sessionId, m.id)
  }

  /** The `messages` table after inserting `msgs` one by one. */
  function MessagesAfterInsert(t: map<MessageKey, MessageRow>, instance: string, sessionId: string,
                               msgs: seq<Message>): (r: map<MessageKey, MessageRow>)
    ensures r.Keys == t.Keys + MessageKeys(instance, sessionId, msgs)
    ensures forall k :: k in t ==> r[k] == t[k]
  {
    if msgs == [] then t
    else
      var init := msgs[..|msgs| - 1];
      var m := msgs[|msgs| - 1];
      assert msgs == init + [m];
      assert MessageKeys(instance, sessionId, msgs)
        == MessageKeys(instance, sessionId, init) + {(instance, sessionId, m.id)};
      PutIfAbsent(MessagesAfterInsert(t, instance, sessionId, init), (instance, sessionId, m.id), MessageRowOf(m))
  }

  /**
    The `sessions` table after the upsert at the end of a pass: a new row
    takes everything from the pass; an existing row keeps its start time
    and takes the rest. Without a session record in the delta, model and
    source become null.
  */
  function SessionsAfterUpsert(t: map<SessionKey, SessionRow>, key: SessionKey, info: Option<SessionInfo>,
                               count: nat, offset: nat, now: string): (r: map<SessionKey, SessionRow>)
    ensures r.Keys == t.Keys + {key}
    ensures forall k :: k in t && k != key ==> r[k] == t[k]
    ensures r[key].lastSyncedByte == offset && r[key].messageCount == count && r[key].lastSyncedAt == now
    ensures key in t ==> r[key].startedAt == t[key].startedAt
    ensures key !in t ==> r[key].startedAt == (if info.Some? then info.value.startedAt else None)
    ensures info.None? ==> r[key].model == None && r[key].source == None
    ensures info.Some? ==> r[key].model == info.value.model && r[key].source == Some(info.value.source)
  {
    var model := if info.Some? then info.value.model else None;
    var source := if info.Some? then Some(info.value.source) else None;
    if key in t then
      t[key := t[key].(model := model, source := source, messageCount := count,
                       lastSyncedByte := offset, lastSyncedAt := now)]
    else
      var startedAt := if info.Some? then info.value.startedAt else None;
      t[key := SessionRow(startedAt, model, source, count, offset, now)]
  }

  /**
    The `cron_reports` table after a pass: a report is added when the
    pass yielded messages, they carry a cron marker, and the delta held
    a session record. The summary may be null.
  */
  function ReportsAfter(t: map<ReportKey, ReportRow>, instance: string, sessionId: string,
                        msgs: seq<Message>, info: Option<SessionInfo>, now: string): (r: map<ReportKey, ReportRow>)
    ensures forall k :: k in t ==> k in r && r[k] == t[k]
    ensures r.Keys <= t.Keys + (if DetectCronSession(msgs).Some? then {(instance, sessionId, DetectCronSession(msgs).value.cronName)} else {})
    ensures !(|msgs| > 0 && DetectCronSession(msgs).Some? && info.Some?) ==> r == t
    ensures |msgs| > 0 && DetectCronSession(msgs).Some? && info.Some? ==>
      var key := (instance, sessionId, DetectCronSession(msgs).value.cronName);
      key in r && (key !in t ==>
        r[key] == ReportRow(ExtractSummary(msgs), info.value.startedAt, now, info.value.startedAt.GetOr(now)))
  {
    if |msgs| > 0 then
      match DetectCronSession(msgs)
      case Some(cron) =>
        if info.Some? then
          PutIfAbsent(t, (instance, sessionId, cron.cronName),
                      ReportRow(ExtractSummary(msgs), info.value.startedAt, now, info.value.startedAt.GetOr(now)))
        else t
      case None => t
    else t
  }

  /** `session?.last_synced_byte || 0`: the offset recorded for the session, zero for a new one. */
  function StoredOffset(t: map<SessionKey, SessionRow>, key: SessionKey): (r: nat)
    ensures key in t ==> r == t[key].lastSyncedByte
    ensures key !in t ==> r == 0
  {
    if key in t then t[key].lastSyncedByte else 0
  }

  // ---------------------------------------------------------------------
  // One file
  // ---------------------------------------------------------------------

  /**
    A session file as the sync sees it: its name, its size (`None` when
    `statSync` throws) and the text decoded from a byte offset to the end.
  */
  datatype SessionFile = SessionFile(name: string, size: Option<nat>, read: nat -> string)

  datatype SyncError = StatFailed | NegativeLength

  datatype SyncOutcome = Skipped | Synced(processed: nat, lastSyncedByte: nat) | Failed(error: SyncError)

  /** The outcome of `syncFile` and the tables it leaves behind. */
  function SyncSpec(t: Tables, instance: string, sessionId: string, file: SessionFile,
                    decode: Decoder, now: string): (r: (SyncOutcome, Tables))
    ensures !r.0.Synced? ==> r.1 == t
    ensures r.0.Synced? ==>
      && (instance, sessionId) in r.1.sessions
      && r.1.sessions[(instance, sessionId)].lastSyncedByte == r.0.lastSyncedByte
      && r.1.sessions[(instance, sessionId)].messageCount == r.0.processed
      && r.0.lastSyncedByte >= StoredOffset(t.sessions, (instance, sessionId))
    ensures r.0.Skipped? <==> file.size == Some(StoredOffset(t.sessions, (instance, sessionId)))
  {
    var key := (instance, sessionId);
    var stored := StoredOffset(t.sessions, key);
    match file.size
    case None => (Failed(StatFailed), t)
    case Some(size) =>
      if size == stored then (Skipped, t)
      else if size < stored then (Failed(NegativeLength), t)
      else
        var st := Scan(stored, Split(file.read(stored), '\n'), decode, now);
        var messages := MessagesAfterInsert(t.messages, instance, sessionId, st.messages);
        var reports := ReportsAfter(t.reports, instance, sessionId, st.messages, st.sessionData, now);
        var sessions := SessionsAfterUpsert(t.sessions, key, st.sessionData, |st.messages|, st.completeBytes, now);
        (Synced(|st.messages|, st.completeBytes), Tables(sessions, messages, reports))
  }

  // ---------------------------------------------------------------------
  // The whole run
  // ---------------------------------------------------------------------

  /** `files.filter(f => f.endsWith('.jsonl'))`. */
  function JsonlFiles(files: seq<SessionFile>): (r: seq<SessionFile>)
    ensures forall i :: 0 <= i < |r| ==> EndsWith(r[i].name, ".jsonl")
    ensures |r| <= |files|
    ensures forall f :: f in r <==> f in files && EndsWith(f.name, ".jsonl")
  {
    if files == [] then []
    else
      var init := JsonlFiles(files[..|files| - 1]);
      var f := files[|files| - 1];
      if EndsWith(f.name, ".jsonl") then init + [f] else init
  }

  /** Filtering a listing in two parts filters each part: the kept files stay in listing order. */
  lemma {:induction false} JsonlFilesAppend(a: seq<SessionFile>, b: seq<SessionFile>)
    ensures JsonlFiles(a + b) == JsonlFiles(a) + JsonlFiles(b)
    decreases |b|
  {
    if b == [] {
      assert a + b == a;
    } else {
      var b' := b[..|b| - 1];
      assert (a + b)[..|a + b| - 1] == a + b';
      JsonlFilesAppend(a, b');
    }
  }

  /** `file.replace('.jsonl', '')`: the first occurrence is removed. */
  function SessionIdOf(name: string): (r: string)
    ensures !Contains(name, ".jsonl") ==> r == name
    ensures Contains(name, ".jsonl") ==>
      var i := IndexOf(name, ".jsonl").value; i + 6 <= |name| && r == name[..i] + name[i + 6..]
  {
    ReplaceFirst(name, ".jsonl", "")
  }

  /** The counters of the run and the tables so far. */
  datatype RunTotals = RunTotals(files: nat, messages: nat, tables: Tables)

  /** One iteration of the per-file loop: a failed file is logged and counts for nothing. */
  function FileStep(acc: RunTotals, instance: string, file: SessionFile, decode: Decoder, now: string): (r: RunTotals)
    ensures var sync := SyncSpec(acc.tables, instance, SessionIdOf(file.name), file, decode, now);
      && (sync.0.Failed? ==> r == acc)
      && (!sync.0.Failed? ==> r.files == acc.files + 1 && r.tables == sync.1)
      && r.messages == acc.messages + (if sync.0.Synced? then sync.0.processed else 0)
  {
    var r := SyncSpec(acc.tables, instance, SessionIdOf(file.name), file, decode, now);
    match r.0
    case Failed(_) => acc
    case Skipped => RunTotals(acc.files + 1, acc.messages, r.1)
    case Synced(processed, _) => RunTotals(acc.files + 1, acc.messages + processed, r.1)
  }

  /** One iteration of the per-file loop, read off the outcome and the tables of the sync. */
  lemma FileStepOf(acc: RunTotals, instance: string, file: SessionFile, decode: Decoder, now: string,
                   outcome: SyncOutcome, t: Tables)
    requires (outcome, t) == SyncSpec(acc.tables, instance, SessionIdOf(file.name), file, decode, now)
    ensures FileStep(acc, instance, file, decode, now)
      == if outcome.Failed? then acc
         else RunTotals(acc.files + 1, acc.messages + (if outcome.Synced? then outcome.processed else 0), t)
  {
  }

  /** The per-file loop: each file counts at most once, and the message total only grows. */
  function SyncFiles(acc: RunTotals, instance: string, files: seq<SessionFile>, decode: Decoder, now: string): (r: RunTotals)
    ensures acc.files <= r.files <= acc.files + |files|
    ensures r.messages >= acc.messages
  {
    if files == [] then acc
    else FileStep(SyncFiles(acc, instance, files[..|files| - 1], decode, now), instance, files[|files| - 1], decode, now)
  }

  function SyncInstances(acc: RunTotals, instances: seq<Instance>, listing: string -> seq<SessionFile>,
                         decode: Decoder, now: string): (r: RunTotals)
    ensures r.files >= acc.files && r.messages >= acc.messages
  {
    if instances == [] then acc
    else
      var inst := instances[|instances| - 1];
      SyncFiles(SyncInstances(acc, instances[..|instances| - 1], listing, decode, now),
                inst.instance, JsonlFiles(listing(inst.sessionsPath)), decode, now)
  }

  /** A view selects what its name says: `v_<x>` the messages of `x`, `v_cron_<x>` the cron reports of `x`. */
  predicate Selects(name: string, d: ViewDef) {
    match d
    case MessagesOf(x) => name == MessagesViewName(x)
    case CronReportsOf(x) => name == CronViewName(x)
  }

  /** `x` is the name of one of the instances, and it passes the guard. */
  predicate Guarded(instances: seq<Instance>, x: string) {
    ValidViewName(x) && exists inst :: inst in instances && inst.instance == x
  }

  /**
    The views after `ensureViews`: both views of every instance whose name
    passes the guard, and no other view is created.
  */
  function ViewsAfter(views: map<string, ViewDef>, instances: seq<Instance>): (r: map<string, ViewDef>)
    ensures views.Keys <= r.Keys
    ensures forall i :: 0 <= i < |instances| && ValidViewName(instances[i].instance) ==>
      MessagesViewName(instances[i].instance) in r && CronViewName(instances[i].instance) in r
    ensures forall name :: name in r && name !in views ==>
      Selects(name, r[name]) && Guarded(instances, r[name].instance)
  {
    if instances == [] then views
    else
      var prefix := instances[..|instances| - 1];
      var init := ViewsAfter(views, prefix);
      var name := instances[|instances| - 1].instance;
      var r := if ValidViewName(name) then
        init[MessagesViewName(name) := MessagesOf(name)][CronViewName(name) := CronReportsOf(name)]
      else init;
      ViewsStep(views, instances, init, r);
      r
  }

  /** One more instance: its two views are set when its name passes the guard. */
  lemma ViewsStep(views: map<string, ViewDef>, instances: seq<Instance>, init: map<string, ViewDef>,
                  r: map<string, ViewDef>)
    requires instances != []
    requires var prefix := instances[..|instances| - 1];
      && views.Keys <= init.Keys
      && (forall i :: 0 <= i < |prefix| && ValidViewName(prefix[i].instance) ==>
            MessagesViewName(prefix[i].instance) in init && CronViewName(prefix[i].instance) in init)
      && (forall name :: name in init && name !in views ==>
            Selects(name, init[name]) && Guarded(prefix, init[name].instance))
    requires var name := instances[|instances| - 1].instance;
      r == if ValidViewName(name) then
        init[MessagesViewName(name) := MessagesOf(name)][CronViewName(name) := CronReportsOf(name)]
      else init
    ensures views.Keys <= r.Keys
    ensures forall i :: 0 <= i < |instances| && ValidViewName(instances[i].instance) ==>
      MessagesViewName(instances[i].instance) in r && CronViewName(instances[i].instance) in r
    ensures forall name :: name in r && name !in views ==>
      Selects(name, r[name]) && Guarded(instances, r[name].instance)
  {
    var prefix := instances[..|instances| - 1];
    var last := instances[|instances| - 1];
    forall i | 0 <= i < |instances| && ValidViewName(instances[i].instance)
      ensures MessagesViewName(instances[i].instance) in r && CronViewName(instances[i].instance) in r
    {
      if i < |prefix| {
        assert prefix[i] == instances[i];
      }
    }
    forall name | name in r && name !in views ensures Selects(name, r[name]) && Guarded(instances, r[name].instance) {
      if name in init && r[name] == init[name] {
        var inst :| inst in prefix && inst.instance == init[name].instance;
        assert inst in instances;
      } else {
        assert last in instances;
      }
    }
  }

  /** The line loop of `syncFile`. */
  method ScanLines(lastSyncedByte: nat, lines: seq<string>, decode: Decoder, now: string)
    returns (completeBytes: nat, msgs: seq<Message>, sessionData: Option<SessionInfo>)
    ensures ScanState(completeBytes, msgs, sessionData) == Scan(lastSyncedByte, lines, decode, now)
  {
    completeBytes := lastSyncedByte;
    msgs := [];
    sessionData := None;
    for i := 0 to |lines|
      invariant ScanState(completeBytes, msgs, sessionData) == Scan(lastSyncedByte, lines[..i], decode, now)
    {
      assert lines[..i + 1][..i] == lines[..i];
      var line := lines[i];
      ghost var before := ScanState(completeBytes, msgs, sessionData);
      assert Scan(lastSyncedByte, lines[..i + 1], decode, now) == StepLine(before, line, decode, now);
      if Trim(line) == "" {
        continue;
      }
      var entry := decode(line);
      if entry.NoRecord? {
        continue;
      }
      Utf8LenAppend(line, "\n");
      var lineBytes := Utf8Len(line + "\n");
      completeBytes := completeBytes + lineBytes;
      match entry.record {
        case SessionRecord(timestamp, model, source) =>
          sessionData := Some(SessionInfo(Truthy(timestamp), Truthy(model), OrDefault(source, "unknown")));
        case MessageRecord(id, parentId, source, timestamp, payload) =>
          if payload.Some? && (payload.value.role == "user" || payload.value.role == "assistant") {
            var content := ExtractContent(payload.value.content);
            if content.Some? && content.value != "" {
              var createdAt := if Truthy(timestamp).Some? then timestamp.value else now;
              var m := Message(id, Truthy(parentId), payload.value.role, content.value,
                               OrDefault(source, "unknown"), createdAt);
              assert MessageOf(entry.record, now) == Some(m);
              msgs := msgs + [m];
            } else {
              assert MessageOf(entry.record, now) == None;
            }
          } else {
            assert MessageOf(entry.record, now) == None;
          }
        case OtherRecord =>
      }
    }
    assert lines[..|lines|] == lines;
  }

  // ---------------------------------------------------------------------
  // The database
  // ---------------------------------------------------------------------

  class Store {
    var sessions: map<SessionKey, SessionRow>
    var messages: map<MessageKey, MessageRow>
    var reports: map<ReportKey, ReportRow>
    var views: map<string, ViewDef>

    function Snapshot(): Tables
      reads this
    {
      Tables(sessions, messages, reports)
    }

    constructor ()
      ensures sessions == map[] && messages == map[] && reports == map[] && views == map[]
    {
      sessions := map[];
      messages := map[];
      reports := map[];
      views := map[];
    }

    /** `getSession`: the row for the session, if there is one. */
    method GetSession(instance: string, sessionId: string) returns (row: Option<SessionRow>)
      ensures row.Some? <==> (instance, sessionId) in sessions
      ensures row.Some? ==> row.value == sessions[(instance, sessionId)]
    {
      var key := (instance, sessionId);
      if key in sessions {
        row := Some(sessions[key]);
      } else {
        row := None;
      }
    }

    /** `upsertSession`. */
    method UpsertSession(instance: string, sessionId: string, info: Option<SessionInfo>,
                         count: nat, offset: nat, now: string)
      modifies this
      ensures sessions == SessionsAfterUpsert(old(sessions), (instance, sessionId), info, count, offset, now)
      ensures messages == old(messages) && reports == old(reports) && views == old(views)
    {
      var key := (instance, sessionId);
      var model := if info.Some? then info.value.model else None;
      var source := if info.Some? then Some(info.value.source) else None;
      if key in sessions {
        sessions := sessions[key := sessions[key].(model := model, source := source, messageCount := count,
                                                   lastSyncedByte := offset, lastSyncedAt := now)];
      } else {
        var startedAt := if info.Some? then info.value.startedAt else None;
        sessions := sessions[key := SessionRow(startedAt, model, source, count, offset, now)];
      }
    }

    /** `insertMessage`: a message already stored under its key is left as it is. */
    method InsertMessage(instance: string, sessionId: string, m: Message)
      modifies this
      ensures messages == PutIfAbsent(old(messages), (instance, sessionId, m.id), MessageRowOf(m))
      ensures sessions == old(sessions) && reports == old(reports) && views == old(views)
    {
      var key := (instance, sessionId, m.id);
      if key !in messages {
        messages := messages[key := MessageRowOf(m)];
      }
    }

    /** `insertCronReport`: one report per (instance, session, cron name). */
    method InsertCronReport(instance: string, sessionId: string, cronName: string, summary: Option<string>,
                            runStartedAt: Option<string>, runEndedAt: string, eventAt: string)
      modifies this
      ensures reports == PutIfAbsent(old(reports), (instance, sessionId, cronName),
                                     ReportRow(summary, runStartedAt, runEndedAt, eventAt))
      ensures sessions == old(sessions) && messages == old(messages) && views == old(views)
    {
      var key := (instance, sessionId, cronName);
      if key !in reports {
        reports := reports[key := ReportRow(summary, runStartedAt, runEndedAt, eventAt)];
      }
    }

    /** `ensureViews`: both views for each instance whose name passes the guard. */
    method EnsureViews(instances: seq<Instance>)
      modifies this
      ensures views == ViewsAfter(old(views), instances)
      ensures sessions == old(sessions) && messages == old(messages) && reports == old(reports)
    {
      for i := 0 to |instances|
        invariant views == ViewsAfter(old(views), instances[..i])
        invariant sessions == old(sessions) && messages == old(messages) && reports == old(reports)
      {
        assert instances[..i + 1][..i] == instances[..i];
        var inst := instances[i];
        if !ValidViewName(inst.instance) {
          continue;
        }
        views := views[MessagesViewName(inst.instance) := MessagesOf(inst.instance)];
        views := views[CronViewName(inst.instance) := CronReportsOf(inst.instance)];
      }
      assert instances[..|instances|] == instances;
    }

    /** `syncFile`: one incremental pass over one session file. */
    method SyncFile(instance: string, sessionId: string, file: SessionFile, decode: Decoder, now: string)
      returns (outcome: SyncOutcome)
      modifies this
      ensures (outcome, Snapshot()) == SyncSpec(old(Snapshot()), instance, sessionId, file, decode, now)
      ensures views == old(views)
    {
      if file.size.None? {
        return Failed(StatFailed);
      }
      var fileSize := file.size.value;
      var session := GetSession(instance, sessionId);
      var lastSyncedByte := if session.Some? then session.value.lastSyncedByte else 0;
      if fileSize == lastSyncedByte {
        return Skipped;
      }
      if fileSize < lastSyncedByte {
        return Failed(NegativeLength);
      }
      var content := file.read(lastSyncedByte);
      var lines := Split(content, '\n');
      var completeBytes, msgs, sessionData := ScanLines(lastSyncedByte, lines, decode, now);

      InsertMessages(instance, sessionId, msgs);
      RecordCronReport(instance, sessionId, msgs, sessionData, now);
      UpsertSession(instance, sessionId, sessionData, |msgs|, completeBytes, now);
      outcome := Synced(|msgs|, completeBytes);
    }

    /** The insert loop of `syncFile`: every scanned message, in order. */
    method InsertMessages(instance: string, sessionId: string, msgs: seq<Message>)
      modifies this
      ensures messages == MessagesAfterInsert(old(messages), instance, sessionId, msgs)
      ensures sessions == old(sessions) && reports == old(reports) && views == old(views)
    {
      for j := 0 to |msgs|
        invariant messages == MessagesAfterInsert(old(messages), instance, sessionId, msgs[..j])
        invariant sessions == old(sessions) && reports == old(reports) && views == old(views)
      {
        assert msgs[..j + 1][..j] == msgs[..j];
        InsertMessage(instance, sessionId, msgs[j]);
      }
      assert msgs[..|msgs|] == msgs;
    }

    /** The cron step of `syncFile`: a report when the batch is a cron session with session data. */
    method RecordCronReport(instance: string, sessionId: string, msgs: seq<Message>,
                            sessionData: Option<SessionInfo>, now: string)
      modifies this
      ensures reports == ReportsAfter(old(reports), instance, sessionId, msgs, sessionData, now)
      ensures sessions == old(sessions) && messages == old(messages) && views == old(views)
    {
      if |msgs| > 0 {
        var cronInfo := DetectCronSession(msgs);
        if cronInfo.Some? && sessionData.Some? {
          var summary := ExtractSummary(msgs);
          InsertCronReport(instance, sessionId, cronInfo.value.cronName, summary,
                           sessionData.value.startedAt, now, sessionData.value.startedAt.GetOr(now));
        }
      }
    }

    /** One iteration of the per-file loop: sync the file, and count it unless it failed. */
    method SyncAndCount(instance: string, file: SessionFile, decode: Decoder, now: string,
                        filesBefore: nat, messagesBefore: nat)
      returns (totalFiles: nat, totalMessages: nat)
      modifies this
      ensures RunTotals(totalFiles, totalMessages, Snapshot())
        == FileStep(RunTotals(filesBefore, messagesBefore, old(Snapshot())), instance, file, decode, now)
      ensures views == old(views)
    {
      totalFiles, totalMessages := filesBefore, messagesBefore;
      var sessionId := SessionIdOf(file.name);
      var result := SyncFile(instance, sessionId, file, decode, now);
      FileStepOf(RunTotals(filesBefore, messagesBefore, old(Snapshot())), instance, file, decode, now, result, Snapshot());
      if !result.Failed? {
        totalFiles := totalFiles + 1;
        if result.Synced? && result.processed != 0 {
          totalMessages := totalMessages + result.processed;
        }
      }
    }

    /** The per-file loop of `main` for one instance. */
    method SyncInstanceFiles(instance: string, files: seq<SessionFile>, decode: Decoder, now: string,
                             filesBefore: nat, messagesBefore: nat)
      returns (totalFiles: nat, totalMessages: nat)
      modifies this
      ensures RunTotals(totalFiles, totalMessages, Snapshot())
        == SyncFiles(RunTotals(filesBefore, messagesBefore, old(Snapshot())), instance, files, decode, now)
      ensures views == old(views)
    {
      totalFiles, totalMessages := filesBefore, messagesBefore;
      for j := 0 to |files|
        invariant RunTotals(totalFiles, totalMessages, Snapshot())
          == SyncFiles(RunTotals(filesBefore, messagesBefore, old(Snapshot())), instance, files[..j], decode, now)
        invariant views == old(views)
      {
        assert files[..j + 1][..j] == files[..j];
        totalFiles, totalMessages := SyncAndCount(instance, files[j], decode, now, totalFiles, totalMessages);
      }
      assert files[..|files|] == files;
    }

    /**
      `main`: discover the instances under the root, build their views,
      then sync every `.jsonl` file of every instance.
    */
    method RunSync(root: string, entries: seq<DirEntry>, listing: string -> seq<SessionFile>,
                   decode: Decoder, now: string)
      returns (totalFiles: nat, totalMessages: nat)
      modifies this
      ensures views == ViewsAfter(old(views), Discovered(root, entries))
      ensures RunTotals(totalFiles, totalMessages, Snapshot())
        == SyncInstances(RunTotals(0, 0, old(Snapshot())), Discovered(root, entries), listing, decode, now)
    {
      var instances := FindInstanceDirs(root, entries);
      EnsureViews(instances);
      ghost var start := Snapshot();
      ghost var builtViews := views;
      totalFiles, totalMessages := 0, 0;
      for i := 0 to |instances|
        invariant RunTotals(totalFiles, totalMessages, Snapshot())
          == SyncInstances(RunTotals(0, 0, start), instances[..i], listing, decode, now)
        invariant views == builtViews
      {
        assert instances[..i + 1][..i] == instances[..i];
        var inst := instances[i];
        var files := JsonlFiles(listing(inst.sessionsPath));
        totalFiles, totalMessages := SyncInstanceFiles(inst.instance, files, decode, now, totalFiles, totalMessages);
      }
      assert instances[..|instances|] == instances;
    }
  }
}

=== FILE: sync_props.dfy ===
/**
  Properties of the sync engine that relate several passes or several
  tables: nothing stored is ever lost, inserts are idempotent and first
  write wins, re-runs over unchanged files, and the end-to-end pass over
  a fresh cron session.
*/
module SyncProperties {
  import opened Wrappers
  import opened Text
  import opened Transcript
  import opened DeltaScan
  import opened SyncEngine

  // ---------------------------------------------------------------------
  // Idempotent storage
  // ---------------------------------------------------------------------

  /** Inserting messages whose keys are all stored already changes nothing. */
  lemma {:induction false} InsertPresentNoop(u: map<MessageKey, MessageRow>, instance: string, sessionId: string,
                                             msgs: seq<Message>)
    requires MessageKeys(instance, sessionId, msgs) <= u.Keys
    ensures MessagesAfterInsert(u, instance, sessionId, msgs) == u
  {
    if msgs != [] {
      var init := msgs[..|msgs| - 1];
      assert MessageKeys(instance, sessionId, init) <= MessageKeys(instance, sessionId, msgs) by {
        forall k | k in MessageKeys(instance, sessionId, init) ensures k in MessageKeys(instance, sessionId, msgs) {
          var m :| m in init && k == (instance, sessionId, m.id);
          assert m in msgs;
        }
      }
      InsertPresentNoop(u, instance, sessionId, init);
      assert msgs[|msgs| - 1] in msgs;
    }
  }

  /** Inserting the same batch twice leaves the table as inserting it once. */
  lemma InsertIdempotent(t: map<MessageKey, MessageRow>, instance: string, sessionId: string, msgs: seq<Message>)
    ensures var once := MessagesAfterInsert(t, instance, sessionId, msgs);
      MessagesAfterInsert(once, instance, sessionId, msgs) == once
  {
    InsertPresentNoop(MessagesAfterInsert(t, instance, sessionId, msgs), instance, sessionId, msgs);
  }

  /**
    First write wins: for a key not yet stored, the row kept is that of
    the first message in the batch with that id, whatever later ones carry.
  */
  lemma {:induction false} InsertFirstWins(t: map<MessageKey, MessageRow>, instance: string, sessionId: string,
                                           msgs: seq<Message>, j: nat)
    requires j < |msgs| && (instance, sessionId, msgs[j].id) !in t
    requires forall i :: 0 <= i < j ==> msgs[i].id != msgs[j].id
    ensures MessagesAfterInsert(t, instance, sessionId, msgs)[(instance, sessionId, msgs[j].id)] == MessageRowOf(msgs[j])
  {
    var init := msgs[..|msgs| - 1];
    var key := (instance, sessionId, msgs[j].id);
    if j < |msgs| - 1 {
      assert init[j] == msgs[j];
      InsertFirstWins(t, instance, sessionId, init, j);
      assert msgs[j] in init;
    }
  }

  /** A second insert under the same key, with any content, leaves the first row. */
  lemma SameKeyTwice(t: map<MessageKey, MessageRow>, instance: string, sessionId: string, a: Message, b: Message)
    requires a.id == b.id
    ensures var r := MessagesAfterInsert(t, instance, sessionId, [a, b]);
      r.Keys == t.Keys + {(instance, sessionId, a.id)}
      && r[(instance, sessionId, a.id)] == (if (instance, sessionId, a.id) in t then t[(instance, sessionId, a.id)] else MessageRowOf(a))
  {
    assert MessageKeys(instance, sessionId, [a, b]) == {(instance, sessionId, a.id)} by {
      assert a in [a, b] && b in [a, b];
    }
    if (instance, sessionId, a.id) !in t {
      InsertFirstWins(t, instance, sessionId, [a, b], 0);
    }
  }

  // ---------------------------------------------------------------------
  // Nothing stored is lost
  // ---------------------------------------------------------------------

  /**
    `b` extends `a`: every message and report row is still there and
    unchanged, every session is still there with its start time and an
    offset at least as large.
  */
  predicate Grows(a: Tables, b: Tables) {
    && (forall k :: k in a.messages ==> k in b.messages && b.messages[k] == a.messages[k])
    && (forall k :: k in a.reports ==> k in b.reports && b.reports[k] == a.reports[k])
    && (forall k :: k in a.sessions ==>
          (k in b.sessions && b.sessions[k].startedAt == a.sessions[k].startedAt
           && b.sessions[k].lastSyncedByte >= a.sessions[k].lastSyncedByte))
  }

  lemma GrowsTransitive(a: Tables, b: Tables, c: Tables)
    requires Grows(a, b) && Grows(b, c)
    ensures Grows(a, c)
  {
  }

  /** One pass over one file never removes or rewrites a stored row and never moves an offset back. */
  lemma SyncGrows(t: Tables, instance: string, sessionId: string, file: SessionFile, decode: Decoder, now: string)
    ensures Grows(t, SyncSpec(t, instance, sessionId, file, decode, now).1)
  {
  }

  lemma {:induction false} SyncFilesGrows(acc: RunTotals, instance: string, files: seq<SessionFile>,
                                          decode: Decoder, now: string)
    ensures var r := SyncFiles(acc, instance, files, decode, now);
      Grows(acc.tables, r.tables) && r.files >= acc.files && r.messages >= acc.messages
  {
    if files != [] {
      var mid := SyncFiles(acc, instance, files[..|files| - 1], decode, now);
      SyncFilesGrows(acc, instance, files[..|files| - 1], decode, now);
      var f := files[|files| - 1];
      SyncGrows(mid.tables, instance, SessionIdOf(f.name), f, decode, now);
      GrowsTransitive(acc.tables, mid.tables, SyncFiles(acc, instance, files, decode, now).tables);
    }
  }

  /** A whole run only adds: the monotonic offset and first-write-wins rules hold across every file. */
  lemma {:induction false} RunGrows(acc: RunTotals, instances: seq<Discovery.Instance>,
                                    listing: string -> seq<SessionFile>, decode: Decoder, now: string)
    ensures var r := SyncInstances(acc, instances, listing, decode, now);
      Grows(acc.tables, r.tables) && r.files >= acc.files && r.messages >= acc.messages
  {
    if instances != [] {
      var mid := SyncInstances(acc, instances[..|instances| - 1], listing, decode, now);
      RunGrows(acc, instances[..|instances| - 1], listing, decode, now);
      var inst := instances[|instances| - 1];
      SyncFilesGrows(mid, inst.instance, JsonlFiles(listing(inst.sessionsPath)), decode, now);
      GrowsTransitive(acc.tables, mid.tables, SyncInstances(acc, instances, listing, decode, now).tables);
    }
  }

  // ---------------------------------------------------------------------
  // Re-runs
  // ---------------------------------------------------------------------

  /** The tables after a pass that reads new bytes. */
  lemma SyncedShape(t: Tables, instance: string, sessionId: string, file: SessionFile, decode: Decoder, now: string)
    requires file.size.Some? && StoredOffset(t.sessions, (instance, sessionId)) < file.size.value
    ensures var stored := StoredOffset(t.sessions, (instance, sessionId));
      var st := Scan(stored, Split(file.read(stored), '\n'), decode, now);
      SyncSpec(t, instance, sessionId, file, decode, now)
        == (Synced(|st.messages|, st.completeBytes),
            Tables(SessionsAfterUpsert(t.sessions, (instance, sessionId), st.sessionData, |st.messages|, st.completeBytes, now),
                   MessagesAfterInsert(t.messages, instance, sessionId, st.messages),
                   ReportsAfter(t.reports, instance, sessionId, st.messages, st.sessionData, now)))
  {
    var stored := StoredOffset(t.sessions, (instance, sessionId));
    assert file.size.value != stored && !(file.size.value < stored);
  }

  /** A file whose size equals the offset of the pass that just ran is skipped next time, with no writes. */
  lemma RerunSkipped(t: Tables, instance: string, sessionId: string, file: SessionFile, decode: Decoder, now: string)
    requires SyncSpec(t, instance, sessionId, file, decode, now).0.Synced?
    requires file.size == Some(SyncSpec(t, instance, sessionId, file, decode, now).0.lastSyncedByte)
    ensures var t1 := SyncSpec(t, instance, sessionId, file, decode, now).1;
      SyncSpec(t1, instance, sessionId, file, decode, now) == (Skipped, t1)
  {
    var t1 := SyncSpec(t, instance, sessionId, file, decode, now).1;
    assert StoredOffset(t1.sessions, (instance, sessionId)) == file.size.value;
  }

  /**
    Idempotent re-run: when the bytes read decode to a delta that ends
    with a newline and whose lines all parse, the pass ends exactly at the
    file size and the next pass over the unchanged file writes nothing.
  */
  lemma CleanDeltaRerunSkipped(t: Tables, instance: string, sessionId: string, file: SessionFile,
                               decode: Decoder, now: string)
    requires file.size.Some?
    requires var stored := StoredOffset(t.sessions, (instance, sessionId));
      stored < file.size.value && Utf8Len(file.read(stored)) == file.size.value - stored
    requires var delta := file.read(StoredOffset(t.sessions, (instance, sessionId)));
      delta != [] && delta[|delta| - 1] == '\n'
      && forall i :: 0 <= i < |Split(delta, '\n')| - 1 ==> Counted(Split(delta, '\n')[i], decode)
    ensures var r := SyncSpec(t, instance, sessionId, file, decode, now);
      r.0.Synced? && r.0.lastSyncedByte == file.size.value
      && SyncSpec(r.1, instance, sessionId, file, decode, now) == (Skipped, r.1)
  {
    var stored := StoredOffset(t.sessions, (instance, sessionId));
    CleanDeltaReachesEnd(stored, file.read(stored), decode, now);
    SyncedShape(t, instance, sessionId, file, decode, now);
    var r := SyncSpec(t, instance, sessionId, file, decode, now);
    assert r.0.Synced? && r.0.lastSyncedByte == file.size.value;
    RerunSkipped(t, instance, sessionId, file, decode, now);
  }

  /**
    A trailing fragment that parses is counted with a newline it does
    not have: the offset lands one past the end of the file, and every
    later pass over the same file fails before writing anything.
  */
  lemma OvershootThenStuck(t: Tables, instance: string, sessionId: string, file: SessionFile,
                           decode: Decoder, now: string)
    requires file.size.Some?
    requires var stored := StoredOffset(t.sessions, (instance, sessionId));
      stored < file.size.value && Utf8Len(file.read(stored)) == file.size.value - stored
    requires var lines := Split(file.read(StoredOffset(t.sessions, (instance, sessionId))), '\n');
      forall i :: 0 <= i < |lines| ==> Counted(lines[i], decode)
    ensures var r := SyncSpec(t, instance, sessionId, file, decode, now);
      r.0.Synced? && r.0.lastSyncedByte == file.size.value + 1
      && SyncSpec(r.1, instance, sessionId, file, decode, now) == (Failed(NegativeLength), r.1)
  {
    var stored := StoredOffset(t.sessions, (instance, sessionId));
    ParsedTailOvershoots(stored, file.read(stored), decode, now);
  }

  /**
    Partial-line safety, second half: when the fragment left behind is
    completed into one message line, the next pass ingests exactly that
    message and ends at the file size.
  */
  lemma CompletedLineIngested(t: Tables, instance: string, sessionId: string, file: SessionFile,
                              decode: Decoder, now: string, line: string)
    requires file.size.Some?
    requires var stored := StoredOffset(t.sessions, (instance, sessionId));
      stored < file.size.value && file.read(stored) == line + "\n"
      && Utf8Len(line + "\n") == file.size.value - stored
    requires forall i :: 0 <= i < |line| ==> line[i] != '\n'
    requires Counted(line, decode) && MessageOf(decode(line).record, now).Some?
    ensures var r := SyncSpec(t, instance, sessionId, file, decode, now);
      r.0 == Synced(1, file.size.value)
      && (instance, sessionId, MessageOf(decode(line).record, now).value.id) in r.1.messages
  {
    var stored := StoredOffset(t.sessions, (instance, sessionId));
    var m := MessageOf(decode(line).record, now).value;
    var st := Scan(stored, Split(file.read(stored), '\n'), decode, now);
    assert st.messages == [m] && st.completeBytes == file.size.value by {
      ScanOneLine(stored, line, decode, now);
    }
    var r := SyncSpec(t, instance, sessionId, file, decode, now);
    assert r.0 == Synced(|st.messages|, st.completeBytes)
      && r.1.messages == MessagesAfterInsert(t.messages, instance, sessionId, st.messages) by {
      SyncedShape(t, instance, sessionId, file, decode, now);
    }
    assert m in st.messages;
  }

  lemma ScanOneLine(stored: nat, line: string, decode: Decoder, now: string)
    requires forall i :: 0 <= i < |line| ==> line[i] != '\n'
    requires Counted(line, decode) && MessageOf(decode(line).record, now).Some?
    ensures var st := Scan(stored, Split(line + "\n", '\n'), decode, now);
      st.messages == [MessageOf(decode(line).record, now).value]
      && st.completeBytes == stored + Utf8Len(line + "\n")
  {
    SplitOneLine(line);
    var st0 := Scan(stored, [], decode, now);
    assert [line][..0] == [];
    var st1 := Scan(stored, [line], decode, now);
    assert st1 == StepLine(st0, line, decode, now);
    StepMessages(st0, line, decode, now);
    assert st1.completeBytes == stored + Utf8Len(line) + 1;
    assert [line, ""][..1] == [line];
    assert Trim("") == "";
    assert Scan(stored, [line, ""], decode, now) == st1;
    Utf8LenAppend(line, "\n");
  }

  lemma {:induction false} SplitOneLine(line: string)
    requires forall i :: 0 <= i < |line| ==> line[i] != '\n'
    ensures Split(line + "\n", '\n') == [line, ""]
  {
    var s := line + "\n";
    if line != [] {
      SplitOneLine(line[1..]);
      assert s[1..] == line[1..] + "\n";
      assert s[0] == line[0] && s[0] != '\n';
      assert [line[0]] + line[1..] == line;
    } else {
      assert s[1..] == [];
    }
  }

  lemma {:induction false} ScanBlank(stored: nat, lines: seq<string>, decode: Decoder, now: string)
    requires forall i :: 0 <= i < |lines| ==> Trim(lines[i]) == ""
    ensures Scan(stored, lines, decode, now) == ScanState(stored, [], None)
  {
    if lines != [] {
      ScanBlank(stored, lines[..|lines| - 1], decode, now);
    }
  }

  /**
    A pass whose delta holds only blank lines still upserts the session:
    the offset stays, no message is added, and the stored message count,
    model and source are reset. This is what a re-run does after a blank
    line made the previous offset lag.
  */
  lemma BlankDeltaResetsSession(t: Tables, instance: string, sessionId: string, file: SessionFile,
                                decode: Decoder, now: string)
    requires file.size.Some? && StoredOffset(t.sessions, (instance, sessionId)) < file.size.value
    requires var lines := Split(file.read(StoredOffset(t.sessions, (instance, sessionId))), '\n');
      forall i :: 0 <= i < |lines| ==> Trim(lines[i]) == ""
    ensures var key := (instance, sessionId);
      var r := SyncSpec(t, instance, sessionId, file, decode, now);
      r.0 == Synced(0, StoredOffset(t.sessions, key))
      && r.1.messages == t.messages && r.1.reports == t.reports
      && r.1.sessions[key].messageCount == 0
      && r.1.sessions[key].model == None && r.1.sessions[key].source == None
  {
    var stored := StoredOffset(t.sessions, (instance, sessionId));
    var lines := Split(file.read(stored), '\n');
    assert lines == Split(file.read(StoredOffset(t.sessions, (instance, sessionId))), '\n');
    ScanBlank(stored, lines, decode, now);
  }

  // ---------------------------------------------------------------------
  // Cron reports
  // ---------------------------------------------------------------------

  /** A report is written only when the pass had messages, found a marker and saw a session record. */
  lemma ReportConditions(t: map<ReportKey, ReportRow>, instance: string, sessionId: string,
                         msgs: seq<Message>, info: Option<SessionInfo>, now: string)
    ensures ReportsAfter(t, instance, sessionId, msgs, info, now) != t ==>
      |msgs| > 0 && DetectCronSession(msgs).Some? && info.Some?
  {
  }

  /**
    A cron session whose batch has no assistant message still gets its
    report, with a null summary.
  */
  lemma NullSummaryReport(t: map<ReportKey, ReportRow>, instance: string, sessionId: string,
                          msgs: seq<Message>, info: Option<SessionInfo>, now: string)
    requires |msgs| > 0 && DetectCronSession(msgs).Some? && info.Some?
    requires (instance, sessionId, DetectCronSession(msgs).value.cronName) !in t
    requires forall j :: 0 <= j < |msgs| ==> msgs[j].role != "assistant"
    ensures var key := (instance, sessionId, DetectCronSession(msgs).value.cronName);
      var r := ReportsAfter(t, instance, sessionId, msgs, info, now);
      key in r && r[key].summary == None
  {
  }

  // ---------------------------------------------------------------------
  // End to end
  // ---------------------------------------------------------------------

  /**
    A fresh session file holding a session record and three messages
    (user with a cron marker, assistant, user) yields, in one pass, one
    session row counting three messages, three message rows, and one
    report whose summary is the assistant's text.
  */
  lemma EndToEnd(t: Tables, instance: string, sessionId: string, file: SessionFile, decode: Decoder, now: string,
                 lines: seq<string>, ts: string, model: Option<string>,
                 id1: string, id2: string, id3: string, c1: string, c2: string, c3: string)
    requires file.size.Some? && file.size.value > 0
    requires (instance, sessionId) !in t.sessions
    requires Split(file.read(0), '\n') == lines && |lines| == 5 && lines[4] == ""
    requires forall i :: 0 <= i < 4 ==> Trim(lines[i]) != ""
    requires decode(lines[0]) == Parsed(SessionRecord(Some(ts), model, None))
    requires decode(lines[1]) == Parsed(MessageRecord(id1, None, None, None, Some(Payload("user", PlainText(c1)))))
    requires decode(lines[2]) == Parsed(MessageRecord(id2, Some(id1), None, None, Some(Payload("assistant", PlainText(c2)))))
    requires decode(lines[3]) == Parsed(MessageRecord(id3, Some(id2), None, None, Some(Payload("user", PlainText(c3)))))
    requires c1 != "" && c2 != "" && c3 != "" && MatchCronMarker(c1).Some?
    requires id1 != id2 && id2 != id3 && id1 != id3
    requires (instance, sessionId, id1) !in t.messages && (instance, sessionId, id2) !in t.messages
      && (instance, sessionId, id3) !in t.messages
    requires forall k :: k in t.reports ==> k.0 != instance || k.1 != sessionId
    ensures var r := SyncSpec(t, instance, sessionId, file, decode, now);
      var name := CollapseSpaces(ToLower(MatchCronMarker(c1).value.1));
      && r.0.Synced? && r.0.processed == 3
      && r.1.sessions[(instance, sessionId)].messageCount == 3
      && r.1.messages.Keys == t.messages.Keys + {(instance, sessionId, id1), (instance, sessionId, id2), (instance, sessionId, id3)}
      && r.1.messages[(instance, sessionId, id2)].content == c2
      && r.1.reports.Keys == t.reports.Keys + {(instance, sessionId, name)}
      && r.1.reports[(instance, sessionId, name)].summary == Some(c2)
  {
    var m1 := Message(id1, None, "user", c1, "unknown", now);
    var m2 := Message(id2, Truthy(Some(id1)), "assistant", c2, "unknown", now);
    var m3 := Message(id3, Truthy(Some(id2)), "user", c3, "unknown", now);
    PlainMessage(decode(lines[1]).record, m1, now);
    PlainMessage(decode(lines[2]).record, m2, now);
    PlainMessage(decode(lines[3]).record, m3, now);
    ScanFive(lines, decode, now, m1, m2, m3);
    assert StoredOffset(t.sessions, (instance, sessionId)) == 0;
    SyncedShape(t, instance, sessionId, file, decode, now);
    var st := Scan(0, lines, decode, now);
    ScenarioMessages(t.messages, instance, sessionId, m1, m2, m3);
    ScenarioReport(t.reports, instance, sessionId, m1, m2, m3, st.sessionData, now);
  }

  lemma ScenarioMessages(t: map<MessageKey, MessageRow>, instance: string, sessionId: string,
                         m1: Message, m2: Message, m3: Message)
    requires m1.id != m2.id && (instance, sessionId, m2.id) !in t
    ensures var r := MessagesAfterInsert(t, instance, sessionId, [m1, m2, m3]);
      r.Keys == t.Keys + {(instance, sessionId, m1.id), (instance, sessionId, m2.id), (instance, sessionId, m3.id)}
      && r[(instance, sessionId, m2.id)] == MessageRowOf(m2)
  {
    var msgs := [m1, m2, m3];
    assert MessageKeys(instance, sessionId, msgs)
      == {(instance, sessionId, m1.id), (instance, sessionId, m2.id), (instance, sessionId, m3.id)} by {
      assert m1 in msgs && m2 in msgs && m3 in msgs;
    }
    InsertFirstWins(t, instance, sessionId, msgs, 1);
  }

  lemma ScenarioReport(t: map<ReportKey, ReportRow>, instance: string, sessionId: string,
                       m1: Message, m2: Message, m3: Message, info: Option<SessionInfo>, now: string)
    requires m1.role == "user" && m2.role == "assistant" && m3.role == "user"
    requires m1.content != "" && MatchCronMarker(m1.content).Some? && info.Some?
    requires forall k :: k in t ==> k.0 != instance || k.1 != sessionId
    ensures var name := CollapseSpaces(ToLower(MatchCronMarker(m1.content).value.1));
      var r := ReportsAfter(t, instance, sessionId, [m1, m2, m3], info, now);
      r.Keys == t.Keys + {(instance, sessionId, name)}
      && r[(instance, sessionId, name)].summary == Some(m2.content)
  {
    var msgs := [m1, m2, m3];
    assert FirstUser(msgs, 0) == Some(0);
    assert LastAssistant(msgs[..2]) == Some(1);
    assert LastAssistant(msgs) == Some(1);
    var name := CollapseSpaces(ToLower(MatchCronMarker(m1.content).value.1));
    assert DetectCronSession(msgs) == Some(CronInfo(MatchCronMarker(m1.content).value.0, name));
    assert ExtractSummary(msgs) == Some(m2.content);
  }

  /** A session line, three message lines and a trailing empty piece: the scan yields the three messages and the session data. */
  lemma ScanFive(lines: seq<string>, decode: Decoder, now: string, m1: Message, m2: Message, m3: Message)
    requires |lines| == 5 && lines[4] == ""
    requires forall i :: 0 <= i < 4 ==> Trim(lines[i]) != ""
    requires decode(lines[0]).Parsed? && decode(lines[0]).record.SessionRecord?
    requires decode(lines[1]).Parsed? && MessageOf(decode(lines[1]).record, now) == Some(m1)
    requires decode(lines[2]).Parsed? && MessageOf(decode(lines[2]).record, now) == Some(m2)
    requires decode(lines[3]).Parsed? && MessageOf(decode(lines[3]).record, now) == Some(m3)
    ensures Scan(0, lines, decode, now).messages == [m1, m2, m3]
    ensures Scan(0, lines, decode, now).sessionData.Some?
  {
    ScanFour(lines, decode, now, m1, m2, m3);
    ScanBlankLine(lines, 4, decode, now);
    assert lines[..5] == lines;
  }

  /** The first four lines of that delta. */
  lemma ScanFour(lines: seq<string>, decode: Decoder, now: string, m1: Message, m2: Message, m3: Message)
    requires |lines| >= 4
    requires forall i :: 0 <= i < 4 ==> Trim(lines[i]) != ""
    requires decode(lines[0]).Parsed? && decode(lines[0]).record.SessionRecord?
    requires decode(lines[1]).Parsed? && MessageOf(decode(lines[1]).record, now) == Some(m1)
    requires decode(lines[2]).Parsed? && MessageOf(decode(lines[2]).record, now) == Some(m2)
    requires decode(lines[3]).Parsed? && MessageOf(decode(lines[3]).record, now) == Some(m3)
    ensures Scan(0, lines[..4], decode, now).messages == [m1, m2, m3]
    ensures Scan(0, lines[..4], decode, now).sessionData.Some?
  {
    var s3 := Scan(0, lines[..3], decode, now);
    assert s3.messages == [m1, m2] && s3.sessionData.Some? by {
      ScanThree(lines, decode, now, m1, m2);
    }
    var s4 := Scan(0, lines[..4], decode, now);
    assert s4.messages == s3.messages + [m3] && s4.sessionData == s3.sessionData by {
      ScanMessageLine(lines, 3, decode, now, m3);
    }
    assert s3.messages + [m3] == [m1, m2, m3];
  }

  /** The first three lines of that delta. */
  lemma ScanThree(lines: seq<string>, decode: Decoder, now: string, m1: Message, m2: Message)
    requires |lines| >= 3
    requires forall i :: 0 <= i < 3 ==> Trim(lines[i]) != ""
    requires decode(lines[0]).Parsed? && decode(lines[0]).record.SessionRecord?
    requires decode(lines[1]).Parsed? && MessageOf(decode(lines[1]).record, now) == Some(m1)
    requires decode(lines[2]).Parsed? && MessageOf(decode(lines[2]).record, now) == Some(m2)
    ensures Scan(0, lines[..3], decode, now).messages == [m1, m2]
    ensures Scan(0, lines[..3], decode, now).sessionData.Some?
  {
    var s1, s2 := Scan(0, lines[..1], decode, now), Scan(0, lines[..2], decode, now);
    assert s1.messages == [] && s1.sessionData.Some? by {
      ScanSessionLine(lines, decode, now);
    }
    assert s2.messages == [m1] && s2.sessionData.Some? by {
      ScanMessageLine(lines, 1, decode, now, m1);
    }
    var s3 := Scan(0, lines[..3], decode, now);
    assert s3.messages == s2.messages + [m2] && s3.sessionData == s2.sessionData by {
      ScanMessageLine(lines, 2, decode, now, m2);
    }
  }

  /** The scan of one more line is one more step. */
  lemma ScanPrefixStep(lines: seq<string>, k: nat, decode: Decoder, now: string)
    requires k < |lines|
    ensures Scan(0, lines[..k + 1], decode, now) == StepLine(Scan(0, lines[..k], decode, now), lines[k], decode, now)
  {
    assert lines[..k + 1][..k] == lines[..k];
  }

  /** A blank line changes nothing. */
  lemma ScanBlankLine(lines: seq<string>, k: nat, decode: Decoder, now: string)
    requires k < |lines| && Trim(lines[k]) == ""
    ensures Scan(0, lines[..k + 1], decode, now) == Scan(0, lines[..k], decode, now)
  {
    ScanPrefixStep(lines, k, decode, now);
  }

  /** A leading `session` record sets the session data and adds no message. */
  lemma ScanSessionLine(lines: seq<string>, decode: Decoder, now: string)
    requires |lines| > 0 && Trim(lines[0]) != "" && decode(lines[0]).Parsed? && decode(lines[0]).record.SessionRecord?
    ensures Scan(0, lines[..1], decode, now).messages == []
    ensures Scan(0, lines[..1], decode, now).sessionData.Some?
  {
    ScanPrefixStep(lines, 0, decode, now);
    assert lines[..0] == [];
  }

  /** A plain-text `message` record with a role and content gives the row with the current time and source "unknown". */
  lemma PlainMessage(rec: Record, m: Message, now: string)
    requires rec.MessageRecord? && rec == MessageRecord(m.id, rec.parentId, None, None, Some(Payload(m.role, PlainText(m.content))))
    requires m.role == "user" || m.role == "assistant"
    requires m.content != "" && m.parentId == Truthy(rec.parentId)
    requires m.source == "unknown" && m.createdAt == now
    ensures MessageOf(rec, now) == Some(m)
  {
  }

  /** A line that yields message `m` appends it to the scan and leaves the session data alone. */
  lemma ScanMessageLine(lines: seq<string>, k: nat, decode: Decoder, now: string, m: Message)
    requires k < |lines| && Trim(lines[k]) != "" && decode(lines[k]).Parsed?
    requires MessageOf(decode(lines[k]).record, now) == Some(m)
    ensures Scan(0, lines[..k + 1], decode, now).messages == Scan(0, lines[..k], decode, now).messages + [m]
    ensures Scan(0, lines[..k + 1], decode, now).sessionData == Scan(0, lines[..k], decode, now).sessionData
  {
    ScanPrefixStep(lines, k, decode, now);
  }
}

=== FILE: text.dfy ===
/**
  String helpers shared by every part of the model, written to follow
  ECMAScript's own definitions: the white-space class behind `\s` and
  `trim()`, `split`, `join`, `replace` with a string pattern (first
  occurrence only), `indexOf`, `parseInt`, and the UTF-8 byte length that
  `Buffer.byteLength` reports.
*/
module Text {
  import opened Wrappers

  // ---------------------------------------------------------------------
  // Character classes
  // ---------------------------------------------------------------------

  /** ECMAScript WhiteSpace or LineTerminator: the class of `\s` and of `trim()`. */
  predicate IsSpace(c: char) {
    || c == '\t' || c == '\n' || c == '\U{000B}' || c == '\U{000C}' || c == '\r' || c == ' '
    || c == '\U{00A0}' || c == '\U{1680}' || ('\U{2000}' <= c <= '\U{200A}')
    || c == '\U{2028}' || c == '\U{2029}' || c == '\U{202F}' || c == '\U{205F}'
    || c == '\U{3000}' || c == '\U{FEFF}'
  }

  /** The characters that a regular-expression `.` does not match. */
  predicate IsLineTerminator(c: char) {
    c == '\n' || c == '\r' || c == '\U{2028}' || c == '\U{2029}'
  }

  /** The class `\w`: ASCII letters, digits and underscore. */
  predicate IsWordChar(c: char) {
    ('a' <= c <= 'z') || ('A' <= c <= 'Z') || ('0' <= c <= '9') || c == '_'
  }

  predicate IsDigit(c: char) {
    '0' <= c <= '9'
  }

  predicate AllSpace(s: string) {
    forall i :: 0 <= i < |s| ==> IsSpace(s[i])
  }

  predicate NoSpace(s: string) {
    forall i :: 0 <= i < |s| ==> !IsSpace(s[i])
  }

  predicate AllWordChars(s: string) {
    forall i :: 0 <= i < |s| ==> IsWordChar(s[i])
  }

  // ---------------------------------------------------------------------
  // Case
  // ---------------------------------------------------------------------

  function LowerChar(c: char): (d: char)
    ensures 'A' <= c <= 'Z' ==> d == (c as int + 32) as char
    ensures !('A' <= c <= 'Z') ==> d == c
    ensures !('A' <= d <= 'Z')
  {
    if 'A' <= c <= 'Z' then (c as int + 32) as char else c
  }

  /** `toLowerCase()` restricted to ASCII letters. */
  function ToLower(s: string): (r: string)
    ensures |r| == |s|
    ensures forall i :: 0 <= i < |s| ==> r[i] == LowerChar(s[i])
  {
    seq(|s|, i requires 0 <= i < |s| => LowerChar(s[i]))
  }

  lemma LowerKeepsWordChars(s: string)
    requires AllWordChars(s)
    ensures AllWordChars(ToLower(s)) && NoSpace(ToLower(s))
  {
  }

  // ---------------------------------------------------------------------
  // Searching
  // ---------------------------------------------------------------------

  predicate StartsWith(s: string, p: string) {
    |p| <= |s| && s[..|p|] == p
  }

  predicate EndsWith(s: string, p: string) {
    |p| <= |s| && s[|s| - |p|..] == p
  }

  predicate OccursAt(s: string, p: string, i: nat) {
    i + |p| <= |s| && s[i..i + |p|] == p
  }

  /** The first index at or after `from` where `p` occurs in `s`. */
  function IndexFrom(s: string, p: string, from: nat): (r: Option<nat>)
    requires from <= |s|
    ensures r.Some? ==> from <= r.value && OccursAt(s, p, r.value)
    ensures r.Some? ==> forall j :: from <= j < r.value ==> !OccursAt(s, p, j)
    ensures r.None? ==> forall j :: from <= j <= |s| ==> !OccursAt(s, p, j)
    decreases |s| - from
  {
    if OccursAt(s, p, from) then Some(from)
    else if from == |s| then None
    else IndexFrom(s, p, from + 1)
  }

  /** `s.indexOf(p)`, with "not found" as None. */
  function IndexOf(s: string, p: string): (r: Option<nat>)
    ensures r.Some? ==> OccursAt(s, p, r.value)
    ensures r.Some? ==> forall j :: 0 <= j < r.value ==> !OccursAt(s, p, j)
    ensures r.None? ==> forall j :: 0 <= j <= |s| ==> !OccursAt(s, p, j)
  {
    IndexFrom(s, p, 0)
  }

  /** `s.includes(p)`. */
  predicate Contains(s: string, p: string) {
    IndexOf(s, p).Some?
  }

  /** `s.replace(p, rep)` with a string pattern: only the first occurrence is replaced. */
  function ReplaceFirst(s: string, p: string, rep: string): (r: string)
    ensures !Contains(s, p) ==> r == s
    ensures Contains(s, p) ==>
      var i := IndexOf(s, p).value;
      i + |p| <= |s| && r == s[..i] + rep + s[i + |p|..]
  {
    match IndexOf(s, p)
    case None => s
    case Some(i) => s[..i] + rep + s[i + |p|..]
  }

  /** Removing a prefix through its first occurrence, which is at the start. */
  lemma RemovePrefix(p: string, rest: string)
    ensures ReplaceFirst(p + rest, p, "") == rest
  {
    var s := p + rest;
    assert OccursAt(s, p, 0) by {
      assert s[0..|p|] == p;
    }
    assert IndexOf(s, p) == Some(0);
    assert s[|p|..] == rest;
  }

  /**
    Removing an extension that starts with the only dot of the name:
    `(base + ext).replace(ext, '')` gives back `base`.
  */
  lemma RemoveExtension(base: string, ext: string)
    requires |ext| > 0 && ext[0] == '.'
    requires forall i :: 0 <= i < |base| ==> base[i] != '.'
    ensures ReplaceFirst(base + ext, ext, "") == base
  {
    var s := base + ext;
    assert OccursAt(s, ext, |base|) by {
      assert s[|base|..|base| + |ext|] == ext;
    }
    forall j | 0 <= j < |base| ensures !OccursAt(s, ext, j) {
      if j + |ext| <= |s| {
        assert s[j..j + |ext|][0] == s[j];
      }
    }
    assert s[..|base|] == base;
  }

  /** `s.replace(/c/g, rep)` for a single literal character `c`. */
  function ReplaceAllChar(s: string, c: char, rep: string): (r: string)
    ensures c !in s ==> r == s
    ensures c !in rep ==> c !in r
  {
    if s == [] then []
    else (if s[0] == c then rep else [s[0]]) + ReplaceAllChar(s[1..], c, rep)
  }

  /** On one character: `c` becomes `rep`, any other character stays. */
  lemma ReplaceAllCharSingle(x: char, c: char, rep: string)
    ensures ReplaceAllChar([x], c, rep) == (if x == c then rep else [x])
  {
    assert [x][1..] == [];
  }

  /** Replacing every `c` works piece by piece. */
  lemma {:induction false} ReplaceAllCharAppend(a: string, b: string, c: char, rep: string)
    ensures ReplaceAllChar(a + b, c, rep) == ReplaceAllChar(a, c, rep) + ReplaceAllChar(b, c, rep)
    decreases |a|
  {
    if a != [] {
      var head := if a[0] == c then rep else [a[0]];
      assert (a + b)[0] == a[0];
      assert (a + b)[1..] == a[1..] + b;
      ReplaceAllCharAppend(a[1..], b, c, rep);
      assert ReplaceAllChar(a + b, c, rep) == head + ReplaceAllChar(a[1..] + b, c, rep);
      assert ReplaceAllChar(a, c, rep) == head + ReplaceAllChar(a[1..], c, rep);
    } else {
      assert a + b == b;
    }
  }

  /** The end of the longest run of white space in `s` that starts at `i`. */
  function SpaceRunEnd(s: string, i: nat): (j: nat)
    requires i <= |s|
    ensures i <= j <= |s|
    ensures forall k :: i <= k < j ==> IsSpace(s[k])
    ensures j < |s| ==> !IsSpace(s[j])
    decreases |s| - i
  {
    if i < |s| && IsSpace(s[i]) then SpaceRunEnd(s, i + 1) else i
  }

  /** The run of white space from `i` ends at `j` when everything between is white space and `s[j]` is not. */
  lemma {:induction false} SpaceRunEndIs(s: string, i: nat, j: nat)
    requires i <= j <= |s|
    requires forall k :: i <= k < j ==> IsSpace(s[k])
    requires j < |s| ==> !IsSpace(s[j])
    ensures SpaceRunEnd(s, i) == j
    decreases j - i
  {
    if i < j {
      SpaceRunEndIs(s, i + 1, j);
    }
  }

  /** The end of the longest run of `\w` characters in `s` that starts at `i`. */
  function WordRunEnd(s: string, i: nat): (j: nat)
    requires i <= |s|
    ensures i <= j <= |s|
    ensures forall k :: i <= k < j ==> IsWordChar(s[k])
    ensures j < |s| ==> !IsWordChar(s[j])
    decreases |s| - i
  {
    if i < |s| && IsWordChar(s[i]) then WordRunEnd(s, i + 1) else i
  }

  /** The end of what a greedy `.*` matches in `s` from `i`: up to the first line terminator. */
  function LineEnd(s: string, i: nat): (j: nat)
    requires i <= |s|
    ensures i <= j <= |s|
    ensures forall k :: i <= k < j ==> !IsLineTerminator(s[k])
    ensures j < |s| ==> IsLineTerminator(s[j])
    decreases |s| - i
  {
    if i < |s| && !IsLineTerminator(s[i]) then LineEnd(s, i + 1) else i
  }

  // ---------------------------------------------------------------------
  // Trimming
  // ---------------------------------------------------------------------

  function TrimStart(s: string): (r: string)
    ensures |r| <= |s| && r == s[|s| - |r|..]
    ensures AllSpace(s[..|s| - |r|])
    ensures r != [] ==> !IsSpace(r[0])
  {
    if s != [] && IsSpace(s[0]) then
      var r := TrimStart(s[1..]);
      SpaceBefore(s, r);
      r
    else s
  }

  /** One more white-space character before a stripped suffix. */
  lemma SpaceBefore(s: string, r: string)
    requires s != [] && IsSpace(s[0])
    requires |r| <= |s| - 1 && r == s[1..][|s| - 1 - |r|..]
    requires AllSpace(s[1..][..|s| - 1 - |r|])
    ensures r == s[|s| - |r|..] && AllSpace(s[..|s| - |r|])
  {
    var front := s[..|s| - |r|];
    var rest := s[1..][..|s| - 1 - |r|];
    forall i | 0 <= i < |front| ensures IsSpace(front[i]) {
      if i > 0 {
        assert front[i] == rest[i - 1];
      }
    }
  }

  function TrimEnd(s: string): (r: string)
    ensures |r| <= |s| && r == s[..|r|]
    ensures AllSpace(s[|r|..])
    ensures r != [] ==> !IsSpace(r[|r| - 1])
  {
    if s != [] && IsSpace(s[|s| - 1]) then
      var r := TrimEnd(s[..|s| - 1]);
      SpaceAfter(s, r);
      r
    else s
  }

  /** One more white-space character after a stripped prefix. */
  lemma SpaceAfter(s: string, r: string)
    requires s != [] && IsSpace(s[|s| - 1])
    requires |r| <= |s| - 1 && r == s[..|s| - 1][..|r|]
    requires AllSpace(s[..|s| - 1][|r|..])
    ensures r == s[..|r|] && AllSpace(s[|r|..])
  {
    var back := s[|r|..];
    var rest := s[..|s| - 1][|r|..];
    forall i | 0 <= i < |back| ensures IsSpace(back[i]) {
      if i < |rest| {
        assert back[i] == rest[i];
      }
    }
  }

  /**
    `s.trim()`: a contiguous piece of `s` that neither begins nor ends
    with white space, and everything cut off on either side is white space.
  */
  function Trim(s: string): (r: string)
    ensures var i := |s| - |TrimStart(s)|; i + |r| <= |s| && r == s[i..i + |r|]
    ensures var i := |s| - |TrimStart(s)|; AllSpace(s[..i]) && AllSpace(s[i + |r|..])
    ensures r != [] ==> !IsSpace(r[0]) && !IsSpace(r[|r| - 1])
  {
    var t := TrimStart(s);
    var r := TrimEnd(t);
    PrefixOfSuffix(s, t, r);
    r
  }

  /** A prefix of a suffix is a slice; white space cut from the suffix's end is cut from the end of the whole. */
  lemma PrefixOfSuffix(s: string, t: string, r: string)
    requires |t| <= |s| && t == s[|s| - |t|..]
    requires |r| <= |t| && r == t[..|r|]
    requires AllSpace(t[|r|..])
    ensures r == s[|s| - |t|..|s| - |t| + |r|]
    ensures AllSpace(s[|s| - |t| + |r|..])
  {
    assert s[|s| - |t| + |r|..] == t[|r|..];
  }

  /** A string with no white space at either end is its own trim. */
  lemma TrimUnpadded(s: string)
    requires s != [] && !IsSpace(s[0]) && !IsSpace(s[|s| - 1])
    ensures Trim(s) == s
  {
    assert TrimStart(s) == s;
    assert TrimEnd(s) == s;
  }

  /** `trim()` gives the empty string exactly for blank strings. */
  lemma TrimEmptyIffBlank(s: string)
    ensures Trim(s) == [] <==> AllSpace(s)
  {
    var t := TrimStart(s);
    var r := TrimEnd(t);
    if r == [] {
      assert t == [];
      forall k | 0 <= k < |s| ensures IsSpace(s[k]) {
        assert s[k] == s[..|s| - |t|][k];
      }
    } else {
      assert !IsSpace(r[0]);
      assert r[0] == s[|s| - |t|];
    }
  }

  // ---------------------------------------------------------------------
  // split and join
  // ---------------------------------------------------------------------

  /** `s.split(sep)` for a one-character separator: never empty, no part holds `sep`. */
  function Split(s: string, sep: char): (parts: seq<string>)
    ensures |parts| >= 1
    ensures forall i :: 0 <= i < |parts| ==> sep !in parts[i]
    decreases |s|
  {
    if s == [] then [""]
    else
      var rest := Split(s[1..], sep);
      if s[0] == sep then [""] + rest else [[s[0]] + rest[0]] + rest[1..]
  }

  /** `parts.join(sep)`. */
  function Join(parts: seq<string>, sep: string): string
  {
    if |parts| == 0 then ""
    else if |parts| == 1 then parts[0]
    else parts[0] + sep + Join(parts[1..], sep)
  }

  lemma {:induction false} JoinConsHead(c: char, x: string, ys: seq<string>, sep: string)
    ensures Join([[c] + x] + ys, sep) == [c] + Join([x] + ys, sep)
  {
    if |ys| > 0 {
      assert ([[c] + x] + ys)[1..] == ys;
      assert ([x] + ys)[1..] == ys;
    }
  }

  /** Joining the parts of a split gives back the string. */
  lemma {:induction false} JoinSplit(s: string, sep: char)
    ensures Join(Split(s, sep), [sep]) == s
    decreases |s|
  {
    if s != [] {
      var rest := Split(s[1..], sep);
      JoinSplit(s[1..], sep);
      if s[0] == sep {
        assert ([""] + rest)[1..] == rest;
      } else {
        JoinConsHead(s[0], rest[0], rest[1..], [sep]);
        assert [rest[0]] + rest[1..] == rest;
      }
    }
  }

  lemma {:induction false} SplitNoSep(x: string, tail: string, sep: char)
    requires sep !in x
    ensures Split(x + tail, sep) == [x + Split(tail, sep)[0]] + Split(tail, sep)[1..]
    decreases |x|
  {
    if x != [] {
      assert (x + tail)[1..] == x[1..] + tail;
      SplitNoSep(x[1..], tail, sep);
      assert [x[0]] + (x[1..] + Split(tail, sep)[0]) == x + Split(tail, sep)[0];
    } else {
      assert x + tail == tail;
      assert x + Split(tail, sep)[0] == Split(tail, sep)[0];
      assert [Split(tail, sep)[0]] + Split(tail, sep)[1..] == Split(tail, sep);
    }
  }

  /** Splitting a join of separator-free parts gives back the parts. */
  lemma {:induction false} SplitJoin(parts: seq<string>, sep: char)
    requires |parts| >= 1
    requires forall i :: 0 <= i < |parts| ==> sep !in parts[i]
    ensures Split(Join(parts, [sep]), sep) == parts
  {
    if |parts| == 1 {
      SplitNoSep(parts[0], "", sep);
      assert parts[0] + "" == parts[0];
    } else {
      var rest := Join(parts[1..], [sep]);
      SplitJoin(parts[1..], sep);
      assert parts[0] + [sep] + rest == parts[0] + ([sep] + rest);
      SplitNoSep(parts[0], [sep] + rest, sep);
      assert ([sep] + rest)[1..] == rest;
      assert Split([sep] + rest, sep) == [""] + parts[1..];
      assert parts[0] + "" == parts[0];
      assert [parts[0]] + parts[1..] == parts;
    }
  }

  lemma {:induction false} JoinSnoc(parts: seq<string>, x: string, sep: string)
    requires |parts| >= 1
    ensures Join(parts + [x], sep) == Join(parts, sep) + sep + x
  {
    if |parts| == 1 {
      assert (parts + [x])[1..] == [x];
    } else {
      assert (parts + [x])[1..] == parts[1..] + [x];
      JoinSnoc(parts[1..], x, sep);
    }
  }

  // ---------------------------------------------------------------------
  // UTF-8 length
  // ---------------------------------------------------------------------

  /** The number of bytes UTF-8 uses for one Unicode scalar value. */
  function Utf8CharLen(c: char): (n: nat)
    ensures 1 <= n <= 4
    ensures c as int < 0x80 ==> n == 1
  {
    if c as int < 0x80 then 1
    else if c as int < 0x800 then 2
    else if c as int < 0x10000 then 3
    else 4
  }

  /** `Buffer.byteLength(s, 'utf8')`. */
  function Utf8Len(s: string): (n: nat)
    ensures |s| <= n <= 4 * |s|
  {
    if s == [] then 0 else Utf8CharLen(s[0]) + Utf8Len(s[1..])
  }

  lemma {:induction false} Utf8LenAppend(a: string, b: string)
    ensures Utf8Len(a + b) == Utf8Len(a) + Utf8Len(b)
    decreases |a|
  {
    if a != [] {
      assert (a + b)[1..] == a[1..] + b;
      Utf8LenAppend(a[1..], b);
    } else {
      assert a + b == b;
    }
  }

  // ---------------------------------------------------------------------
  // parseInt
  // ---------------------------------------------------------------------

  function DigitValue(c: char): (d: int)
    ensures -1 <= d < 16
    ensures IsDigit(c) ==> d == c as int - '0' as int
    ensures !IsDigit(c) ==> d < 0 || d >= 10
  {
    if '0' <= c <= '9' then c as int - '0' as int
    else if 'a' <= c <= 'f' then c as int - 'a' as int + 10
    else if 'A' <= c <= 'F' then c as int - 'A' as int + 10
    else -1
  }

  predicate IsRadixDigit(c: char, radix: nat) {
    0 <= DigitValue(c) < radix
  }

  /** The length of the longest prefix of `s` made of digits in `radix`. */
  function DigitPrefixLen(s: string, radix: nat): (n: nat)
    ensures n <= |s|
    ensures forall i :: 0 <= i < n ==> IsRadixDigit(s[i], radix)
    ensures n < |s| ==> !IsRadixDigit(s[n], radix)
  {
    if s != [] && IsRadixDigit(s[0], radix) then 1 + DigitPrefixLen(s[1..], radix) else 0
  }

  /** The value of a digit string, most significant digit first. */
  function DigitsValue(ds: string, radix: nat): (v: nat)
    requires forall i :: 0 <= i < |ds| ==> IsRadixDigit(ds[i], radix)
  {
    if ds == [] then 0
    else
      var init := ds[..|ds| - 1];
      assert forall i :: 0 <= i < |init| ==> init[i] == ds[i];
      assert IsRadixDigit(ds[|ds| - 1], radix);
      var high: nat := DigitsValue(init, radix);
      ProductOfNats(high, radix);
      var shifted: nat := high * radix;
      shifted + DigitValue(ds[|ds| - 1])
  }

  lemma ProductOfNats(a: nat, b: nat)
    ensures a * b >= 0
  {
  }

  /**
    `parseInt(s)` with no radix: leading white space is skipped, then an
    optional sign, then a `0x`/`0X` prefix selects base 16; the longest
    run of digits that follows is the value, and no digit at all is NaN
    (None).
  */
  function ParseInt(s: string): (r: Option<int>)
    ensures TrimStart(s) == [] ==> r.None?
  {
    ParseSigned(TrimStart(s))
  }

  /** An optional `-` or `+`, then a magnitude; `-` negates it. */
  function ParseSigned(t: string): (r: Option<int>)
    ensures t == [] ==> r.None?
  {
    var negative := t != [] && t[0] == '-';
    var u := if t != [] && (t[0] == '-' || t[0] == '+') then t[1..] else t;
    match ParseMagnitude(u)
    case None => None
    case Some(v) => var w: int := v; Some(if negative then -w else w)
  }

  /**
    After leading white space: a character that is neither a digit nor a
    sign gives NaN; a digit not followed by `x` gives a number; and the
    sign of a number is the sign written.
  */
  lemma ParseIntShape(s: string)
    ensures var t := TrimStart(s);
      t != [] && !IsDigit(t[0]) && t[0] != '-' && t[0] != '+' ==> ParseInt(s).None?
    ensures var t := TrimStart(s);
      t != [] && IsDigit(t[0]) && (|t| == 1 || (t[1] != 'x' && t[1] != 'X')) ==>
        ParseInt(s).Some? && ParseInt(s).value >= 0
    ensures var r := ParseInt(s);
      r.Some? ==> TrimStart(s) != [] && (TrimStart(s)[0] == '-' ==> r.value <= 0)
                  && (TrimStart(s)[0] != '-' ==> r.value >= 0)
  {
    var t := TrimStart(s);
    assert ParseInt(s) == ParseSigned(t);
    var u := if t != [] && (t[0] == '-' || t[0] == '+') then t[1..] else t;
    assert t != [] && t[0] != '-' && t[0] != '+' ==> u == t;
  }

  /** The unsigned part: a `0x`/`0X` prefix selects base 16, and the longest run of digits is the value. */
  function ParseMagnitude(u: string): (r: Option<nat>)
    ensures u == [] || !IsDigit(u[0]) ==> r.None?
    ensures u != [] && IsDigit(u[0]) && (|u| == 1 || (u[1] != 'x' && u[1] != 'X')) ==> r.Some?
  {
    var hex := |u| >= 2 && u[0] == '0' && (u[1] == 'x' || u[1] == 'X');
    var radix := if hex then 16 else 10;
    var body := if hex then u[2..] else u;
    var n := DigitPrefixLen(body, radix);
    if n == 0 then None else Some(DigitsValue(body[..n], radix))
  }

  function DecimalDigit(d: nat): (c: char)
    requires d < 10
    ensures IsDigit(c) && DigitValue(c) == d
  {
    ('0' as int + d) as char
  }

  /** The decimal numeral of `n`, without leading zeros. */
  function NatToString(n: nat): (s: string)
    ensures s != []
    ensures forall i :: 0 <= i < |s| ==> IsDigit(s[i])
  {
    if n < 10 then [DecimalDigit(n)] else NatToString(n / 10) + [DecimalDigit(n % 10)]
  }

  lemma {:induction false} NatToStringValue(n: nat)
    ensures DigitPrefixLen(NatToString(n), 10) == |NatToString(n)|
    ensures DigitsValue(NatToString(n), 10) == n
  {
    var s := NatToString(n);
    DigitPrefixAll(s, 10);
    if n >= 10 {
      NatToStringValue(n / 10);
      assert s[..|s| - 1] == NatToString(n / 10);
    }
  }

  lemma {:induction false} DigitPrefixAll(s: string, radix: nat)
    requires forall i :: 0 <= i < |s| ==> IsRadixDigit(s[i], radix)
    ensures DigitPrefixLen(s, radix) == |s|
  {
    if s != [] {
      DigitPrefixAll(s[1..], radix);
    }
  }

  /** `parseInt` reads back every decimal numeral it is given. */
  lemma ParseIntNatToString(n: nat)
    ensures ParseInt(NatToString(n)) == Some(n)
  {
    NatToStringValue(n);
    ParseIntDecimal(NatToString(n));
  }

  /** A plain run of decimal digits parses to its value. */
  lemma ParseIntDecimal(s: string)
    requires s != [] && forall i :: 0 <= i < |s| ==> IsDigit(s[i])
    requires DigitPrefixLen(s, 10) == |s|
    ensures ParseInt(s) == Some(DigitsValue(s, 10))
  {
    DigitIsNotSpace(s[0]);
    NoLeadingSpace(s);
    DecimalMagnitude(s);
    var t := TrimStart(s);
    assert t == s;
    assert !(t != [] && (t[0] == '-' || t[0] == '+'));
    var v := DigitsValue(s, 10);
    assert ParseMagnitude(t) == Some(v);
  }

  /**
    The value `parseInt` reads: after leading white space and an optional
    sign, the longest run of decimal digits, whatever text follows it.
  */
  lemma ParseIntDecimalPrefix(ws: string, sgn: string, ds: string, rest: string, n: nat)
    requires AllSpace(ws)
    requires sgn == "" || sgn == "-" || sgn == "+"
    requires ds != [] && forall i :: 0 <= i < |ds| ==> IsDigit(ds[i])
    requires rest == [] || !IsDigit(rest[0])
    requires !(ds == "0" && rest != [] && (rest[0] == 'x' || rest[0] == 'X'))
    requires n == DigitsValue(ds, 10)
    ensures ParseInt(ws + sgn + ds + rest) == Some(if sgn == "-" then -(n as int) else n)
  {
    ConcatAssoc(ws + sgn, ds, rest);
    assert (ds + rest)[0] == ds[0];
    DecimalMagnitudePrefix(ds, rest);
    ParseIntAfterSign(ws, sgn, ds + rest, n);
  }

  /** `0x`/`0X` after the optional sign reads the longest run of hexadecimal digits that follows. */
  lemma ParseIntHexPrefix(ws: string, sgn: string, x: char, hs: string, rest: string, n: nat)
    requires AllSpace(ws)
    requires sgn == "" || sgn == "-" || sgn == "+"
    requires x == 'x' || x == 'X'
    requires hs != [] && forall i :: 0 <= i < |hs| ==> IsRadixDigit(hs[i], 16)
    requires rest == [] || !IsRadixDigit(rest[0], 16)
    requires n == DigitsValue(hs, 16)
    ensures ParseInt(ws + sgn + "0" + [x] + hs + rest) == Some(if sgn == "-" then -(n as int) else n)
  {
    var p, a := ws + sgn, "0" + [x];
    var u := a + hs + rest;
    ConcatAssoc(p, "0", [x]);
    ConcatAssoc(p, a, hs);
    ConcatAssoc(p, a + hs, rest);
    assert u[0] == '0';
    HexMagnitudePrefix(x, hs, rest);
    ParseIntAfterSign(ws, sgn, u, n);
  }

  /** White space, then a sign, then a magnitude starting with a digit: the sign applies to the magnitude. */
  lemma ParseIntAfterSign(ws: string, sgn: string, u: string, v: nat)
    requires AllSpace(ws)
    requires sgn == "" || sgn == "-" || sgn == "+"
    requires u != [] && IsDigit(u[0]) && ParseMagnitude(u) == Some(v)
    ensures ParseInt(ws + sgn + u) == Some(if sgn == "-" then -(v as int) else v)
  {
    var t := sgn + u;
    assert ws + sgn + u == ws + t;
    DigitIsNotSpace(u[0]);
    assert t[0] == (if sgn == "" then u[0] else sgn[0]);
    TrimStartSkipsSpace(ws, t);
    assert ParseInt(ws + t) == ParseSigned(t);
    ParseSignedOf(sgn, u, v);
  }

  lemma ParseSignedOf(sgn: string, u: string, v: nat)
    requires sgn == "" || sgn == "-" || sgn == "+"
    requires u != [] && IsDigit(u[0]) && ParseMagnitude(u) == Some(v)
    ensures ParseSigned(sgn + u) == Some(if sgn == "-" then -(v as int) else v)
  {
    DigitIsNotSpace(u[0]);
    var t := sgn + u;
    if sgn == "" {
      assert t == u;
    } else {
      assert t[0] == sgn[0] && t[1..] == u;
    }
    assert (t[0] == '-') == (sgn == "-");
  }

  /** A decimal magnitude is the run of decimal digits before the first other character. */
  lemma DecimalMagnitudePrefix(ds: string, rest: string)
    requires ds != [] && forall i :: 0 <= i < |ds| ==> IsDigit(ds[i])
    requires rest == [] || !IsDigit(rest[0])
    requires !(ds == "0" && rest != [] && (rest[0] == 'x' || rest[0] == 'X'))
    ensures ParseMagnitude(ds + rest) == Some(DigitsValue(ds, 10))
  {
    var u := ds + rest;
    if |ds| >= 2 {
      DigitIsNotSpace(ds[1]);
      assert u[1] == ds[1];
    } else if rest != [] {
      assert u[1] == rest[0];
    }
    assert !(|u| >= 2 && u[0] == '0' && (u[1] == 'x' || u[1] == 'X'));
    DigitPrefixOf(ds, rest, 10);
    assert u[..|ds|] == ds;
  }

  /** A hexadecimal magnitude is the run of hexadecimal digits after `0x`. */
  lemma HexMagnitudePrefix(x: char, hs: string, rest: string)
    requires x == 'x' || x == 'X'
    requires hs != [] && forall i :: 0 <= i < |hs| ==> IsRadixDigit(hs[i], 16)
    requires rest == [] || !IsRadixDigit(rest[0], 16)
    ensures ParseMagnitude("0" + [x] + hs + rest) == Some(DigitsValue(hs, 16))
  {
    var a, body := "0" + [x], hs + rest;
    ConcatAssoc(a, hs, rest);
    var u := a + body;
    assert |a| == 2 && a[0] == '0' && a[1] == x;
    assert u[0] == '0' && u[1] == x && u[2..] == body;
    DigitPrefixOf(hs, rest, 16);
    assert (hs + rest)[..|hs|] == hs;
  }

  lemma ConcatAssoc(a: string, b: string, c: string)
    ensures a + b + c == a + (b + c)
  {
  }

  /** Leading white space is skipped up to the first other character. */
  lemma {:induction false} TrimStartSkipsSpace(ws: string, t: string)
    requires AllSpace(ws) && t != [] && !IsSpace(t[0])
    ensures TrimStart(ws + t) == t
    decreases |ws|
  {
    if ws == [] {
      assert ws + t == t;
      NoLeadingSpace(t);
    } else {
      assert (ws + t)[0] == ws[0];
      assert (ws + t)[1..] == ws[1..] + t;
      TrimStartSkipsSpace(ws[1..], t);
    }
  }

  /** A run of digits stops at the first character that is not one. */
  lemma {:induction false} DigitPrefixOf(ds: string, rest: string, radix: nat)
    requires forall i :: 0 <= i < |ds| ==> IsRadixDigit(ds[i], radix)
    requires rest == [] || !IsRadixDigit(rest[0], radix)
    ensures DigitPrefixLen(ds + rest, radix) == |ds|
    decreases |ds|
  {
    if ds == [] {
      assert ds + rest == rest;
    } else {
      assert (ds + rest)[0] == ds[0];
      assert (ds + rest)[1..] == ds[1..] + rest;
      DigitPrefixOf(ds[1..], rest, radix);
    }
  }

  lemma DecimalMagnitude(s: string)
    requires s != [] && forall i :: 0 <= i < |s| ==> IsDigit(s[i])
    requires DigitPrefixLen(s, 10) == |s|
    ensures ParseMagnitude(s) == Some(DigitsValue(s, 10))
  {
    DigitIsNotSpace(s[1 % |s|]);
    assert !(|s| >= 2 && s[0] == '0' && (s[1] == 'x' || s[1] == 'X'));
    assert s[..DigitPrefixLen(s, 10)] == s;
  }

  lemma DigitIsNotSpace(c: char)
    requires IsDigit(c)
    ensures !IsSpace(c) && c != '-' && c != '+' && c != 'x' && c != 'X'
  {
  }

  lemma NoLeadingSpace(s: string)
    requires s != [] && !IsSpace(s[0])
    ensures TrimStart(s) == s
  {
  }
}

=== FILE: transcript.dfy ===
/**
  The shape of one transcript line and the pure parts of the sync engine
  (services/memory-db/sync.js): content extraction, cron-marker detection
  and summary selection.
*/
module Transcript {
  import opened Wrappers
  import opened Text

  // ---------------------------------------------------------------------
  // Records, as JSON.parse leaves them
  // ---------------------------------------------------------------------

  /** One element of an array-valued `content`: its `type` and its `text` ("" when absent). */
  datatype Block = Block(kind: string, text: string)

  /** The `content` of a message: a plain string, an array of blocks, or any other JSON shape. */
  datatype Content = PlainText(text: string) | Segments(blocks: seq<Block>) | OtherShape

  /** The nested `message` object of a `message` record. */
  datatype Payload = Payload(role: string, content: Content)

  /** A decoded transcript line, told apart by its `type` field. */
  datatype Record =
    | SessionRecord(timestamp: Option<string>, model: Option<string>, source: Option<string>)
    | MessageRecord(id: string, parentId: Option<string>, source: Option<string>,
                    timestamp: Option<string>, message: Option<Payload>)
    | OtherRecord

  /**
    What `parseLine` returns for a line. `NoRecord` stands for every falsy
    outcome: a parse error caught by its `try`, or a JSON `null`, `false`,
    `0` or `""`.
  */
  datatype Decoded = NoRecord | Parsed(record: Record)

  /** The JSON decoder, given to the model as a function of the line's text. */
  type Decoder = string -> Decoded

  /** A normalised message row, as `syncFile` pushes it. */
  datatype Message = Message(id: string, parentId: Option<string>, role: string,
                             content: string, source: string, createdAt: string)

  /** `x || null` for an optional string: the empty string is falsy. */
  function Truthy(o: Option<string>): (r: Option<string>)
    ensures r.Some? ==> r == o && r.value != ""
    ensures o.Some? && o.value != "" ==> r == o
  {
    if o.Some? && o.value != "" then o else None
  }

  /** `x || d` for an optional string. */
  function OrDefault(o: Option<string>, d: string): (r: string)
    ensures o.Some? && o.value != "" ==> r == o.value
    ensures (o.None? || o.value == "") ==> r == d
  {
    if o.Some? && o.value != "" then o.value else d
  }

  // ---------------------------------------------------------------------
  // extractContent
  // ---------------------------------------------------------------------

  /** Block types whose text never reaches the message stream. */
  predicate IsDropped(kind: string) {
    kind == "thinking" || kind == "tool_call" || kind == "tool_result"
  }

  /** The texts `extractContent` collects from an array of blocks, in order. */
  function KeptTexts(blocks: seq<Block>): (ts: seq<string>)
    ensures |ts| <= |blocks|
    ensures forall i :: 0 <= i < |ts| ==> ts[i] != ""
  {
    if blocks == [] then []
    else
      var init := KeptTexts(blocks[..|blocks| - 1]);
      var b := blocks[|blocks| - 1];
      if IsDropped(b.kind) || b.text == "" then init else init + [b.text]
  }

  /**
    The value of `extractContent(message)`, None standing for `null`: a
    string is taken as it is, an array gives the texts of its kept blocks
    joined by newlines (null when none is kept), any other shape is null.
  */
  function ContentText(c: Content): (r: Option<string>)
    ensures c.PlainText? ==> r == Some(c.text)
    ensures c.OtherShape? ==> r.None?
    ensures c.Segments? ==> (r.None? <==> KeptTexts(c.blocks) == [])
    ensures c.Segments? && r.Some? ==> r.value == Join(KeptTexts(c.blocks), "\n") && r.value != ""
  {
    match c
    case PlainText(s) => Some(s)
    case Segments(bs) =>
      var joined := Join(KeptTexts(bs), "\n");
      JoinNonEmpty(KeptTexts(bs), "\n");
      if joined == "" then None else Some(joined)
    case OtherShape => None
  }

  /** Imperative form of `extractContent`: collects the kept texts in a loop, then joins them. */
  method ExtractContent(c: Content) returns (r: Option<string>)
    ensures r == ContentText(c)
  {
    match c {
      case PlainText(s) =>
        r := Some(s);
      case Segments(bs) =>
        var texts: seq<string> := [];
        var i := 0;
        while i < |bs|
          invariant 0 <= i <= |bs|
          invariant texts == KeptTexts(bs[..i])
        {
          var b := bs[i];
          assert bs[..i + 1][..i] == bs[..i];
          if b.kind == "thinking" || b.kind == "tool_call" || b.kind == "tool_result" {
            // skipped block
          } else if b.text != "" {
            texts := texts + [b.text];
          }
          i := i + 1;
        }
        assert bs[..|bs|] == bs;
        var joined := Join(texts, "\n");
        r := if joined == "" then None else Some(joined);
      case OtherShape =>
        r := None;
    }
  }

  lemma {:induction false} KeptTextsAppend(a: seq<Block>, b: seq<Block>)
    ensures KeptTexts(a + b) == KeptTexts(a) + KeptTexts(b)
    decreases |b|
  {
    if b == [] {
      assert a + b == a;
    } else {
      var b' := b[..|b| - 1];
      assert (a + b)[..|a + b| - 1] == a + b';
      KeptTextsAppend(a, b');
    }
  }

  lemma {:induction false} JoinNonEmpty(ts: seq<string>, sep: string)
    requires forall i :: 0 <= i < |ts| ==> ts[i] != ""
    ensures Join(ts, sep) == "" <==> ts == []
  {
    if |ts| >= 2 {
      assert |Join(ts, sep)| >= |ts[0]|;
    }
  }

  /**
    An array-valued content yields null exactly when no block survives the
    filter; otherwise the kept texts, joined by newlines.
  */
  lemma SegmentsContent(bs: seq<Block>)
    ensures ContentText(Segments(bs)).None? <==> KeptTexts(bs) == []
    ensures ContentText(Segments(bs)).Some? ==> ContentText(Segments(bs)).value != ""
  {
    JoinNonEmpty(KeptTexts(bs), "\n");
  }

  /** Appending a thinking/tool block, or a block without text, leaves the extracted content unchanged. */
  lemma DroppedBlockIgnored(bs: seq<Block>, b: Block)
    requires IsDropped(b.kind) || b.text == ""
    ensures ContentText(Segments(bs + [b])) == ContentText(Segments(bs))
  {
    KeptTextsAppend(bs, [b]);
    assert KeptTexts([b]) == [] by {
      assert [b][..0] == [];
    }
    assert KeptTexts(bs) + [] == KeptTexts(bs);
  }

  /** A reasoning block followed by a text block extracts to the text block's value alone. */
  lemma ThinkingThenText(thought: string, answer: string)
    requires answer != ""
    ensures ContentText(Segments([Block("thinking", thought), Block("text", answer)])) == Some(answer)
  {
    var bs := [Block("thinking", thought), Block("text", answer)];
    assert bs[..1] == [Block("thinking", thought)];
    assert bs[..1][..0] == [];
    assert KeptTexts(bs) == [answer];
  }

  // ---------------------------------------------------------------------
  // detectCronSession
  // ---------------------------------------------------------------------

  /** The class `[\w-]`. */
  predicate IsIdChar(c: char) {
    IsWordChar(c) || c == '-'
  }

  function IdRunEnd(s: string, i: nat): (j: nat)
    requires i <= |s|
    ensures i <= j <= |s|
    ensures forall k :: i <= k < j ==> IsIdChar(s[k])
    ensures j < |s| ==> !IsIdChar(s[j])
    decreases |s| - i
  {
    if i < |s| && IsIdChar(s[i]) then IdRunEnd(s, i + 1) else i
  }

  const CronPrefix: string := "[cron:"

  /**
    The match of `^\[cron:([\w-]+)\s+([^\]]+)\]` against `s`, as the
    backtracking engine finds it: the id is the longest run of `[\w-]`
    after the prefix, `\s+` takes the longest run of white space, and the
    name runs up to the first `]`; when that `]` follows the white space
    at once, `\s+` gives one white-space character back to the name.
  */
  function MatchCronMarker(s: string): (r: Option<(string, string)>)
    ensures !StartsWith(s, CronPrefix) ==> r.None?
    ensures r.Some? ==> r.value.0 != [] && r.value.1 != [] && |CronPrefix| + |r.value.0| + |r.value.1| < |s|
  {
    if !StartsWith(s, CronPrefix) then None
    else
      var idEnd := IdRunEnd(s, 6);
      var wsEnd := SpaceRunEnd(s, idEnd);
      if idEnd == 6 || wsEnd == idEnd then None
      else
        match IndexFrom(s, "]", wsEnd)
        case None => None
        case Some(k) =>
          if k > wsEnd then Some((s[6..idEnd], s[wsEnd..k]))
          else if wsEnd - idEnd >= 2 then Some((s[6..idEnd], s[wsEnd - 1..k]))
          else None
  }

  /** `s` begins with a marker whose parts are `id`, the white space `ws` and `name`. */
  predicate MarkerShape(s: string, id: string, ws: string, name: string) {
    && StartsWith(s, CronPrefix + id + ws + name + "]")
    && id != [] && (forall i :: 0 <= i < |id| ==> IsIdChar(id[i]))
    && ws != [] && AllSpace(ws)
    && name != [] && ']' !in name
  }

  /** Every match the model reports has the shape the pattern describes. */
  lemma CronMarkerSound(s: string) returns (ws: string)
    requires MatchCronMarker(s).Some?
    ensures MarkerShape(s, MatchCronMarker(s).value.0, ws, MatchCronMarker(s).value.1)
  {
    var idEnd := IdRunEnd(s, 6);
    var wsEnd := SpaceRunEnd(s, idEnd);
    var k := IndexFrom(s, "]", wsEnd).value;
    var start := if k > wsEnd then wsEnd else wsEnd - 1;
    NoCloseBefore(s, idEnd, wsEnd, start, k);
    assert s[k] == ']' by { assert s[k..k + 1] == "]"; }
    ws := s[idEnd..start];
    SlicesCompose(s, idEnd, start, k);
  }

  lemma NoCloseBefore(s: string, idEnd: nat, wsEnd: nat, start: nat, k: nat)
    requires idEnd <= start <= wsEnd <= k < |s|
    requires forall i :: idEnd <= i < wsEnd ==> IsSpace(s[i])
    requires forall j :: wsEnd <= j < k ==> !OccursAt(s, "]", j)
    ensures ']' !in s[start..k]
  {
    forall i | start <= i < k ensures s[i] != ']' {
      if i >= wsEnd {
        assert !OccursAt(s, "]", i);
        assert s[i..i + 1] == [s[i]];
      } else {
        assert IsSpace(s[i]);
      }
    }
  }

  lemma SlicesCompose(s: string, idEnd: nat, start: nat, k: nat)
    requires 6 <= idEnd <= start <= k < |s|
    requires StartsWith(s, CronPrefix) && s[k] == ']'
    ensures StartsWith(s, CronPrefix + s[6..idEnd] + s[idEnd..start] + s[start..k] + "]")
  {
    var m := CronPrefix + s[6..idEnd] + s[idEnd..start] + s[start..k] + "]";
    assert |m| == k + 1;
    assert s[..6] == CronPrefix;
    assert s[..k + 1] == s[..6] + s[6..idEnd] + s[idEnd..start] + s[start..k] + [s[k]];
  }

  /**
    Every string with the marker's shape is matched, the id is the one
    written, and so is the name when it does not begin with white space.
  */
  lemma CronMarkerComplete(s: string, id: string, ws: string, name: string)
    requires MarkerShape(s, id, ws, name)
    ensures MatchCronMarker(s).Some?
    ensures MatchCronMarker(s).value.0 == id
    ensures !IsSpace(name[0]) ==> MatchCronMarker(s).value.1 == name
  {
    var idEnd := 6 + |id|;
    var nameStart := idEnd + |ws|;
    var p := nameStart + |name|;
    MarkerSlices(s, id, ws, name);
    forall k | 6 <= k < idEnd ensures IsIdChar(s[k]) {
      assert s[k] == s[6..idEnd][k - 6];
    }
    assert s[idEnd] == ws[0] by {
      assert s[idEnd] == s[idEnd..nameStart][0];
    }
    IdRunEndIs(s, 6, idEnd);
    var wsEnd := SpaceRunEnd(s, idEnd);
    SpaceRunSpans(s, idEnd, ws, p);
    forall j | nameStart <= j < p ensures s[j] != ']' {
      assert s[j] == s[nameStart..p][j - nameStart];
    }
    CloseAt(s, wsEnd, p);
    if !IsSpace(name[0]) {
      assert s[nameStart] == s[nameStart..p][0];
      SpaceRunEndIs(s, idEnd, nameStart);
    }
  }

  /** The pieces of a marker sit where the shape puts them. */
  lemma MarkerSlices(s: string, id: string, ws: string, name: string)
    requires StartsWith(s, CronPrefix + id + ws + name + "]")
    ensures 6 + |id| + |ws| + |name| < |s|
    ensures s[..6] == CronPrefix
    ensures s[6..6 + |id|] == id
    ensures s[6 + |id|..6 + |id| + |ws|] == ws
    ensures s[6 + |id| + |ws|..6 + |id| + |ws| + |name|] == name
    ensures s[6 + |id| + |ws| + |name|] == ']'
  {
    var m := CronPrefix + id + ws + name + "]";
    var a, b, c := 6 + |id|, 6 + |id| + |ws|, 6 + |id| + |ws| + |name|;
    assert s[c] == s[..|m|][c];
    SliceOfPrefix(s, m, 0, 6);
    assert m[0..6] == CronPrefix;
    SliceOfPrefix(s, m, 6, a);
    assert m[6..a] == id;
    SliceOfPrefix(s, m, a, b);
    assert m[a..b] == ws;
    SliceOfPrefix(s, m, b, c);
    assert m[b..c] == name;
    assert s[..6] == s[0..6];
  }

  lemma SliceOfPrefix(s: string, m: string, lo: nat, hi: nat)
    requires StartsWith(s, m) && lo <= hi <= |m|
    ensures s[lo..hi] == m[lo..hi]
  {
    assert forall k :: lo <= k < hi ==> s[k] == s[..|m|][k];
  }

  /** A run of white space written at `i` is taken whole, and stops before the `]` at `p`. */
  lemma SpaceRunSpans(s: string, i: nat, ws: string, p: nat)
    requires i + |ws| <= p < |s| && s[i..i + |ws|] == ws && AllSpace(ws) && s[p] == ']'
    ensures i + |ws| <= SpaceRunEnd(s, i) <= p
  {
    forall k | i <= k < i + |ws| ensures IsSpace(s[k]) {
      assert s[k] == s[i..i + |ws|][k - i];
    }
    assert !IsSpace(s[p]);
  }

  /** The first `]` at or after `from` is at `p` when none comes earlier. */
  lemma CloseAt(s: string, from: nat, p: nat)
    requires from <= p < |s| && s[p] == ']'
    requires forall j :: from <= j < p ==> s[j] != ']'
    ensures IndexFrom(s, "]", from) == Some(p)
  {
    assert OccursAt(s, "]", p) by {
      assert s[p..p + 1] == [s[p]];
    }
    forall j | from <= j < p ensures !OccursAt(s, "]", j) {
      assert s[j..j + 1] == [s[j]];
    }
  }

  lemma {:induction false} IdRunEndIs(s: string, i: nat, j: nat)
    requires i <= j < |s|
    requires forall k :: i <= k < j ==> IsIdChar(s[k])
    requires !IsIdChar(s[j])
    ensures IdRunEnd(s, i) == j
    decreases j - i
  {
    if i < j {
      IdRunEndIs(s, i + 1, j);
    }
  }

  /** `s.replace(/\s+/g, '-')`: every maximal run of white space becomes one hyphen. */
  function CollapseSpaces(s: string): (r: string)
    ensures NoSpace(r)
    ensures |r| <= |s|
    ensures NoSpace(s) ==> r == s
    decreases |s|
  {
    if s == [] then []
    else if IsSpace(s[0]) then "-" + CollapseSpaces(s[SpaceRunEnd(s, 0)..])
    else [s[0]] + CollapseSpaces(s[1..])
  }

  datatype CronInfo = CronInfo(cronId: string, cronName: string)

  /** The index of the first message with role `user` and non-empty content. */
  function FirstUser(msgs: seq<Message>, from: nat): (r: Option<nat>)
    requires from <= |msgs|
    ensures r.Some? ==> from <= r.value < |msgs| && msgs[r.value].role == "user" && msgs[r.value].content != ""
    ensures r.Some? ==> forall j :: from <= j < r.value ==> !(msgs[j].role == "user" && msgs[j].content != "")
    ensures r.None? ==> forall j :: from <= j < |msgs| ==> !(msgs[j].role == "user" && msgs[j].content != "")
    decreases |msgs| - from
  {
    if from == |msgs| then None
    else if msgs[from].role == "user" && msgs[from].content != "" then Some(from)
    else FirstUser(msgs, from + 1)
  }

  /**
    `detectCronSession`: the first user message with content decides; its
    marker's second group, lower-cased, with white-space runs turned into
    hyphens, is the job name.
  */
  function DetectCronSession(msgs: seq<Message>): (r: Option<CronInfo>)
    ensures r.Some? ==> NoSpace(r.value.cronName) && r.value.cronId != ""
    ensures r.Some? ==>
      (FirstUser(msgs, 0).Some? && MatchCronMarker(msgs[FirstUser(msgs, 0).value].content).Some?)
    ensures FirstUser(msgs, 0).None? ==> r.None?
    ensures FirstUser(msgs, 0).Some? && MatchCronMarker(msgs[FirstUser(msgs, 0).value].content).Some? ==>
      var groups := MatchCronMarker(msgs[FirstUser(msgs, 0).value].content).value;
      r == Some(CronInfo(groups.0, CollapseSpaces(ToLower(groups.1))))
  {
    if |msgs| == 0 then None
    else
      match FirstUser(msgs, 0)
      case None => None
      case Some(i) =>
        match MatchCronMarker(msgs[i].content)
        case None => None
        case Some(groups) => Some(CronInfo(groups.0, CollapseSpaces(ToLower(groups.1))))
  }

  /** The index of the last message with role `assistant`. */
  function LastAssistant(msgs: seq<Message>): (r: Option<nat>)
    ensures r.Some? ==> r.value < |msgs| && msgs[r.value].role == "assistant"
    ensures r.Some? ==> forall j :: r.value < j < |msgs| ==> msgs[j].role != "assistant"
    ensures r.None? ==> forall j :: 0 <= j < |msgs| ==> msgs[j].role != "assistant"
  {
    if msgs == [] then None
    else if msgs[|msgs| - 1].role == "assistant" then Some(|msgs| - 1)
    else LastAssistant(msgs[..|msgs| - 1])
  }

  /** `extractSummary`: the content of the last assistant message, or null when there is none. */
  function ExtractSummary(msgs: seq<Message>): (r: Option<string>)
    ensures r.None? <==> forall j :: 0 <= j < |msgs| ==> msgs[j].role != "assistant"
    ensures r.Some? ==> exists j :: 0 <= j < |msgs| && msgs[j].role == "assistant" && r.value == msgs[j].content
    ensures r.Some? ==> LastAssistant(msgs).Some? && r.value == msgs[LastAssistant(msgs).value].content
  {
    match LastAssistant(msgs)
    case None => None
    case Some(i) => ContentText(PlainText(msgs[i].content))
  }

  lemma {:induction false} CollapseKeepsPlainPrefix(a: string, b: string)
    requires NoSpace(a)
    ensures CollapseSpaces(a + b) == a + CollapseSpaces(b)
    decreases |a|
  {
    if a == [] {
      assert a + b == b;
    } else {
      var rest := CollapseSpaces(a[1..] + b);
      assert CollapseSpaces(a + b) == [a[0]] + rest by {
        assert a + b == [a[0]] + (a[1..] + b);
        CollapseConsPlain(a[0], a[1..] + b);
      }
      assert rest == a[1..] + CollapseSpaces(b) by {
        CollapseKeepsPlainPrefix(a[1..], b);
      }
      ConsThenAppend(a, CollapseSpaces(b));
    }
  }

  /** Putting the head of a non-empty text back before its tail and a suffix rebuilds the text and the suffix. */
  lemma ConsThenAppend(a: string, v: string)
    requires a != []
    ensures [a[0]] + (a[1..] + v) == a + v
  {
    assert [a[0]] + a[1..] == a;
  }

  /** A character that is not white space passes through the collapse. */
  lemma CollapseConsPlain(x: char, t: string)
    requires !IsSpace(x)
    ensures CollapseSpaces([x] + t) == [x] + CollapseSpaces(t)
  {
    assert ([x] + t)[1..] == t;
  }

  /**
    A run of white space after a word, up to the next non-space character,
    becomes a single hyphen.
  */
  lemma CollapseRun(a: string, ws: string, b: string)
    requires NoSpace(a) && ws != [] && AllSpace(ws) && (b == [] || !IsSpace(b[0]))
    ensures CollapseSpaces(a + ws + b) == a + "-" + CollapseSpaces(b)
  {
    var tail := ws + b;
    assert a + ws + b == a + tail;
    CollapseKeepsPlainPrefix(a, tail);
    forall k | 0 <= k < |ws| ensures IsSpace(tail[k]) {
      assert tail[k] == ws[k];
    }
    assert |ws| < |tail| ==> tail[|ws|] == b[0];
    SpaceRunEndIs(tail, 0, |ws|);
    assert tail[|ws|..] == b;
    assert a + ("-" + CollapseSpaces(b)) == a + "-" + CollapseSpaces(b);
  }

  lemma CollapseSingleSpace(c: char, b: string)
    requires IsSpace(c) && (b == [] || !IsSpace(b[0]))
    ensures CollapseSpaces([c] + b) == "-" + CollapseSpaces(b)
  {
    assert SpaceRunEnd([c] + b, 1) == 1;
    assert ([c] + b)[1..] == b;
  }

  lemma DailyReportGroups(s: string)
    requires s == "[cron:abc-123 Daily Report] Run now"
    ensures MatchCronMarker(s) == Some(("abc-123", "Daily Report"))
  {
    ExampleShape(s);
    CronMarkerComplete(s, "abc-123", " ", "Daily Report");
  }

  lemma ExampleShape(s: string)
    requires s == "[cron:abc-123 Daily Report] Run now"
    ensures MarkerShape(s, "abc-123", " ", "Daily Report") && !IsSpace("Daily Report"[0])
  {
    ExamplePrefix(s);
    var id := "abc-123";
    assert forall i :: 0 <= i < |id| ==> IsIdChar(id[i]);
    assert AllSpace(" ");
  }

  lemma ExamplePrefix(s: string)
    requires s == "[cron:abc-123 Daily Report] Run now"
    ensures StartsWith(s, CronPrefix + "abc-123" + " " + "Daily Report" + "]")
  {
    assert s[..27] == CronPrefix + "abc-123" + " " + "Daily Report" + "]";
  }

  lemma LowerDailyReport(name: string, lower: string)
    requires name == "Daily Report" && lower == ToLower(name)
    ensures lower == "daily" + " " + "report"
  {
  }

  /** Two words with one white-space character between them collapse to the words joined by a hyphen. */
  lemma CollapseOneGap(a: string, c: char, b: string)
    requires NoSpace(a) && NoSpace(b) && IsSpace(c)
    ensures CollapseSpaces(a + [c] + b) == a + "-" + b
  {
    assert AllSpace([c]);
    CollapseRun(a, [c], b);
    assert CollapseSpaces(b) == b;
  }

  lemma DailyReportName(lower: string)
    requires lower == "daily" + " " + "report"
    ensures CollapseSpaces(lower) == "daily-report"
  {
    assert NoSpace("daily") && NoSpace("report");
    CollapseOneGap("daily", ' ', "report");
    HyphenJoined();
  }

  lemma HyphenJoined()
    ensures "daily" + "-" + "report" == "daily-report"
  {
  }

  /** The example marker classifies to job name `daily-report`. */
  lemma DailyReportExample(m: Message)
    requires m.role == "user" && m.content == "[cron:abc-123 Daily Report] Run now"
    ensures DetectCronSession([m]) == Some(CronInfo("abc-123", "daily-report"))
  {
    DailyReportGroups(m.content);
    LowerDailyReport("Daily Report", ToLower("Daily Report"));
    DailyReportName(ToLower("Daily Report"));
    assert FirstUser([m], 0) == Some(0);
  }
}

=== FILE: wrappers.dfy ===
/** The optional value used wherever the source has `null`, `undefined` or `NaN`. */
module Wrappers {

  datatype Option<+T> = None | Some(value: T) {

    /** The value, or `default` when there is none. */
    function GetOr(default: T): T {
      match this
      case Some(v) => v
      case None => default
    }
  }
}
